=== FILE: README.md ===
# t-sattai backend, modelled in Dafny

This is a model of the business rules of the t-sattai shop's Laravel API: catalogue, cart, wishlist, reviews, checkout with a card gateway, customer and back-office orders, users, categories, the admin dashboard and the production CORS middleware.

The database is one immutable `Schema.Store` record. Each table is a sequence of rows in insertion order, and `nextId` is the auto-increment counter. Every endpoint is a pure function from a store and a request to a `Step`, which pairs the JSON response with the store after the call. A response is `Success(status, message, data)` or `Failure(status, message)`. Where the source opens a transaction and rolls it back on error, the model returns the unchanged store with the failure.

Some things outside the code become inputs:
- The payment gateway's answer is a `Gateway` value: an answer record or an API error.
- The clock is a `now`/window parameter.
- `uniqid()` order numbers are a parameter.
- `asset()` is an application-URL parameter.

The modules follow the controllers:

| file | module | what it holds |
|---|---|---|
| base.dfy | `Base` | `Option`, responses, `Filter`/`First`/`Count`/`Sum`, exact means |
| schema.dfy | `Schema` | rows of every table, the store, lookups by id |
| ordering.dfy | `Ordering` | insertion sort, `orderBy … limit n`, string collation |
| sql.dfy | `Sql` | `LIKE` matching and `paginate` |
| text.dfy | `Text` | `Str::slug`, case mapping, decimal rendering |
| pricing.dfy | `Pricing` | effective price, cart subtotal, tax and order total |
| carts.dfy | `Carts` | `CartController` |
| checkout.dfy | `Checkout` | `PaymentController` |
| wishlists.dfy | `Wishlists` | `WishlistController` |
| reviews.dfy | `Reviews` | `ReviewController` |
| orders.dfy | `Orders` | customer and admin `OrderController` |
| users.dfy | `Users` | `AdminController` user management, `UserController` |
| catalogue.dfy | `Catalogue` | `ProductController` |
| categories.dfy | `Categories` | `Category` model, public `CategoryController` |
| admin_categories.dfy | `AdminCategories` | back-office `CategoryController` |
| dashboard.dfy | `Dashboard` | `DashboardController` |
| cors.dfy | `Cors` | `ForceCorsProdMiddleware` |

Money:
- Product and order-item prices are integer cents.
- Order amounts (subtotal, 8% tax, 10.00 shipping, total) are exact `real` cents.
- Averages are exact rationals, so the source's `round` is not modelled.

## Model

| member | source | states |
|---|---|---|
| Base.Mean | app/Http/Controllers/Api/Admin/AdminController.php:117 | an average is 0 when there is nothing to average, otherwise total / n exactly; it is non-negative for a non-negative total |
| Base.MeanBetween | app/Http/Controllers/Api/ReviewController.php:171-181 | when n values each lie in [lo, hi], their mean lies in [lo, hi] |
| Base.First | app/Http/Controllers/Api/Admin/OrderController.php:146-148 | `first()` finds nothing exactly when no row matches, and what it finds is a matching row of the table |
| Base.FirstIsEarliest | app/Http/Controllers/Api/PaymentController.php:201 | `first()` returns the earliest matching row: no row before it matches |
| Ordering.Sort | app/Models/Category.php:75-78 | `orderBy` yields a permutation of the rows sorted by the comparison |
| Ordering.TopRows | app/Http/Controllers/Api/Admin/DashboardController.php:103-110 | `orderBy … limit n` keeps min(rows, n) rows of the input (a sub-multiset), sorted; every kept row ranks at or ahead of every dropped row, and a row is dropped only when n rows were kept |
| Ordering.PrefixRanksFirst | app/Http/Controllers/Api/Admin/DashboardController.php:103-110 | in a sorted sequence every row of a prefix ranks at or ahead of every row outside it |
| Ordering.StrLeTotalPreorder | app/Models/Category.php:75-78 | ordering names by code points is total and transitive, so it is a valid sort key |
| Sql.ContainsIsSubstring | app/Http/Controllers/Api/UserController.php:45-51 | `LIKE '%term%'` for a term without wildcards holds exactly when the term occurs as a substring |
| Sql.PrefixMatch | app/Http/Controllers/Api/UserController.php:45-51 | `LIKE 'term%'` holds exactly when the text starts with the term |
| Sql.LeadingPercent | app/Http/Controllers/Api/UserController.php:45-51 | a leading `%` matches exactly when the rest of the pattern matches some suffix of the text |
| Sql.Paginate | app/Http/Controllers/Api/UserController.php:66-68 | the page is the slice of the input that starts at (page − 1) · perPage (15 when perPage is 0) and holds min(perPage, rows left) rows |
| Sql.SortedPage | app/Http/Controllers/Api/OrderController.php:50-51 | sorting then paging gives the page of the sorted rows, sorted, a sub-multiset of the input; on page 1 every row shown ranks at or ahead of every row left out |
| Sql.EveryRowOnItsPage | app/Http/Controllers/Api/UserController.php:66-68 | paging loses no row: row k is entry k mod perPage of page k div perPage + 1 |
| Sql.PageIsSlice | app/Http/Controllers/Api/UserController.php:66-68 | a non-empty page is a contiguous slice of the rows |
| Sql.PageOfSorted | app/Http/Controllers/Api/OrderController.php:50-51 | a page of a sorted listing is itself sorted |
| Text.Slug | app/Models/Category.php:58-62 | a slug is lower-case letters, digits and single inner dashes, with no dash at either end |
| Text.SlugIdempotent | app/Models/Category.php:58-62 | slugging a slug changes nothing |
| Text.SlugOfSlug | app/Models/Category.php:58-62 | every well-formed slug is its own slug |
| Text.NatToString | app/Http/Controllers/Api/Admin/AdminController.php:312 | a timestamp renders as a non-empty string of decimal digits |
| Schema.FindProductExists | app/Http/Controllers/Api/CartController.php:49-52 | `find` succeeds exactly when a product row with that id exists |
| Pricing.EffectivePrice | app/Http/Controllers/Api/PaymentController.php:68 | the sale price when one is set, otherwise the list price |
| Pricing.UserCart | app/Http/Controllers/Api/PaymentController.php:54-56 | the caller's cart holds exactly the rows whose owner is the caller |
| Pricing.DropUserLines | app/Http/Controllers/Api/PaymentController.php:335 | deleting one user's lines empties that user's cart and leaves every other user's cart as it was |
| Pricing.SubtotalAppend | app/Http/Controllers/Api/PaymentController.php:241-245 | the subtotal of two runs of lines is the sum of their subtotals |
| Pricing.SubtotalNonNegative | app/Http/Controllers/Api/PaymentController.php:241-245 | lines with positive quantities and non-negative prices have a non-negative subtotal |
| Pricing.Tax | app/Http/Controllers/Api/PaymentController.php:247 | the tax is exactly 8% of the subtotal (25·tax = 2·subtotal), between 0 and the subtotal |
| Pricing.OrderTotal | app/Http/Controllers/Api/PaymentController.php:247-249 | total = subtotal + tax + 10.00 shipping, so never below the shipping |
| Checkout.CreatePaymentIntent | app/Http/Controllers/Api/PaymentController.php:27-124 | 422 on a bad request; 400 "Cart is empty" on an empty cart; 400 "Amount mismatch" exactly when the cart subtotal and the declared amount differ by more than one cent; on success the charge is the server-side cart subtotal, tagged with the caller; the store never changes |
| Checkout.DecrementStock | app/Http/Controllers/Api/PaymentController.php:290-330 | every product's stock drops by exactly the total quantity of its lines, with no lower bound; a product with a line gets `updated_at` = now (Eloquent's decrement always stamps it), one without keeps it; nothing else changes |
| Checkout.Snapshot | app/Http/Controllers/Api/PaymentController.php:305-315 | an order item copies the line's product and quantity, the product name and the effective price, and its total is price × quantity |
| Checkout.Snapshots | app/Http/Controllers/Api/PaymentController.php:290-315 | one order item per cart line, in cart order |
| Checkout.SnapshotsSumToSubtotal | app/Http/Controllers/Api/PaymentController.php:241-245 | the item totals add up to the subtotal the order records |
| Checkout.NewOrder | app/Http/Controllers/Api/PaymentController.php:241-280 | the order takes the next id, the given number, the caller as owner and `now` as creation time; status "processing", payment "paid", the intent's currency; subtotal = cart subtotal = sum of its items; tax is 8%; shipping (both columns) is 10.00; total = subtotal + tax + shipping; one item per line; billing = shipping address; payment reference = intent id |
| Checkout.Commit | app/Http/Controllers/Api/PaymentController.php:264-337 | the commit appends the order, decrements stock by the ordered quantities, stamps `updated_at` = now on exactly the ordered products and empties the caller's cart; other carts, users, categories, wishlists and reviews are unchanged |
| Checkout.ConfirmPayment | app/Http/Controllers/Api/PaymentController.php:129-378 | a failure leaves the store untouched (rollback); the guards run in the source's order: validation 422, gateway error 500, gateway status 400, owner 403, an existing order for the reference is returned as-is, empty cart 400, a nameless or missing product 500; conversely a valid, cleared, new intent with a non-empty cart whose products all exist and are named always answers "Order created successfully" with the order `NewOrder` and the store `Commit` |
| Checkout.CartClearedOnlyForCaller | app/Http/Controllers/Api/PaymentController.php:335 | clearing at checkout empties only the caller's cart |
| Checkout.FirstAfterAppend | app/Http/Controllers/Api/PaymentController.php:201 | a row appended when nothing matched before is what `first()` then finds |
| Checkout.ConfirmTwiceSameStore | app/Http/Controllers/Api/PaymentController.php:201-220 | confirming the same intent a second time, with any order number and clock, leaves the store exactly as the first confirmation left it |
| Checkout.ConfirmRetryReturnsSameOrder | app/Http/Controllers/Api/PaymentController.php:201-220 | after a successful confirmation, a retry answers "Order already exists" with the same order and number |
| Checkout.OneLineExample | app/Http/Controllers/Api/PaymentController.php:241-249 | a worked example, not a general property: one 25.00 item gives a subtotal of 25.00, tax of 2.00 and a total of 37.00 |
| Carts.FindLine | app/Http/Controllers/Api/CartController.php:80-82 | finds a row of that user and product exactly when one exists |
| Carts.SetLine | app/Http/Controllers/Api/CartController.php:94-97 | the update rewrites exactly the rows of that (user, product) and keeps every other row in place |
| Carts.RemoveLine | app/Http/Controllers/Api/CartController.php:176 | the delete keeps exactly the rows of other (user, product) pairs |
| Carts.MergeQuantity | app/Http/Controllers/Api/CartController.php:80-99 | read as a map, a merge raises the (user, product) quantity by exactly the added amount and changes no other entry |
| Carts.MergeKeepsLinesUnique | app/Http/Controllers/Api/CartController.php:80-99 | merging keeps at most one row per (user, product) |
| Carts.Index | app/Http/Controllers/Api/CartController.php:16-42 | the caller's lines with total items = Σ quantity, total amount = Σ effective price × quantity, currency "USD"; a line with a missing product gives 500 |
| Carts.Add | app/Http/Controllers/Api/CartController.php:47-116 | 422 for a missing product or quantity < 1; 400 for an inactive product; success exactly when the requested quantity and the merged quantity both fit the stock; on success the existing line grows or a new one is appended, answered 201 |
| Carts.AddIsMapUpdate | app/Http/Controllers/Api/CartController.php:80-99 | adding changes the caller's quantity of that product by exactly the requested amount and no other (user, product) quantity |
| Carts.AddKeepsLinesUnique | app/Http/Controllers/Api/CartController.php:80-99 | `store` keeps at most one row per (user, product) |
| Carts.Update | app/Http/Controllers/Api/CartController.php:121-160 | 404 for a missing line; 403 for another user's line, checked before validation; then 422 for a missing quantity or one below 1, 500 for a missing product, 400 "Insufficient stock quantity" above the stock; success exactly when 1 ≤ quantity ≤ stock, and then only the quantity of that line is replaced; a failure changes nothing |
| Carts.PairAddressesOneRow | app/Http/Controllers/Api/CartController.php:121-128 | with one row per (user, product), every row is the row found for its own pair, so addressing by pair and by row agree |
| Carts.UpdateIsMapUpdate | app/Http/Controllers/Api/CartController.php:143-152 | `update` replaces (does not add to) the quantity of its line and changes no other entry |
| Carts.SetLineKeepsKeys | app/Http/Controllers/Api/CartController.php:143-152 | rewriting a line keeps the (user, product) pairs unique |
| Carts.Destroy | app/Http/Controllers/Api/CartController.php:165-181 | success exactly for an existing line of the caller; 403 for another user's line; exactly that line disappears |
| Carts.RemoveLineQuantity | app/Http/Controllers/Api/CartController.php:176 | read as a map, deleting a line zeroes its entry and changes no other |
| Carts.AddThenDestroy | app/Http/Controllers/Api/CartController.php:47-181 | adding a product that was not in the cart and then deleting its line restores the store |
| Carts.Clear | app/Http/Controllers/Api/CartController.php:186-194 | the caller's cart becomes empty and every other user's cart is unchanged |
| Carts.SummaryIsIntentAmount | app/Http/Controllers/Api/CartController.php:22-39 | the total amount the cart page shows is the amount a payment intent charges for the same cart |
| Wishlists.Index | app/Http/Controllers/Api/WishlistController.php:16-26 | the caller's entries, and only those |
| Wishlists.Add | app/Http/Controllers/Api/WishlistController.php:31-69 | 422 without an existing product; 400 when the entry is already there; otherwise 201 and the set of entries gains exactly that one |
| Wishlists.AddKeepsNoDuplicates | app/Http/Controllers/Api/WishlistController.php:46-55 | `store` never stores an entry twice |
| Wishlists.Remove | app/Http/Controllers/Api/WishlistController.php:74-93 | 404 exactly when the entry is absent; only the wishlist table changes |
| Wishlists.RemoveFirstEntries | app/Http/Controllers/Api/WishlistController.php:76-87 | deleting the first copy of an entry from a duplicate-free table removes that entry from the set and keeps the table duplicate-free |
| Wishlists.RemoveIsSetDifference | app/Http/Controllers/Api/WishlistController.php:74-93 | `destroy` removes exactly the named entry from the set |
| Wishlists.Clear | app/Http/Controllers/Api/WishlistController.php:98-106 | exactly the caller's entries are removed |
| Wishlists.Check | app/Http/Controllers/Api/WishlistController.php:111-121 | answers membership of the entry and changes nothing |
| Wishlists.AddThenRemove | app/Http/Controllers/Api/WishlistController.php:31-93 | adding and then removing a product restores the store |
| Wishlists.CheckAfterAddAndRemove | app/Http/Controllers/Api/WishlistController.php:31-121 | `check` is true after a successful `store` and false after `destroy` |
| Reviews.Approved | app/Http/Controllers/Api/ReviewController.php:171-177 | exactly the approved reviews of the product |
| Reviews.Average | app/Http/Controllers/Api/ReviewController.php:171-181 | 0 with no approved reviews, otherwise the exact mean of their ratings |
| Reviews.AverageInRange | app/Http/Controllers/Api/ReviewController.php:35-47 | with ratings in 1..5, a product with reviews has a mean in 1..5 |
| Reviews.RefreshRating | app/Http/Controllers/Api/ReviewController.php:169-183 | the product's count and mean are recomputed from its approved reviews; its `updated_at` becomes now exactly when the count or the mean changed (Eloquent skips a clean save); other products are untouched |
| Reviews.Index | app/Http/Controllers/Api/ReviewController.php:16-28 | 404 exactly for an unknown product; otherwise page `page` of its approved reviews, newest first: the slice of the sorted reviews at offset (page − 1) · 10, of length min(10, reviews left); page 1 holds the newest ten |
| Reviews.ReviewBy | app/Http/Controllers/Api/ReviewController.php:50-53 | finds nothing exactly when the user has no review of the product, approved or not |
| Reviews.Create | app/Http/Controllers/Api/ReviewController.php:33-80 | 404 for an unknown product; 422 on a bad rating, title or comment; otherwise success exactly when the caller has no review of the product yet; the new review is approved, has 0 helpful votes and the product's rating is recomputed |
| Reviews.CreateKeepsOnePerUser | app/Http/Controllers/Api/ReviewController.php:50-59 | at most one review per (user, product) is preserved by `store` |
| Reviews.Edit | app/Http/Controllers/Api/ReviewController.php:85-125 | 404 for an unknown review; 403 for a non-author, before validation; 422 on bad fields; an author's valid edit succeeds exactly when the product exists, rewriting the fields and recomputing the rating; otherwise 500 after the fields were written |
| Reviews.Delete | app/Http/Controllers/Api/ReviewController.php:130-150 | 404 for an unknown review; 403 exactly when the caller is neither the author nor an admin; an allowed delete succeeds exactly when the product exists, removing the review and recomputing the rating; otherwise 500 after the row was deleted |
| Reviews.MarkHelpful | app/Http/Controllers/Api/ReviewController.php:155-164 | helpful count of that review goes up by exactly 1 and nothing else changes |
| Reviews.CreateKeepsConsistency | app/Http/Controllers/Api/ReviewController.php:169-183 | after `store` every product's count and mean match its approved reviews |
| Reviews.EditKeepsConsistency | app/Http/Controllers/Api/ReviewController.php:85-125 | the same after `update` |
| Reviews.DeleteKeepsConsistency | app/Http/Controllers/Api/ReviewController.php:130-150 | the same after `destroy` |
| Reviews.MarkHelpfulKeepsConsistency | app/Http/Controllers/Api/ReviewController.php:155-164 | the same after `markHelpful` |
| Reviews.RefreshRestoresConsistency | app/Http/Controllers/Api/ReviewController.php:169-183 | recomputing the one product whose reviews changed restores consistency for all products |
| Orders.Views | app/Http/Controllers/Api/Admin/OrderController.php:65-104 | one displayed order per order, shipping being `shipping_amount ?? shipping_cost` |
| Orders.Page | app/Http/Controllers/Api/OrderController.php:50-51 | the page is the slice of the rows sorted newest first at offset (page − 1) · limit, sorted; page 1 holds rows no newer row was left out for |
| Orders.CustomerIndex | app/Http/Controllers/Api/OrderController.php:16-101 | 422 exactly for a bad query; otherwise the views of that page of the caller's orders matching status and search, newest first, of length min(limit, matches left) with limit defaulting to 10 |
| Orders.CustomerSeesOnlyOwnOrders | app/Http/Controllers/Api/OrderController.php:33-34 | every order a customer is shown is one of their own |
| Orders.CustomerShow | app/Http/Controllers/Api/OrderController.php:106-159 | 404 "Order not found" both for a missing order and for another user's order |
| Orders.AdminIndex | app/Http/Controllers/Api/Admin/OrderController.php:16-104 | 422 exactly for a bad query; otherwise the page (limit default 15) of matching orders, newest first, of length min(limit, matches left); 500 exactly when an order on the page has lost its user, since its id is read |
| Orders.AdminShow | app/Http/Controllers/Api/Admin/OrderController.php:213-265 | 404 exactly when no order has that number; 500 when its user is gone; otherwise the view of that order |
| Orders.FindOrder | app/Http/Controllers/Api/Admin/OrderController.php:146-148 | finds nothing exactly when no order has that number; otherwise an order with that number |
| Orders.UpdateStatus | app/Http/Controllers/Api/Admin/OrderController.php:132-208 | 422 for a status outside the six and 404 for an unknown number, both changing nothing; otherwise exactly the order with the found id gets the new status and the view shows it; 500 after the save when the order's user is gone |
| Orders.UpdateStatusTouchesOnlyStatus | app/Http/Controllers/Api/Admin/OrderController.php:157-158 | the order table keeps its length; each order keeps every field but the status, and only the order with the found id may change, to the new status |
| Orders.AnyTransitionAllowed | app/Http/Controllers/Api/Admin/OrderController.php:157-158 | for any of the six statuses and any existing order whose user exists, the update succeeds and shows the new status, whatever the old one was |
| Orders.Stats | app/Http/Controllers/Api/Admin/OrderController.php:109-127 | the total is the number of orders, each of the six counts is the number of orders with that status, and the value is the sum of the totals of paid orders |
| Orders.StatsCoverAllOrders | app/Http/Controllers/Api/Admin/OrderController.php:111-118 | the six counts add up to the total exactly when every order has one of the six statuses |
| Orders.StatusCountsPartition | app/Http/Controllers/Api/Admin/OrderController.php:112-118 | the six counts add up to the total exactly when every order has one of the six statuses |
| Orders.StatusCountsAtMostTotal | app/Http/Controllers/Api/Admin/OrderController.php:112-118 | the six counts never exceed the number of orders |
| Orders.PaidRevenueAppend | app/Http/Controllers/Api/Admin/OrderController.php:119 | paid value grows by an order's total only when that order is paid |
| Users.UserPage | app/Http/Controllers/Api/UserController.php:45-68 | the page of matching users sorted newest first: the slice at offset (page − 1) · limit, of length min(limit, matches left); page 1 holds the newest matches |
| Users.GetUsers | app/Http/Controllers/Api/Admin/AdminController.php:18-97 | 422 exactly for a bad query; otherwise the summaries, in order, of that page of matching users, each with their order count and what their paid orders total |
| Users.ListUsers | app/Http/Controllers/Api/UserController.php:16-99 | 403 without an admin caller, before validation; then 422 exactly for a bad query; otherwise that page of matching users, newest first |
| Users.GetUserStats | app/Http/Controllers/Api/Admin/AdminController.php:102-154 | total, active, inactive, admins and customers are the counts of all, active, inactive, admin and non-admin users; new users are those created since the cut-off, buyers those with an order; active + inactive = admins + customers = total; average orders per user is 0 with no users, otherwise orders / users |
| Users.StatusAndRoleSplit | app/Http/Controllers/Api/Admin/AdminController.php:104-108 | each user is counted once as active or inactive and once as admin or customer |
| Users.SetUser | app/Http/Controllers/Api/Admin/AdminController.php:190-207 | the row with that id changes as asked; every other row stays |
| Users.UpdateUserStatus | app/Http/Controllers/Api/Admin/AdminController.php:159-220 | 422 on a bad status; 404 for an unknown user; 403 exactly when an admin deactivates themself; every other change succeeds, answering the changed account, with is_active set as asked, tokens revoked on deactivation, and no other row changed |
| Users.DeactivationRevokesTokens | app/Http/Controllers/Api/Admin/AdminController.php:190-207 | after deactivation the user is inactive and holds no tokens; after activation the user is active |
| Users.StatusChangeKeepsCaller | app/Http/Controllers/Api/Admin/AdminController.php:175-188 | no status change can deactivate the calling admin |
| Users.UpdateUserRole | app/Http/Controllers/Api/Admin/AdminController.php:225-281 | 422 on a bad role; 404 for an unknown user; 403 exactly when an admin demotes themself; every other change succeeds, answering the changed account, with is_admin = (role = admin) and no other row changed |
| Users.RoleChangeKeepsCaller | app/Http/Controllers/Api/Admin/AdminController.php:249-259 | no role change can demote the calling admin |
| Users.DeleteUser | app/Http/Controllers/Api/Admin/AdminController.php:286-345 | 404 for an unknown user; 403 exactly for oneself; a user with orders is kept, deactivated, stripped of tokens and has `_deleted_<time>` appended to the email; one without orders is removed |
| Users.DeletionKeepsCaller | app/Http/Controllers/Api/Admin/AdminController.php:299-303 | a deletion never removes or alters the calling admin |
| Catalogue.SortField | app/Http/Controllers/Api/ProductController.php:47-53 | only name, price, created_at and updated_at are sortable, plus stock in the admin listing |
| Catalogue.ComparatorIsPreorder | app/Http/Controllers/Api/ProductController.php:47-53 | every whitelisted ordering is total and transitive in both directions |
| Catalogue.Arrange | app/Http/Controllers/Api/ProductController.php:47-55 | an unknown column means no ordering (the filtered rows paged as they are); a direction other than asc/desc fails; otherwise the page of the filtered rows sorted by that column, of length min(per_page, rows left) |
| Catalogue.MinPrice | app/Http/Controllers/Api/ProductController.php:63 | the smallest list price, none for no products |
| Catalogue.MaxPrice | app/Http/Controllers/Api/ProductController.php:64 | the largest list price, none for no products |
| Catalogue.Index | app/Http/Controllers/Api/ProductController.php:17-68 | only active, in-stock products that pass category, search and inclusive list-price bounds, paged and arranged as asked; the categories are exactly the active ones; the price range is the least and greatest price of the active products |
| Catalogue.PriceRangeIsTight | app/Http/Controllers/Api/ProductController.php:63-64 | the range is absent exactly when no product is active; otherwise both ends are prices of active products and every active price lies between them |
| Catalogue.AdminIndex | app/Http/Controllers/Api/ProductController.php:137-186 | the page of products passing the admin filters, `out_of_stock` meaning stock ≤ 0, arranged as asked; 500 for a bad direction |
| Catalogue.PublicListingIsInStock | app/Http/Controllers/Api/ProductController.php:157-169 | a product the public listing shows is never in the admin `inactive` or `out_of_stock` views |
| Catalogue.Featured | app/Http/Controllers/Api/ProductController.php:108-132 | the first eight featured active in-stock products in table order when any exist, otherwise the eight newest active in-stock products, none left out newer than one shown; empty exactly when nothing is in stock |
| Catalogue.Related | app/Http/Controllers/Api/ProductController.php:96-100 | the first four, in table order, of the other active products of the same category (all of them when there are fewer) |
| Catalogue.Show | app/Http/Controllers/Api/ProductController.php:73-103 | 404 for an unknown or inactive product; otherwise the product, the mean and count of all its reviews, and the first four related products |
| Catalogue.RelatedAreShowable | app/Http/Controllers/Api/ProductController.php:96-100 | a product never lists itself as related |
| Catalogue.Create | app/Http/Controllers/Api/ProductController.php:191-253 | 403 for a non-admin; 422 for an invalid request; a valid one succeeds, answered 201, exactly when no product has its slug, and otherwise fails with 500 on the unique slug index (database/migrations/2025_10_22_162721_create_products_table.php line 17) with nothing written; the new row takes the next id and every submitted field (name, description, sku, price, sale price, stock, category); defaults: not featured, active, no images, no reviews; slug from the name; both timestamps now |
| Catalogue.Patch | app/Http/Controllers/Api/ProductController.php:295-308 | each present field (name, description, price, sale price, sku, stock, category, images, featured, active) overwrites the row and an absent one is kept; a new name brings a new slug; id, reviews and creation time stay; `updated_at` becomes now exactly when some field changed |
| Catalogue.EmptyPatchWritesNothing | app/Http/Controllers/Api/ProductController.php:295-308 | a patch with no fields leaves the row, timestamp included, as it was |
| Catalogue.Update | app/Http/Controllers/Api/ProductController.php:258-313 | 404/403 guards, then 422 for an invalid patch, then 500 with nothing written when the new name's slug is carried by another product; success exactly for an admin with a valid, clash-free patch; only that product row changes |
| Catalogue.CreateKeepsKeysUnique | app/Http/Controllers/Api/ProductController.php:191-253 | `store` keeps product ids, skus and slugs pairwise distinct and ids below the counter |
| Catalogue.UpdateKeepsKeysUnique | app/Http/Controllers/Api/ProductController.php:258-313 | so does `update` |
| Catalogue.SlugOnlyFollowsNewName | app/Http/Controllers/Api/ProductController.php:302-304 | without a new name the slug is kept; with one it is a well-formed slug |
| Catalogue.DropItemsOf | app/Http/Controllers/Api/ProductController.php:328 | each order keeps every item except those of the deleted product |
| Catalogue.Destroy | app/Http/Controllers/Api/ProductController.php:318-334 | 403 for a non-admin; on success the product row and its order items are gone, nothing else changes |
| Catalogue.DestroyedIsGone | app/Http/Controllers/Api/ProductController.php:318-334 | after deletion `show` fails and no order mentions the product |
| Categories.Initial | app/Models/Category.php:53 | the upper-cased first letter of the name, empty for an empty name |
| Categories.DisplayImage | app/Models/Category.php:46-55 | the storage URL when there is an image, otherwise the placeholder URL followed by the initial |
| Categories.SetName | app/Models/Category.php:58-62 | setting the name always sets slug = Slug(name) and changes nothing else |
| Categories.SetNameProperties | app/Models/Category.php:58-62 | renaming twice equals renaming once; a slug-shaped name is its own slug |
| Categories.ActiveOnly | app/Models/Category.php:65-68 | exactly the active rows |
| Categories.RootsOnly | app/Models/Category.php:70-73 | exactly the rows without a parent |
| Categories.Ordered | app/Models/Category.php:75-78 | a permutation sorted by sort order, then by name |
| Categories.Children | app/Models/Category.php:35-38 | exactly the active rows whose parent is the category |
| Categories.ProductsIn | app/Models/Category.php:40-43 | exactly the products of the category |
| Categories.Descendants | app/Http/Controllers/Api/CategoryController.php:197-198 | exactly the existing categories below the given one, at any depth |
| Categories.Index | app/Http/Controllers/Api/CategoryController.php:16-36 | the active categories, only top-level ones when asked, each exactly as often as in the table, sorted by sort order |
| Categories.Show | app/Http/Controllers/Api/CategoryController.php:86-103 | success exactly for an active category; its active children, and the first twelve of its active products in table order |
| Categories.Create | app/Http/Controllers/Api/CategoryController.php:108-154 | 403 for a non-admin; success exactly for a valid request; sort order defaults to 0, active to true, slug from the name |
| Categories.CreateMakesNoCycle | app/Http/Controllers/Api/CategoryController.php:108-154 | with ids fresh from the counter, `store` keeps ids unique, leaves every existing parent chain as it was and does not put the new category on its own chain |
| Categories.Patch | app/Http/Controllers/Api/CategoryController.php:206-214 | present fields overwrite the row; a new name brings its slug |
| Categories.Update | app/Http/Controllers/Api/CategoryController.php:159-223 | 404/403 guards; 400 exactly when the new parent is the category itself or one of its descendants; on success only that row changes |
| Categories.UpdateMakesNoCycle | app/Http/Controllers/Api/CategoryController.php:189-204 | after a successful re-parenting the category is not among its own ancestors |
| Categories.ReparentMakesNoCycle | app/Http/Controllers/Api/CategoryController.php:189-204 | giving a row a parent that is neither itself nor below it puts no cycle through it |
| Categories.NewParentMakesNoCycle | app/Http/Controllers/Api/CategoryController.php:197-204 | when only one row changed and its new parent's chain avoids it, its own chain avoids it |
| Categories.ClimbAvoiding | app/Http/Controllers/Api/CategoryController.php:197-204 | a parent chain that never meets the changed row reads the same after the change |
| Categories.DeleteIfUnused | app/Http/Controllers/Api/CategoryController.php:239-254 | 400 when products exist, then 400 when active children exist; otherwise exactly that row is deleted and no product refers to it |
| Categories.Destroy | app/Http/Controllers/Api/CategoryController.php:228-260 | 404/403 guards, then the shared delete rule |
| AdminCategories.IndexAsWritten | app/Http/Controllers/Admin/CategoryController.php:17-53 | the listing as written: the page, sorted by sort order then name, of the rows satisfying the ungrouped clause; any present `status` but `active`, the empty one included, selects inactive rows |
| AdminCategories.SearchEscapesStatusFilter | app/Http/Controllers/Admin/CategoryController.php:23-31 | an inactive category whose name matches the search is listed under `status=active` |
| AdminCategories.Index | app/Http/Controllers/Admin/CategoryController.php:17-53 | the listing with the search grouped: the page (limit default 15), sorted by sort order then name, of the rows passing the search and the status and parent filters |
| AdminCategories.EmptyStatusSelectsInactive | app/Http/Controllers/Admin/CategoryController.php:28-31 | an empty `status`, which reaches the controller as null, lists only inactive categories |
| AdminCategories.GroupedIsNarrowed | app/Http/Controllers/Admin/CategoryController.php:23-36 | the grouped clause is the written one narrowed by the filters, and the two agree when there is no search |
| AdminCategories.UpdateAsWritten | app/Http/Controllers/Admin/CategoryController.php:124-174 | the back-office update as written: success exactly for a valid form on an existing row; the slug follows the submitted name |
| AdminCategories.SelfParentAccepted | app/Http/Controllers/Admin/CategoryController.php:129 | the back-office update accepts a category as its own parent |
| AdminCategories.Update | app/Http/Controllers/Admin/CategoryController.php:124-174 | the update with the parent guards of the public controller: success exactly when the form is valid and the parent is neither the row nor below it |
| AdminCategories.UpdateMakesNoCycle | app/Http/Controllers/Admin/CategoryController.php:124-174 | with the guards, no category ends up on its own parent chain |
| AdminCategories.SlugFollowsName | app/Http/Controllers/Admin/CategoryController.php:161-164 | the slug always follows the submitted name, and resubmitting the current name keeps the slug |
| AdminCategories.Destroy | app/Http/Controllers/Admin/CategoryController.php:179-208 | 404 for an unknown row, then the shared delete rule |
| AdminCategories.RemoveImage | app/Http/Controllers/Admin/CategoryController.php:253-278 | 400 exactly when there is no image; on success only that row's image becomes null and the placeholder is shown |
| AdminCategories.RemoveImageOnce | app/Http/Controllers/Admin/CategoryController.php:253-278 | removing the image a second time is refused and changes nothing |
| AdminCategories.TopCategories | app/Http/Controllers/Admin/CategoryController.php:293-297 | at most five active categories by product count, descending; every category shown has at least as many products as every active category left out, and none is left out while fewer than five are shown |
| AdminCategories.Stats | app/Http/Controllers/Admin/CategoryController.php:283-312 | each count is the number of categories of its kind (active, inactive, with image, without, top-level, sub), so the pairs each add up to the total; the top list is `TopCategories` |
| Dashboard.StockBuckets | app/Http/Controllers/Api/Admin/DashboardController.php:97-100 | in stock + out of stock = total, and low stock never exceeds in stock |
| Dashboard.RevenueSplits | app/Http/Controllers/Api/Admin/DashboardController.php:28-31 | paid revenue inside a period plus paid revenue outside it is the total paid revenue |
| Dashboard.GetStats | app/Http/Controllers/Api/Admin/DashboardController.php:17-58 | products, orders and users are the table sizes; today's and the recent window's order counts are the orders in each window; total and today's revenue are the paid totals overall and in the window; active users are the users with is_active |
| Dashboard.RecentViews | app/Http/Controllers/Api/Admin/DashboardController.php:71-90 | one row per order with its number, total, date and the customer's email |
| Dashboard.Newest | app/Http/Controllers/Api/Admin/DashboardController.php:67-70 | the min(n, orders) newest orders, newest first; each kept order is at least as new as every order left out |
| Dashboard.GetRecentOrders | app/Http/Controllers/Api/Admin/DashboardController.php:63-90 | the views of the `limit` (default 10) newest orders in order, newest first, of length min(limit, orders); 500 exactly when one of them has lost its user |
| Dashboard.Groups | app/Http/Controllers/Api/Admin/DashboardController.php:103-107 | one row per (product, name) pair that was sold, with the units and revenue of exactly its items |
| Dashboard.TopProducts | app/Http/Controllers/Api/Admin/DashboardController.php:103-110 | at most five sold groups by units sold, descending; every group shown sold at least as many units as every group left out, and none is left out while fewer than five are shown |
| Dashboard.GetProductStats | app/Http/Controllers/Api/Admin/DashboardController.php:95-131 | the stock buckets of the product table and the top products |
| Cors.AllowOrigin | app/Http/Middleware/ForceCorsProdMiddleware.php:24-43 | the origin is echoed exactly when it is on the allowlist, otherwise `*` |
| Cors.Handle | app/Http/Middleware/ForceCorsProdMiddleware.php:14-52 | a preflight gets an empty 200, any other request keeps the downstream status and body; the allow-origin header follows `AllowOrigin`; methods, headers, exposed headers, credentials and max-age are always set |
| Cors.PreflightSkipsNext | app/Http/Middleware/ForceCorsProdMiddleware.php:17-21 | the answer to a preflight does not depend on the rest of the pipeline |
| Cors.ForeignOriginGetsWildcard | app/Http/Middleware/ForceCorsProdMiddleware.php:38-43 | a missing or unlisted origin gets `*` |
| Cors.OtherHeadersKept | app/Http/Middleware/ForceCorsProdMiddleware.php:45-51 | headers set downstream, other than the CORS ones, pass through |

## Left out

- The card gateway: creating and retrieving payment intents becomes an input (`Gateway`). Webhooks only log, and `getPaymentMethods` returns a constant list; neither is modelled.
- Floating point: `intval(x * 100)`, `(float)` casts and every `round(…)` (average ratings, average orders per user, the product page's one-decimal rating) are left out. Amounts and means are exact.
- Checkout.CreatePaymentIntent: the declared amount is taken in cents already, so the `intval(amount * 100)` truncation is not modelled.
- Transactions and concurrency: rollback is "the store is unchanged on failure". Two confirmations racing for the same intent are not modelled, and `payment_reference` is not unique in the schema.
- The 500 answers of `confirmPayment` carry the fixed prefix only. The exception text appended to them is not modelled.
- Clocks, `uniqid()` and `asset()` are parameters. Date-window statistics take their windows as parameters.
- Users.GetUserStats: the top-spenders list is not modelled.
- `getUser` in the admin controller and `adminIndex` in the public category controller are not modelled; neither is among the rules modelled here.
- The admin profile controller (avatar, password, notification settings) is not modelled. It is a wrapper over authentication and file storage.
- Image uploads and file deletion in the back-office category controller are not modelled; a stored image is a name.
- Logging, JSON shapes beyond the fields named above, eager loading and pagination metadata are not modelled.
- Database collation: string comparison and `LIKE` are case-sensitive and by code point here; MySQL's default collation is case-insensitive.
- `Str::slug` is modelled on ASCII letters, digits, separators and `@`. Transliteration of other characters is not modelled. Whitespace means the six ASCII whitespace characters; other Unicode spaces are not modelled.
- Categories.Initial: takes the first character of the name. PHP's `substr($name, 0, 1)` takes the first byte, so a name starting with a multibyte character gives a broken byte there.
- Schema: one `nextId` counter numbers the rows of every table. MySQL keeps one auto-increment counter per table. No property here depends on the difference; only the id values differ.
- Cors.Handle: a preflight's other default headers and the case-insensitivity of header names are not modelled. PHP's loose `in_array` comparison is modelled as string equality; for these origins the two agree.
- Categories.Descendants: `getAllChildrenIds` is not defined in the category model. It is modelled as the set of categories whose parent chain reaches the given one.
- Categories.Update: as written, line 198 of app/Http/Controllers/Api/CategoryController.php calls the undefined `getAllChildrenIds`, so every request that moves a category under a truthy parent other than itself ends in a 500. The model follows the evident intent instead: the call returns the descendants, and only a parent among them is refused with 400.
- Carts.Update: the route binds the cart row by its id, while the model finds the row by (owner, product). The two agree while the cart holds one row per (owner, product) (`Carts.PairAddressesOneRow`), and `store` and `update` preserve that (`Carts.AddKeepsLinesUnique`, `Carts.SetLineKeepsKeys`). In a cart with duplicate pairs the model rewrites every row of that pair rather than the one bound row.
- Carts.Destroy: finds its row by (owner, product) in the same way as `Carts.Update`, and `RemoveLine` removes every row of that pair.
- Carts.Add: when the product is already in the cart, the source increments the `first()` row of the pair; `Merge` rewrites every row of that pair. The two agree while the cart holds one row per (owner, product), which `Carts.AddKeepsLinesUnique` preserves.
- AdminCategories.Index: an empty `status` is taken to arrive as null, as the framework's default empty-string-to-null middleware delivers it; the application's middleware configuration is not part of this model.
- Timestamps: `updated_at` is modelled on products only. The `updated_at` of carts, categories, orders, reviews and users is not modelled.
- Category meta fields and product attributes that no rule reads (dimensions, SKU, meta) are carried as data only or left out.
- Cascades on carts, wishlists and reviews when a product is deleted are not modelled. Only the order-item cascade is.

## Findings

| source | as written | input that shows it | evidently intended | confidence | as-written member | corrected member |
|---|---|---|---|---|---|---|
| app/Http/Controllers/Admin/CategoryController.php:23-36 | the search adds `name LIKE … OR description LIKE …` without grouping, so the status and parent filters are ANDed onto the description branch only | an inactive category named "Shoes", search "Sho", status "active": it is listed | the search is one group, so the filters apply to every listed row | medium, not executed | AdminCategories.IndexAsWritten, AdminCategories.SearchEscapesStatusFilter | AdminCategories.Index, AdminCategories.GroupedIsNarrowed |
| app/Http/Controllers/Admin/CategoryController.php:124-166 | the back-office update validates `parent_id` only for existence, so a category can be made its own parent or a descendant's child | a category with id 1 updated with parent_id 1 succeeds and becomes its own parent | the same guards the public controller has (lines 189-204 of app/Http/Controllers/Api/CategoryController.php) | medium, not executed | AdminCategories.UpdateAsWritten, AdminCategories.SelfParentAccepted | AdminCategories.Update, AdminCategories.UpdateMakesNoCycle |

=== FILE: admin_categories.dfy ===
/** The category back office (`Admin/CategoryController`), mounted under
    `admin/categories` behind the administrator middleware. */
module AdminCategories {
  import opened Base
  import opened Schema
  import opened Ordering
  import opened Sql
  import opened Text
  import opened Categories

  // ---------------------------------------------------------------- index

  /** Query string of `index`. */
  datatype IndexQuery = IndexQuery(search: Option<string>, status: Option<string>, parentOnly: bool,
                                   page: int, limit: Option<nat>)

  predicate Searching(q: IndexQuery) {
    q.search.Some? && Truthy(q.search.value)
  }

  predicate NameMatches(c: Category, term: string) {
    Contains(c.name, term)
  }

  /** `description LIKE ...` is never true of a null description. */
  predicate DescriptionMatches(c: Category, term: string) {
    c.description.Some? && Contains(c.description.value, term)
  }

  /** The status and parent filters: any `status` other than `active` selects inactive
      rows. That includes an empty `status`: the framework's default middleware turns the
      empty string into null before the controller sees it, and null is not `''`, so the
      controller's "not empty" test passes and `null === 'active'` is false. */
  predicate FiltersHold(c: Category, q: IndexQuery) {
    && (q.status.Some? ==> c.isActive == (q.status.value == "active"))
    && (q.parentOnly ==> c.parentId.None?)
  }

  /** The `where` clause as the controller builds it: `name LIKE t OR description LIKE t
      AND is_active = ? AND parent_id IS NULL`. AND binds tighter than OR, so a name
      match escapes both filters. */
  predicate MatchesAsWritten(c: Category, q: IndexQuery) {
    if Searching(q) then NameMatches(c, q.search.value) || (DescriptionMatches(c, q.search.value) && FiltersHold(c, q))
    else FiltersHold(c, q)
  }

  /** The clause with the search grouped, as the other category listing writes it. */
  predicate Matches(c: Category, q: IndexQuery) {
    && (Searching(q) ==> NameMatches(c, q.search.value) || DescriptionMatches(c, q.search.value))
    && FiltersHold(c, q)
  }

  /** The grouped clause is the written one narrowed by the filters, and coincides with
      it when no search is given. */
  lemma GroupedIsNarrowed(c: Category, q: IndexQuery)
    ensures Matches(c, q) <==> MatchesAsWritten(c, q) && FiltersHold(c, q)
    ensures !Searching(q) ==> (Matches(c, q) <==> MatchesAsWritten(c, q))
  {
  }

  /** One page of the rows a clause selects, in `scopeOrdered` order, fifteen to a page
      unless `limit` says otherwise. */
  function PageOf(q: IndexQuery, rows: seq<Category>): (r: seq<Category>)
    ensures IsSortedPage(r, rows, BySortOrderThenName, q.page, q.limit.GetOr(15))
    ensures forall c :: c in r ==> c in rows
  {
    SortOrders();
    SortedPage(rows, BySortOrderThenName, q.page, q.limit.GetOr(15))
  }

  /** The rows the clause as written selects, in table order. */
  function SelectedAsWritten(s: Store, q: IndexQuery): (r: seq<Category>)
    ensures forall c :: c in r <==> c in s.categories && MatchesAsWritten(c, q)
  {
    Filter(s.categories, c => MatchesAsWritten(c, q))
  }

  /** The rows the grouped clause selects, in table order. */
  function Selected(s: Store, q: IndexQuery): (r: seq<Category>)
    ensures forall c :: c in r <==> c in s.categories && Matches(c, q)
  {
    Filter(s.categories, c => Matches(c, q))
  }

  /** `index` as written: the page of the rows the ungrouped clause selects. */
  function IndexAsWritten(s: Store, q: IndexQuery): (r: Step<seq<Category>>)
    ensures r.store == s && r.response.Success?
    ensures IsSortedPage(r.response.data, SelectedAsWritten(s, q), BySortOrderThenName, q.page, q.limit.GetOr(15))
    ensures forall c :: c in r.response.data ==> c in s.categories && MatchesAsWritten(c, q)
  {
    Step(Success(200, "", PageOf(q, SelectedAsWritten(s, q))), s)
  }

  /** `index` with the search grouped: the page of the rows the grouped clause selects,
      every one of which passes the status and parent filters. */
  function Index(s: Store, q: IndexQuery): (r: Step<seq<Category>>)
    ensures r.store == s && r.response.Success?
    ensures IsSortedPage(r.response.data, Selected(s, q), BySortOrderThenName, q.page, q.limit.GetOr(15))
    ensures forall c :: c in r.response.data ==> c in s.categories && Matches(c, q) && FiltersHold(c, q)
  {
    Step(Success(200, "", PageOf(q, Selected(s, q))), s)
  }

  /** The written clause selects an inactive category under `status=active` when its
      name matches the search; the grouped clause does not. */
  lemma SearchEscapesStatusFilter()
    ensures var c := Category(1, "Shoes", "shoes", None, None, None, 0, false);
      var q := IndexQuery(Some("Sho"), Some("active"), false, 1, None);
      MatchesAsWritten(c, q) && !FiltersHold(c, q) && !Matches(c, q)
  {
    assert StartsWith("Shoes"[0..], "Sho");
    assert Substring("Sho", "Shoes");
    assert Plain("Sho");
    ContainsIsSubstring("Shoes", "Sho");
  }

  /** An empty `status` lists only inactive categories, in both clauses. */
  lemma EmptyStatusSelectsInactive(c: Category, q: IndexQuery)
    requires q.status == Some("") && !Searching(q)
    ensures MatchesAsWritten(c, q) ==> !c.isActive
    ensures Matches(c, q) ==> !c.isActive
  {
  }

  // ---------------------------------------------------------------- update

  /** `update`'s rules: a name unique among the other categories, a description of at
      most 1000 characters, an existing parent, a non-negative sort order. */
  predicate ValidForm(s: Store, id: Id, req: CategoryPatch) {
    && Filled(req.name) && |req.name.value| <= 255
    && (forall c :: c in s.categories && c.id != id ==> c.name != req.name.value)
    && (req.description.Some? && req.description.value.Some? ==> |req.description.value.value| <= 1000)
    && (req.parentId.Some? && req.parentId.value.Some? ==> CategoryExists(s, req.parentId.value.value))
    && (req.sortOrder.Some? ==> req.sortOrder.value >= 0)
  }

  /** The validated fields applied to the row; the uploaded image is not part of it.
      The name always goes through the `name` mutator, so the slug is re-derived even
      when the controller's own "name changed" test is false. */
  function Form(req: CategoryPatch): CategoryPatch {
    req.(image := None)
  }

  /** `update` as written: no guard against a parent that is the category itself or
      one of its descendants. */
  function UpdateAsWritten(s: Store, id: Id, req: CategoryPatch): (r: Step<Category>)
    ensures r.response.Failure? ==> r.store == s
    ensures FindCategory(s, id).None? ==> r.response == Failure(404, "Not Found")
    ensures r.response.Success? <==> FindCategory(s, id).Some? && ValidForm(s, id, req)
    ensures r.response.Success? ==>
      && r.response.data.slug == Slug(req.name.value)
      && r.response.data.image == FindCategory(s, id).value.image
      && r.store == s.(categories := PatchRows(s.categories, id, Form(req)))
  {
    match FindCategory(s, id)
    case None => Refuse(s, 404, "Not Found")
    case Some(c) =>
      if !ValidForm(s, id, req) then Refuse(s, 422, "Validation failed")
      else Step(Success(200, "Category updated successfully", Patch(c, Form(req))),
                s.(categories := PatchRows(s.categories, id, Form(req))))
  }

  /** A category can be made its own parent through the back office. */
  lemma SelfParentAccepted(s: Store, id: Id, req: CategoryPatch)
    requires UniqueIds(s.categories) && FindCategory(s, id).Some?
    requires ValidForm(s, id, req) && req.parentId == Some(Some(id))
    ensures UpdateAsWritten(s, id, req).response.Success?
    ensures ParentOf(UpdateAsWritten(s, id, req).store, id) == Some(id)
    ensures id in Ancestors(UpdateAsWritten(s, id, req).store, id, 1)
  {
    assert CategoryExists(s, id) by {
      assert FindCategory(s, id).value in s.categories;
    }
    SetParentShape(s, id, Form(req), id);
  }

  /** `update` with the parent guards of the public controller added. */
  function Update(s: Store, id: Id, req: CategoryPatch): (r: Step<Category>)
    ensures r.response.Failure? ==> r.store == s
    ensures FindCategory(s, id).None? ==> r.response == Failure(404, "Not Found")
    ensures r.response.Success? <==>
      && FindCategory(s, id).Some? && ValidForm(s, id, req)
      && (NewParent(req).Some? ==> NewParent(req).value != id && NewParent(req).value !in Descendants(s, id))
    ensures r.response.Success? ==> r == UpdateAsWritten(s, id, req)
  {
    match FindCategory(s, id)
    case None => Refuse(s, 404, "Not Found")
    case Some(c) =>
      if !ValidForm(s, id, req) then Refuse(s, 422, "Validation failed")
      else if NewParent(req).Some? && NewParent(req).value == id then
        Refuse(s, 400, "Category cannot be its own parent")
      else if NewParent(req).Some? && NewParent(req).value in Descendants(s, id) then
        Refuse(s, 400, "Cannot set a child category as parent")
      else UpdateAsWritten(s, id, req)
  }

  /** With the guards, re-parenting never puts a category on its own parent chain. */
  lemma UpdateMakesNoCycle(s: Store, id: Id, req: CategoryPatch)
    requires ValidIds(s.categories)
    requires Update(s, id, req).response.Success?
    requires req.parentId.Some? && req.parentId.value.Some?
    ensures id !in Ancestors(Update(s, id, req).store, id, |s.categories| + 1)
  {
    var p := req.parentId.value.value;
    assert CategoryExists(s, p);
    assert NewParent(req) == Some(p) by {
      var q :| q in s.categories && q.id == p;
      var k :| 0 <= k < |s.categories| && s.categories[k] == q;
    }
    assert !IsDescendant(s, p, id);
    assert CategoryExists(s, id) by {
      assert FindCategory(s, id).value in s.categories;
    }
    ReparentMakesNoCycle(s, id, Form(req), p);
  }

  /** The slug always follows the submitted name; resubmitting the current name leaves
      a slug that already matched it alone. */
  lemma SlugFollowsName(s: Store, id: Id, req: CategoryPatch)
    requires UpdateAsWritten(s, id, req).response.Success?
    ensures var c := FindCategory(s, id).value;
      var d := UpdateAsWritten(s, id, req).response.data;
      && d.slug == Slug(d.name)
      && (req.name == Some(c.name) && c.slug == Slug(c.name) ==> d.slug == c.slug)
  {
  }

  // ---------------------------------------------------------------- destroy, image

  /** `destroy`. */
  function Destroy(s: Store, id: Id): (r: Step<()>)
    ensures r.response.Failure? ==> r.store == s
    ensures FindCategory(s, id).None? ==> r.response == Failure(404, "Not Found")
    ensures FindCategory(s, id).Some? ==> r == DeleteIfUnused(s, id)
  {
    if FindCategory(s, id).None? then Refuse(s, 404, "Not Found") else DeleteIfUnused(s, id)
  }

  datatype ImageData = ImageData(image: Option<string>, displayImage: string)

  /** `removeImage`: only a category that has an image loses it. */
  function RemoveImage(s: Store, id: Id, appUrl: string): (r: Step<ImageData>)
    ensures r.response.Failure? ==> r.store == s
    ensures FindCategory(s, id).None? ==> r.response == Failure(404, "Not Found")
    ensures FindCategory(s, id).Some? && !HasImage(FindCategory(s, id).value) ==>
      r.response == Failure(400, "Category has no image to remove")
    ensures r.response.Success? <==> FindCategory(s, id).Some? && HasImage(FindCategory(s, id).value)
    ensures r.response.Success? ==>
      && r.response.data.image.None?
      && StartsWith(r.response.data.displayImage, PlaceholderUrl)
      && r.store == s.(categories := r.store.categories)
      && |r.store.categories| == |s.categories|
      && forall i :: 0 <= i < |s.categories| ==>
           r.store.categories[i] == if s.categories[i].id == id then s.categories[i].(image := None) else s.categories[i]
  {
    match FindCategory(s, id)
    case None => Refuse(s, 404, "Not Found")
    case Some(c) =>
      if !HasImage(c) then Refuse(s, 400, "Category has no image to remove")
      else
        var rows := seq(|s.categories|, i requires 0 <= i < |s.categories| =>
          if s.categories[i].id == id then s.categories[i].(image := None) else s.categories[i]);
        Step(Success(200, "Category image removed successfully", ImageData(None, DisplayImage(c.(image := None), appUrl))),
             s.(categories := rows))
  }

  /** Removing the image a second time is refused and changes nothing. */
  lemma RemoveImageOnce(s: Store, id: Id, appUrl: string)
    requires RemoveImage(s, id, appUrl).response.Success?
    ensures var t := RemoveImage(s, id, appUrl).store;
      RemoveImage(t, id, appUrl) == Step(Failure(400, "Category has no image to remove"), t)
  {
    var t := RemoveImage(s, id, appUrl).store;
    var c := FindCategory(t, id);
    assert c.Some? by {
      var k :| 0 <= k < |s.categories| && s.categories[k] == FindCategory(s, id).value;
      assert t.categories[k] in t.categories;
    }
    var k :| 0 <= k < |t.categories| && t.categories[k] == c.value;
    assert s.categories[k].id == id;
  }

  // ---------------------------------------------------------------- stats

  predicate WithImage(c: Category) { c.image.Some? }
  predicate WithoutImage(c: Category) { c.image.None? }
  predicate IsSub(c: Category) { c.parentId.Some? }
  predicate IsInactive(c: Category) { !c.isActive }

  /** `withCount('products')`. */
  function ProductCount(s: Store, c: Category): nat {
    |ProductsIn(s, c.id)|
  }

  /** `orderBy('products_count', 'desc')`. */
  function ByProductCount(s: Store): (Category, Category) -> bool {
    (a: Category, b: Category) => ProductCount(s, a) >= ProductCount(s, b)
  }

  datatype CategoryStats = CategoryStats(total: nat, active: nat, inactive: nat, withImages: nat, withoutImages: nat,
                                         parentCategories: nat, subcategories: nat, topCategories: seq<Category>)

  /** The five active categories with the most products: no active category left out
      has more products than one shown. */
  function TopCategories(s: Store): (r: seq<Category>)
    ensures |r| <= 5
    ensures multiset(r) <= multiset(ActiveOnly(s.categories))
    ensures forall c :: c in r ==> c in s.categories && c.isActive
    ensures forall i, j :: 0 <= i < j < |r| ==> ProductCount(s, r[i]) >= ProductCount(s, r[j])
    ensures forall c, d :: c in r && d in s.categories && d.isActive && d !in r ==> ProductCount(s, c) >= ProductCount(s, d)
    ensures forall c :: c in s.categories && c.isActive && c !in r ==> |r| == 5
  {
    var rows := ActiveOnly(s.categories);
    assert TotalPreorder(ByProductCount(s));
    var top := TopRows(rows, ByProductCount(s), 5);
    TopCategoryFacts(s, rows, top);
    top
  }

  lemma TopCategoryFacts(s: Store, rows: seq<Category>, top: seq<Category>)
    requires SortedBy(top, ByProductCount(s))
    requires forall x, y :: x in top && y in rows && y !in top ==> ByProductCount(s)(x, y)
    requires forall c :: c in rows <==> c in s.categories && c.isActive
    ensures forall i, j :: 0 <= i < j < |top| ==> ProductCount(s, top[i]) >= ProductCount(s, top[j])
    ensures forall c, d :: c in top && d in s.categories && d.isActive && d !in top ==> ProductCount(s, c) >= ProductCount(s, d)
  {
    forall i, j | 0 <= i < j < |top| ensures ProductCount(s, top[i]) >= ProductCount(s, top[j]) {
      assert ByProductCount(s)(top[i], top[j]);
    }
    forall c, d | c in top && d in s.categories && d.isActive && d !in top ensures ProductCount(s, c) >= ProductCount(s, d) {
      assert d in rows;
      assert ByProductCount(s)(c, d);
    }
  }

  /** `stats`; a category with an empty image name counts as having one. */
  function Stats(s: Store): (r: Step<CategoryStats>)
    ensures r.store == s && r.response.Success?
    ensures r.response.data.total == |s.categories|
    ensures r.response.data.active == Count(s.categories, Categories.IsActive)
    ensures r.response.data.inactive == Count(s.categories, IsInactive)
    ensures r.response.data.withImages == Count(s.categories, WithImage)
    ensures r.response.data.withoutImages == Count(s.categories, WithoutImage)
    ensures r.response.data.parentCategories == Count(s.categories, IsRoot)
    ensures r.response.data.subcategories == Count(s.categories, IsSub)
    ensures r.response.data.active + r.response.data.inactive == |s.categories|
    ensures r.response.data.withImages + r.response.data.withoutImages == |s.categories|
    ensures r.response.data.parentCategories + r.response.data.subcategories == |s.categories|
    ensures r.response.data.topCategories == TopCategories(s)
  {
    var cs := s.categories;
    CountSplit(cs, Categories.IsActive, IsInactive);
    CountSplit(cs, WithImage, WithoutImage);
    CountSplit(cs, IsRoot, IsSub);
    Step(Success(200, "", CategoryStats(|cs|, Count(cs, Categories.IsActive), Count(cs, IsInactive),
                                        Count(cs, WithImage), Count(cs, WithoutImage),
                                        Count(cs, IsRoot), Count(cs, IsSub), TopCategories(s))), s)
  }
}

=== FILE: base.dfy ===
/** Shared vocabulary: optional values, JSON replies, and the sequence
    combinators that stand in for Eloquent query builders (where, count, sum, first). */
module Base {

  /** A nullable column or an absent request field. */
  datatype Option<+T> = None | Some(value: T) {
    /** PHP's `??`: the value when present, otherwise the fallback. */
    function GetOr(fallback: T): T {
      if Some? then value else fallback
    }
  }

  /** The JSON envelope every controller returns: `success: true` with a payload,
      or `success: false` with a message; the HTTP status is part of the reply. */
  datatype Response<+T> =
    | Success(status: int, message: string, data: T)
    | Failure(status: int, message: string)

  /** Rows of `xs` satisfying `p`, in their original order (a `where` clause). */
  function Filter<T>(xs: seq<T>, p: T -> bool): (r: seq<T>)
    ensures |r| <= |xs|
    ensures forall x :: x in r ==> x in xs && p(x)
    ensures forall x :: x in xs && p(x) ==> x in r
    ensures forall i :: 0 <= i < |r| ==> p(r[i])
  {
    if xs == [] then []
    else if p(xs[0]) then [xs[0]] + Filter(xs[1..], p)
    else Filter(xs[1..], p)
  }

  /** `where(...)->count()`. */
  function Count<T>(xs: seq<T>, p: T -> bool): nat {
    |Filter(xs, p)|
  }

  /** `sum(column)` over integer columns. */
  function Sum<T>(xs: seq<T>, f: T -> int): int {
    if xs == [] then 0 else f(xs[0]) + Sum(xs[1..], f)
  }

  /** `sum(column)` over decimal columns. */
  function SumReal<T>(xs: seq<T>, f: T -> real): real {
    if xs == [] then 0.0 else f(xs[0]) + SumReal(xs[1..], f)
  }

  /** `where(...)->first()`: the earliest row satisfying `p`, if any. */
  function First<T(==)>(xs: seq<T>, p: T -> bool): (r: Option<T>)
    ensures r.None? <==> forall x :: x in xs ==> !p(x)
    ensures r.Some? ==> r.value in xs && p(r.value)
  {
    if xs == [] then None
    else if p(xs[0]) then Some(xs[0])
    else First(xs[1..], p)
  }

  /** The row `First` finds comes before every other row satisfying `p`. */
  lemma {:induction false} FirstIsEarliest<T>(xs: seq<T>, p: T -> bool)
    requires First(xs, p).Some?
    ensures exists i :: 0 <= i < |xs| && xs[i] == First(xs, p).value && forall j :: 0 <= j < i ==> !p(xs[j])
  {
    if !p(xs[0]) {
      FirstIsEarliest(xs[1..], p);
      var i :| 0 <= i < |xs[1..]| && xs[1..][i] == First(xs, p).value && forall j :: 0 <= j < i ==> !p(xs[1..][j]);
      assert xs[i + 1] == First(xs, p).value;
      assert forall j :: 0 <= j < i + 1 ==> !p(xs[j]) by {
        forall j | 0 <= j < i + 1 ensures !p(xs[j]) {
          if j > 0 { assert xs[j] == xs[1..][j - 1]; }
        }
      }
    } else {
      assert xs[0] == First(xs, p).value;
    }
  }

  /** Filtering distributes over concatenation. */
  lemma {:induction false} FilterAppend<T>(xs: seq<T>, ys: seq<T>, p: T -> bool)
    ensures Filter(xs + ys, p) == Filter(xs, p) + Filter(ys, p)
  {
    if xs == [] {
      assert xs + ys == ys;
    } else {
      assert (xs + ys)[1..] == xs[1..] + ys;
      FilterAppend(xs[1..], ys, p);
    }
  }

  /** A `where` and its negation split a table: the two counts add up to the row count. */
  lemma {:induction false} CountComplement<T>(xs: seq<T>, p: T -> bool)
    ensures Count(xs, p) + Count(xs, x => !p(x)) == |xs|
  {
    if xs != [] {
      CountComplement(xs[1..], p);
    }
  }

  /** The same for any condition that is the negation of the first on every row. */
  lemma {:induction false} CountSplit<T>(xs: seq<T>, p: T -> bool, q: T -> bool)
    requires forall x :: x in xs ==> (q(x) <==> !p(x))
    ensures Count(xs, p) + Count(xs, q) == |xs|
  {
    if xs != [] {
      CountSplit(xs[1..], p, q);
    }
  }

  /** Rows satisfying a stronger condition are never more numerous. */
  lemma {:induction false} CountMonotone<T>(xs: seq<T>, p: T -> bool, q: T -> bool)
    requires forall x :: x in xs && p(x) ==> q(x)
    ensures Count(xs, p) <= Count(xs, q)
  {
    if xs != [] {
      CountMonotone(xs[1..], p, q);
    }
  }

  /** Two conditions that agree on every row select the same rows. */
  lemma {:induction false} FilterCongruent<T>(xs: seq<T>, p: T -> bool, q: T -> bool)
    requires forall x :: x in xs ==> (p(x) <==> q(x))
    ensures Filter(xs, p) == Filter(xs, q)
  {
    if xs != [] {
      FilterCongruent(xs[1..], p, q);
    }
  }

  /** Sums distribute over concatenation. */
  lemma {:induction false} SumAppend<T>(xs: seq<T>, ys: seq<T>, f: T -> int)
    ensures Sum(xs + ys, f) == Sum(xs, f) + Sum(ys, f)
  {
    if xs == [] {
      assert xs + ys == ys;
    } else {
      assert (xs + ys)[1..] == xs[1..] + ys;
      SumAppend(xs[1..], ys, f);
    }
  }

  lemma {:induction false} SumRealAppend<T>(xs: seq<T>, ys: seq<T>, f: T -> real)
    ensures SumReal(xs + ys, f) == SumReal(xs, f) + SumReal(ys, f)
  {
    if xs == [] {
      assert xs + ys == ys;
    } else {
      assert (xs + ys)[1..] == xs[1..] + ys;
      SumRealAppend(xs[1..], ys, f);
    }
  }

  /** Summing over the filtered rows is the same as summing a term that is zero off the filter. */
  lemma {:induction false} SumFilter<T>(xs: seq<T>, p: T -> bool, f: T -> int)
    ensures Sum(Filter(xs, p), f) == Sum(xs, x => if p(x) then f(x) else 0)
  {
    if xs != [] {
      SumFilter(xs[1..], p, f);
    }
  }

  /** Every summand between `lo` and `hi` puts the sum between `n*lo` and `n*hi`. */
  lemma {:induction false} SumBounds<T>(xs: seq<T>, f: T -> int, lo: int, hi: int)
    requires forall x :: x in xs ==> lo <= f(x) <= hi
    ensures |xs| * lo <= Sum(xs, f) <= |xs| * hi
  {
    if xs != [] {
      SumBounds(xs[1..], f, lo, hi);
    }
  }

  /** `avg`: the exact mean of `n` values summing to `total`, and 0 for no values. */
  function Mean(total: int, n: nat): (r: real)
    ensures n > 0 ==> r * n as real == total as real
    ensures n == 0 ==> r == 0.0
    ensures total >= 0 ==> r >= 0.0
  {
    if n > 0 then total as real / n as real else 0.0
  }

  /** Scaling by a positive factor keeps a strict bound. */
  lemma ScaleStrict(a: real, b: real, m: real)
    requires m > 0.0 && a < b
    ensures a * m < b * m
  {
    assert (b - a) * m > 0.0;
  }

  /** A mean of values between `lo` and `hi` lies between them. */
  lemma MeanBetween(total: int, n: nat, lo: int, hi: int)
    requires n > 0 && n * lo <= total <= n * hi
    ensures lo as real <= Mean(total, n) <= hi as real
  {
    var a := Mean(total, n);
    var m := n as real;
    assert (n * lo) as real == lo as real * m && (n * hi) as real == hi as real * m;
    if a < lo as real {
      ScaleStrict(a, lo as real, m);
    }
    if a > hi as real {
      ScaleStrict(hi as real, a, m);
    }
  }
}

=== FILE: carts.dfy ===
/** The shopping cart (`CartController`). A cart row is addressed by its (owner,
    product) pair, which the add endpoint keeps unique; the cart then behaves as a
    map from (user, product) to quantity. */
module Carts {
  import opened Base
  import opened Schema
  import opened Pricing
  import opened Checkout

  /** No two rows share a (user, product) pair. */
  predicate UniqueLines(cart: seq<CartLine>) {
    forall i, j :: 0 <= i < j < |cart| ==> !(cart[i].userId == cart[j].userId && cart[i].productId == cart[j].productId)
  }

  predicate Keyed(l: CartLine, u: Id, p: Id) {
    l.userId == u && l.productId == p
  }

  /** `Cart::where('user_id', $u)->where('product_id', $p)->first()`. */
  function FindLine(cart: seq<CartLine>, u: Id, p: Id): (r: Option<CartLine>)
    ensures r.Some? ==> r.value in cart && Keyed(r.value, u, p)
    ensures r.None? <==> forall l :: l in cart ==> !Keyed(l, u, p)
  {
    if cart == [] then None
    else if Keyed(cart[0], u, p) then Some(cart[0])
    else
      assert forall l :: l in cart <==> l == cart[0] || l in cart[1..];
      FindLine(cart[1..], u, p)
  }

  /** With one row per (user, product) the pair names a row as well as its id does:
      any row of the cart is the row found for its own pair. */
  lemma PairAddressesOneRow(cart: seq<CartLine>, l: CartLine)
    requires UniqueLines(cart) && l in cart
    ensures FindLine(cart, l.userId, l.productId) == Some(l)
  {
    var x := FindLine(cart, l.userId, l.productId).value;
    var i :| 0 <= i < |cart| && cart[i] == l;
    var j :| 0 <= j < |cart| && cart[j] == x;
    assert !(i < j) && !(j < i);
  }

  /** The cart read as a map: the quantity stored for (u, p), or 0 when there is no row. */
  function Quantity(cart: seq<CartLine>, u: Id, p: Id): int {
    match FindLine(cart, u, p)
    case Some(l) => l.quantity
    case None => 0
  }

  /** `UPDATE carts SET ... WHERE user_id = u AND product_id = p`. */
  function SetLine(cart: seq<CartLine>, u: Id, p: Id, quantity: int, options: Option<string>): (r: seq<CartLine>)
    ensures |r| == |cart|
    ensures forall i :: 0 <= i < |r| ==>
      r[i] == if Keyed(cart[i], u, p) then cart[i].(quantity := quantity, options := options) else cart[i]
  {
    seq(|cart|, i requires 0 <= i < |cart| =>
      if Keyed(cart[i], u, p) then cart[i].(quantity := quantity, options := options) else cart[i])
  }

  /** `DELETE FROM carts WHERE user_id = u AND product_id = p`. */
  function RemoveLine(cart: seq<CartLine>, u: Id, p: Id): (r: seq<CartLine>)
    ensures forall l :: l in r <==> l in cart && !Keyed(l, u, p)
  {
    Filter(cart, (l: CartLine) => !Keyed(l, u, p))
  }

  /** The cart after `store` adds `q` of product `p` for `u`: the existing row's
      quantity grows (and its options are replaced), or a new row is appended. */
  function Merge(cart: seq<CartLine>, u: Id, p: Id, q: int, o: Option<string>): seq<CartLine> {
    match FindLine(cart, u, p)
    case Some(existing) => SetLine(cart, u, p, existing.quantity + q, o)
    case None => cart + [CartLine(u, p, q, o)]
  }

  /** Read as a map, a merge changes only the (u, p) entry, which grows by exactly `q`. */
  lemma MergeQuantity(cart: seq<CartLine>, u: Id, p: Id, q: int, o: Option<string>, u': Id, p': Id)
    ensures Quantity(Merge(cart, u, p, q, o), u', p') == if u' == u && p' == p then Quantity(cart, u, p) + q else Quantity(cart, u', p')
  {
    match FindLine(cart, u, p)
    case Some(existing) =>
      var r := SetLine(cart, u, p, existing.quantity + q, o);
      assert Merge(cart, u, p, q, o) == r;
      assert Quantity(cart, u, p) == existing.quantity;
      SetLineQuantity(cart, u, p, existing.quantity + q, o, u', p');
    case None =>
      var l := CartLine(u, p, q, o);
      assert Merge(cart, u, p, q, o) == cart + [l];
      assert Quantity(cart, u, p) == 0;
      AppendQuantity(cart, l, u', p');
  }

  /** The merge keeps at most one row per (user, product). */
  lemma MergeKeepsLinesUnique(cart: seq<CartLine>, u: Id, p: Id, q: int, o: Option<string>)
    requires UniqueLines(cart)
    ensures UniqueLines(Merge(cart, u, p, q, o))
  {
    match FindLine(cart, u, p)
    case Some(existing) =>
      SetLineKeepsKeys(cart, u, p, existing.quantity + q, o);
    case None =>
      AppendKeepsLinesUnique(cart, CartLine(u, p, q, o));
  }

  lemma AppendKeepsLinesUnique(cart: seq<CartLine>, l: CartLine)
    requires UniqueLines(cart) && FindLine(cart, l.userId, l.productId).None?
    ensures UniqueLines(cart + [l])
  {
    var c := cart + [l];
    forall i, j | 0 <= i < j < |c| ensures !(c[i].userId == c[j].userId && c[i].productId == c[j].productId) {
      if j == |cart| {
        assert c[i] in cart;
      } else {
        assert c[i] == cart[i] && c[j] == cart[j];
      }
    }
  }

  // ---------------------------------------------------------------- index

  datatype Summary = Summary(totalItems: int, totalAmount: Cents, currency: string)
  datatype CartView = CartView(items: seq<CartLine>, summary: Summary)

  /** `index`: the caller's lines with their item count and amount. */
  function Index(s: Store, caller: Id): (r: Step<CartView>)
    ensures r.store == s
    ensures r.response.Success? <==> AllPriced(s, UserCart(s, caller))
    ensures r.response.Success? ==>
      && r.response.data.items == UserCart(s, caller)
      && r.response.data.summary.totalItems == ItemCount(UserCart(s, caller))
      && r.response.data.summary.totalAmount == Subtotal(s, UserCart(s, caller))
      && r.response.data.summary.currency == "USD"
  {
    var lines := UserCart(s, caller);
    if !AllPriced(s, lines) then Refuse(s, 500, "Server Error")
    else Step(Success(200, "", CartView(lines, Summary(ItemCount(lines), Subtotal(s, lines), "USD"))), s)
  }

  // ---------------------------------------------------------------- store

  /** The body of `POST /cart`. Whether `product_options` parses as JSON is given. */
  datatype AddRequest = AddRequest(productId: Option<Id>, quantity: Option<int>, options: Option<string>, optionsAreJson: bool)

  predicate ValidAdd(s: Store, req: AddRequest) {
    && req.productId.Some? && FindProduct(s, req.productId.value).Some?
    && req.quantity.Some? && req.quantity.value >= 1
    && (req.options.Some? ==> req.optionsAreJson)
  }

  /** `store`: add a product, merging into the caller's existing row for it. */
  function Add(s: Store, caller: Id, req: AddRequest): (r: Step<CartLine>)
    ensures r.response.Failure? ==> r.store == s
    ensures !ValidAdd(s, req) ==> r.response.Failure? && r.response.status == 422
    ensures ValidAdd(s, req) && !FindProduct(s, req.productId.value).value.isActive ==>
      r.response == Failure(400, "Product is not available")
    ensures r.response.Success? ==>
      && ValidAdd(s, req)
      && var p := FindProduct(s, req.productId.value).value;
      && p.isActive
      && r.response.status == 201
      && Quantity(s.cart, caller, p.id) + req.quantity.value <= p.stock
      && r.response.data == CartLine(caller, p.id, Quantity(s.cart, caller, p.id) + req.quantity.value, req.options)
      && r.store == s.(cart := Merge(s.cart, caller, p.id, req.quantity.value, req.options))
    ensures ValidAdd(s, req) && FindProduct(s, req.productId.value).value.isActive ==>
      (r.response.Success? <==> Quantity(s.cart, caller, req.productId.value) + req.quantity.value <= FindProduct(s, req.productId.value).value.stock
                                && req.quantity.value <= FindProduct(s, req.productId.value).value.stock)
  {
    if !ValidAdd(s, req) then Refuse(s, 422, "Validation error")
    else
      var p := FindProduct(s, req.productId.value).value;
      var qty := req.quantity.value;
      if !p.isActive then Refuse(s, 400, "Product is not available")
      else if p.stock < qty then Refuse(s, 400, "Insufficient stock quantity")
      else
        match FindLine(s.cart, caller, p.id)
        case Some(existing) =>
          var merged := existing.quantity + qty;
          if p.stock < merged then Refuse(s, 400, "Insufficient stock quantity")
          else
            Step(Success(201, "Item added to cart successfully", CartLine(caller, p.id, merged, req.options)),
                 s.(cart := Merge(s.cart, caller, p.id, qty, req.options)))
        case None =>
          var line := CartLine(caller, p.id, qty, req.options);
          Step(Success(201, "Item added to cart successfully", line), s.(cart := Merge(s.cart, caller, p.id, qty, req.options)))
  }

  // ---------------------------------------------------------------- update, destroy, clear

  /** `update`: replace the quantity of one of the caller's rows. */
  function Update(s: Store, caller: Id, owner: Id, productId: Id, quantity: Option<int>): (r: Step<CartLine>)
    ensures r.response.Failure? ==> r.store == s
    ensures FindLine(s.cart, owner, productId).None? ==> r.response == Failure(404, "Not Found")
    ensures FindLine(s.cart, owner, productId).Some? && owner != caller ==> r.response == Failure(403, "Unauthorized access")
    ensures FindLine(s.cart, owner, productId).Some? && owner == caller && (quantity.None? || quantity.value < 1) ==>
      r.response.Failure? && r.response.status == 422
    ensures FindLine(s.cart, owner, productId).Some? && owner == caller && quantity.Some? && quantity.value >= 1 ==>
      && (FindProduct(s, productId).None? ==> r.response.Failure? && r.response.status == 500)
      && (FindProduct(s, productId).Some? && FindProduct(s, productId).value.stock < quantity.value ==>
            r.response == Failure(400, "Insufficient stock quantity"))
      && (FindProduct(s, productId).Some? && quantity.value <= FindProduct(s, productId).value.stock ==>
            r.response.Success? && r.response.data.quantity == quantity.value)
    ensures r.response.Success? ==>
      && owner == caller && quantity.Some? && quantity.value >= 1
      && FindProduct(s, productId).Some? && quantity.value <= FindProduct(s, productId).value.stock
      && r.store == s.(cart := SetLine(s.cart, caller, productId, quantity.value, FindLine(s.cart, caller, productId).value.options))
  {
    match FindLine(s.cart, owner, productId)
    case None => Refuse(s, 404, "Not Found")
    case Some(line) =>
      if owner != caller then Refuse(s, 403, "Unauthorized access")
      else if quantity.None? || quantity.value < 1 then Refuse(s, 422, "Validation error")
      else if FindProduct(s, productId).None? then Refuse(s, 500, "Server Error")
      else if FindProduct(s, productId).value.stock < quantity.value then Refuse(s, 400, "Insufficient stock quantity")
      else
        var updated := line.(quantity := quantity.value);
        Step(Success(200, "Cart item updated successfully", updated),
             s.(cart := SetLine(s.cart, caller, productId, quantity.value, line.options)))
  }

  /** `destroy`: remove one of the caller's rows. */
  function Destroy(s: Store, caller: Id, owner: Id, productId: Id): (r: Step<()>)
    ensures r.response.Failure? ==> r.store == s
    ensures r.response.Success? <==> FindLine(s.cart, owner, productId).Some? && owner == caller
    ensures FindLine(s.cart, owner, productId).Some? && owner != caller ==> r.response == Failure(403, "Unauthorized access")
    ensures r.response.Success? ==>
      r.store == s.(cart := r.store.cart) && forall l :: l in r.store.cart <==> l in s.cart && !Keyed(l, caller, productId)
  {
    if FindLine(s.cart, owner, productId).None? then Refuse(s, 404, "Not Found")
    else if owner != caller then Refuse(s, 403, "Unauthorized access")
    else Step(Success(200, "Item removed from cart successfully", ()), s.(cart := RemoveLine(s.cart, caller, productId)))
  }

  /** `clear`: remove every row of the caller. */
  function Clear(s: Store, caller: Id): (r: Step<()>)
    ensures r.response.Success?
    ensures UserCart(r.store, caller) == []
    ensures forall v :: v != caller ==> UserCart(r.store, v) == UserCart(s, v)
    ensures r.store == s.(cart := r.store.cart)
  {
    DropUserLines(s.cart, caller, caller);
    forall v | v != caller ensures LinesOf(DropUser(s.cart, caller), v) == LinesOf(s.cart, v) {
      DropUserLines(s.cart, caller, v);
    }
    Step(Success(200, "Cart cleared successfully", ()), s.(cart := DropUser(s.cart, caller)))
  }

  // ---------------------------------------------------------------- properties

  lemma {:induction false} SetLineQuantity(cart: seq<CartLine>, u: Id, p: Id, q: int, o: Option<string>, u': Id, p': Id)
    requires FindLine(cart, u, p).Some?
    ensures Quantity(SetLine(cart, u, p, q, o), u', p') == if u' == u && p' == p then q else Quantity(cart, u', p')
  {
    if cart != [] {
      var r := SetLine(cart, u, p, q, o);
      assert r[1..] == SetLine(cart[1..], u, p, q, o);
      if Keyed(cart[0], u', p') {
      } else if Keyed(cart[0], u, p) {
        if FindLine(cart[1..], u, p).Some? {
          SetLineQuantity(cart[1..], u, p, q, o, u', p');
        } else {
          SetLineAbsent(cart[1..], u, p, q, o, u', p');
        }
      } else {
        SetLineQuantity(cart[1..], u, p, q, o, u', p');
      }
    }
  }

  lemma {:induction false} SetLineAbsent(cart: seq<CartLine>, u: Id, p: Id, q: int, o: Option<string>, u': Id, p': Id)
    requires !(u' == u && p' == p)
    ensures Quantity(SetLine(cart, u, p, q, o), u', p') == Quantity(cart, u', p')
  {
    if cart != [] {
      var r := SetLine(cart, u, p, q, o);
      assert r[1..] == SetLine(cart[1..], u, p, q, o);
      SetLineAbsent(cart[1..], u, p, q, o, u', p');
    }
  }

  lemma {:induction false} AppendQuantity(cart: seq<CartLine>, l: CartLine, u: Id, p: Id)
    requires FindLine(cart, l.userId, l.productId).None?
    ensures Quantity(cart + [l], u, p) == if Keyed(l, u, p) then l.quantity else Quantity(cart, u, p)
  {
    if cart != [] {
      assert (cart + [l])[1..] == cart[1..] + [l];
      AppendQuantity(cart[1..], l, u, p);
    }
  }

  /** Adding acts on the cart as a map: the caller's quantity for the product grows by
      the requested amount (from 0 when absent) and every other entry stays put. */
  lemma AddIsMapUpdate(s: Store, caller: Id, req: AddRequest, u: Id, p: Id)
    requires Add(s, caller, req).response.Success?
    ensures var t := Add(s, caller, req).store;
      Quantity(t.cart, u, p) ==
        if u == caller && p == req.productId.value then Quantity(s.cart, u, p) + req.quantity.value
        else Quantity(s.cart, u, p)
  {
    assert FindProduct(s, req.productId.value).value.id == req.productId.value;
    MergeQuantity(s.cart, caller, req.productId.value, req.quantity.value, req.options, u, p);
  }

  /** `update` replaces (does not add to) the quantity of the one row it names. */
  lemma UpdateIsMapUpdate(s: Store, caller: Id, owner: Id, productId: Id, quantity: Option<int>, u: Id, p: Id)
    requires Update(s, caller, owner, productId, quantity).response.Success?
    ensures Quantity(Update(s, caller, owner, productId, quantity).store.cart, u, p) ==
      if u == caller && p == productId then quantity.value else Quantity(s.cart, u, p)
  {
    var line := FindLine(s.cart, caller, productId).value;
    SetLineQuantity(s.cart, caller, productId, quantity.value, line.options, u, p);
  }

  lemma {:induction false} SetLineKeepsKeys(cart: seq<CartLine>, u: Id, p: Id, q: int, o: Option<string>)
    requires UniqueLines(cart)
    ensures UniqueLines(SetLine(cart, u, p, q, o))
  {
    var r := SetLine(cart, u, p, q, o);
    forall i, j | 0 <= i < j < |r| ensures !(r[i].userId == r[j].userId && r[i].productId == r[j].productId) {
      assert r[i].userId == cart[i].userId && r[i].productId == cart[i].productId;
      assert r[j].userId == cart[j].userId && r[j].productId == cart[j].productId;
    }
  }

  /** The merge in `store` keeps at most one row per (user, product). */
  lemma AddKeepsLinesUnique(s: Store, caller: Id, req: AddRequest)
    requires UniqueLines(s.cart)
    ensures UniqueLines(Add(s, caller, req).store.cart)
  {
    if Add(s, caller, req).response.Success? {
      assert FindProduct(s, req.productId.value).value.id == req.productId.value;
      MergeKeepsLinesUnique(s.cart, caller, req.productId.value, req.quantity.value, req.options);
    }
  }

  /** Deleting a row leaves every other (user, product) quantity alone and removes its own. */
  lemma {:induction false} RemoveLineQuantity(cart: seq<CartLine>, u: Id, p: Id, u': Id, p': Id)
    ensures Quantity(RemoveLine(cart, u, p), u', p') == if u' == u && p' == p then 0 else Quantity(cart, u', p')
  {
    if cart != [] {
      RemoveLineQuantity(cart[1..], u, p, u', p');
    }
  }

  lemma {:induction false} RemoveAfterAppend(cart: seq<CartLine>, l: CartLine)
    requires FindLine(cart, l.userId, l.productId).None?
    ensures RemoveLine(cart + [l], l.userId, l.productId) == cart
  {
    if cart != [] {
      assert (cart + [l])[1..] == cart[1..] + [l];
      assert cart[0] in cart;
      RemoveAfterAppend(cart[1..], l);
    } else {
      assert RemoveLine([l], l.userId, l.productId) == Filter([l][1..], (x: CartLine) => !Keyed(x, l.userId, l.productId));
    }
  }

  /** Adding a product that was not in the cart and then removing it restores the cart. */
  lemma AddThenDestroy(s: Store, caller: Id, req: AddRequest)
    requires Add(s, caller, req).response.Success?
    requires FindLine(s.cart, caller, req.productId.value).None?
    ensures Destroy(Add(s, caller, req).store, caller, caller, req.productId.value).store == s
  {
    var t := Add(s, caller, req).store;
    var l := CartLine(caller, req.productId.value, req.quantity.value, req.options);
    assert FindProduct(s, req.productId.value).value.id == req.productId.value;
    assert t.cart == Merge(s.cart, caller, req.productId.value, req.quantity.value, req.options) == s.cart + [l];
    assert l in t.cart;
    RemoveAfterAppend(s.cart, l);
  }

  /** The amount the cart page shows is the amount a payment intent charges for it. */
  lemma SummaryIsIntentAmount(s: Store, caller: Id, req: IntentRequest, gateway: Gateway<CreatedIntent>)
    requires CreatePaymentIntent(s, caller, req, gateway).response.Success?
    ensures Index(s, caller).response.Success?
    ensures Index(s, caller).response.data.summary.totalAmount
         == CreatePaymentIntent(s, caller, req, gateway).response.data.charge.amount
  {
  }
}

=== FILE: catalogue.dfy ===
/** The product catalogue (`Api/ProductController`): the public listing, product pages,
    the featured shelf, the admin listing and the admin writes. */
module Catalogue {
  import opened Base
  import opened Schema
  import opened Ordering
  import opened Sql
  import opened Text

  // ---------------------------------------------------------------- sorting

  /** The columns a listing may be ordered by. */
  datatype SortKey = ByName | ByPrice | ByCreated | ByUpdated | ByStock

  /** The `sort_by` whitelist; only the admin listing accepts `stock`. */
  function SortField(name: string, admin: bool): (r: Option<SortKey>)
    ensures r.Some? <==> name in ["name", "price", "created_at", "updated_at"] || (admin && name == "stock")
    ensures r == Some(ByStock) ==> admin
  {
    if name == "name" then Some(ByName)
    else if name == "price" then Some(ByPrice)
    else if name == "created_at" then Some(ByCreated)
    else if name == "updated_at" then Some(ByUpdated)
    else if admin && name == "stock" then Some(ByStock)
    else None
  }

  predicate KeyLe(k: SortKey, a: Product, b: Product) {
    match k
    case ByName => StrLe(a.name, b.name)
    case ByPrice => a.price <= b.price
    case ByCreated => a.createdAt <= b.createdAt
    case ByUpdated => a.updatedAt <= b.updatedAt
    case ByStock => a.stock <= b.stock
  }

  /** `orderBy(column, direction)`. */
  function Comparator(k: SortKey, descending: bool): (Product, Product) -> bool {
    (a: Product, b: Product) => if descending then KeyLe(k, b, a) else KeyLe(k, a, b)
  }

  lemma ComparatorIsPreorder(k: SortKey, descending: bool)
    ensures TotalPreorder(Comparator(k, descending))
  {
    StrLeTotalPreorder();
  }

  /** How the query builder reads `sort_order`: `asc` or `desc` in any case; any other
      word makes `orderBy` throw. */
  function Direction(word: string): Option<bool> {
    var w := LowerAll(word);
    if w == "asc" then Some(false) else if w == "desc" then Some(true) else None
  }

  // ---------------------------------------------------------------- listings

  datatype ProductQuery = ProductQuery(categoryId: Option<Id>, search: Option<string>, status: Option<string>,
                                       minPrice: Option<Cents>, maxPrice: Option<Cents>,
                                       sortBy: Option<string>, sortOrder: Option<string>,
                                       page: int, perPage: Option<nat>)

  /** `name`, `description` or `sku` contains the term. */
  predicate SearchMatches(p: Product, term: string) {
    Contains(p.name, term) || Contains(p.description, term) || Contains(p.sku, term)
  }

  predicate InStock(p: Product) {
    p.isActive && p.stock > 0
  }

  /** The public listing's filters. Price bounds apply to the list price, not the sale
      price, and are inclusive. */
  predicate Listed(p: Product, q: ProductQuery) {
    && InStock(p)
    && (q.categoryId.Some? ==> p.categoryId == q.categoryId.value)
    && (q.search.Some? ==> SearchMatches(p, q.search.value))
    && (q.minPrice.Some? ==> p.price >= q.minPrice.value)
    && (q.maxPrice.Some? ==> p.price <= q.maxPrice.value)
  }

  /** The admin listing's filters: `status` is `active`, `inactive` or `out_of_stock`
      (stock at most zero); any other value filters nothing. */
  predicate AdminListed(p: Product, q: ProductQuery) {
    && (q.search.Some? ==> SearchMatches(p, q.search.value))
    && (q.categoryId.Some? ==> p.categoryId == q.categoryId.value)
    && (q.status == Some("active") ==> p.isActive)
    && (q.status == Some("inactive") ==> !p.isActive)
    && (q.status == Some("out_of_stock") ==> p.stock <= 0)
  }

  /** The ordering a query asks for; `None` when `sort_by` is outside the whitelist,
      in which case the rows keep table order. */
  function OrderingOf(q: ProductQuery, admin: bool): Option<(SortKey, Option<bool>)> {
    match SortField(q.sortBy.GetOr("created_at"), admin)
    case None => None
    case Some(k) => Some((k, Direction(q.sortOrder.GetOr("desc"))))
  }

  /** `$request->get('per_page', 12)`. */
  function PerPage(q: ProductQuery): nat {
    q.perPage.GetOr(12)
  }

  /** `pg` is the page the query asks for: when `sort_by` is on the whitelist, the
      requested page of the rows sorted by that column in the requested direction;
      otherwise the requested page of the rows in table order. */
  ghost predicate ArrangedPage(pg: seq<Product>, rows: seq<Product>, q: ProductQuery, admin: bool) {
    match OrderingOf(q, admin)
    case None => IsPage(pg, rows, q.page, PerPage(q))
    case Some((k, dir)) => dir.Some? && IsSortedPage(pg, rows, Comparator(k, dir.value), q.page, PerPage(q))
  }

  /** Sort (when asked) and cut one page; twelve per page unless `per_page` says otherwise.
      A direction other than `asc`/`desc` makes the query builder throw. */
  function Arrange(rows: seq<Product>, q: ProductQuery, admin: bool): (r: Option<seq<Product>>)
    ensures OrderingOf(q, admin).Some? && OrderingOf(q, admin).value.1.None? <==> r.None?
    ensures r.Some? ==> ArrangedPage(r.value, rows, q, admin)
    ensures r.Some? ==> forall p :: p in r.value ==> p in rows
    ensures r.Some? ==> |r.value| <= PageSize(PerPage(q))
  {
    match OrderingOf(q, admin)
    case None => Some(Paginate(rows, q.page, PerPage(q)))
    case Some((k, dir)) =>
      if dir.None? then None
      else
        ComparatorIsPreorder(k, dir.value);
        var pg := SortedPage(rows, Comparator(k, dir.value), q.page, PerPage(q));
        Some(pg)
  }

  /** The smallest of some prices (`min('price')`), null for none. */
  function MinPrice(ps: seq<Product>): (r: Option<Cents>)
    ensures r.None? <==> ps == []
    ensures r.Some? ==> (exists p :: p in ps && p.price == r.value) && forall p :: p in ps ==> r.value <= p.price
  {
    if ps == [] then None
    else
      var rest := MinPrice(ps[1..]);
      if rest.Some? && rest.value < ps[0].price then rest else Some(ps[0].price)
  }

  /** The largest of some prices (`max('price')`), null for none. */
  function MaxPrice(ps: seq<Product>): (r: Option<Cents>)
    ensures r.None? <==> ps == []
    ensures r.Some? ==> (exists p :: p in ps && p.price == r.value) && forall p :: p in ps ==> p.price <= r.value
  {
    if ps == [] then None
    else
      var rest := MaxPrice(ps[1..]);
      if rest.Some? && rest.value > ps[0].price then rest else Some(ps[0].price)
  }

  predicate ActiveProduct(p: Product) { p.isActive }

  predicate ActiveCategory(c: Category) { c.isActive }

  /** The public listing's reply: a page, the active categories and the price range of
      the active products. */
  datatype Listing = Listing(items: seq<Product>, categories: seq<Category>, minPrice: Option<Cents>, maxPrice: Option<Cents>)

  /** The rows the public listing's filters select, in table order. */
  function ListedRows(s: Store, q: ProductQuery): (r: seq<Product>)
    ensures forall p :: p in r <==> p in s.products && Listed(p, q)
  {
    Filter(s.products, p => Listed(p, q))
  }

  /** The rows the admin listing's filters select, in table order. */
  function AdminRows(s: Store, q: ProductQuery): (r: seq<Product>)
    ensures forall p :: p in r <==> p in s.products && AdminListed(p, q)
  {
    Filter(s.products, p => AdminListed(p, q))
  }

  function ActiveProducts(s: Store): (r: seq<Product>)
    ensures forall p :: p in r <==> p in s.products && p.isActive
  {
    Filter(s.products, ActiveProduct)
  }

  /** `index`: the requested page of the active, in-stock products the filters select,
      with the active categories and the price range of all active products. */
  function Index(s: Store, q: ProductQuery): (r: Step<Listing>)
    ensures r.store == s
    ensures r.response.Failure? <==> OrderingOf(q, false).Some? && OrderingOf(q, false).value.1.None?
    ensures r.response.Failure? ==> r.response.status == 500
    ensures r.response.Success? ==>
      && ArrangedPage(r.response.data.items, ListedRows(s, q), q, false)
      && (forall p :: p in r.response.data.items ==> p in s.products && Listed(p, q))
      && (forall c :: c in r.response.data.categories <==> c in s.categories && c.isActive)
      && r.response.data.minPrice == MinPrice(ActiveProducts(s))
      && r.response.data.maxPrice == MaxPrice(ActiveProducts(s))
  {
    match Arrange(ListedRows(s, q), q, false)
    case None => Refuse(s, 500, "Order direction must be \"asc\" or \"desc\".")
    case Some(page) =>
      var active := ActiveProducts(s);
      Step(Success(200, "", Listing(page, Filter(s.categories, ActiveCategory), MinPrice(active), MaxPrice(active))), s)
  }

  /** The advertised price range is exact: every active product's price lies in it, and
      both ends are prices of active products. */
  lemma PriceRangeIsTight(s: Store, q: ProductQuery)
    requires Index(s, q).response.Success?
    ensures var d := Index(s, q).response.data;
      && (d.minPrice.None? <==> forall p :: p in s.products ==> !p.isActive)
      && (d.minPrice.Some? ==> exists p :: p in s.products && p.isActive && p.price == d.minPrice.value)
      && (d.maxPrice.Some? ==> exists p :: p in s.products && p.isActive && p.price == d.maxPrice.value)
      && forall p :: p in s.products && p.isActive ==>
           d.minPrice.Some? && d.maxPrice.Some? && d.minPrice.value <= p.price <= d.maxPrice.value
  {
    var active := ActiveProducts(s);
    if active != [] {
      assert active[0] in active;
    }
  }

  /** `adminIndex`: the requested page of every product the filters select, including
      inactive and sold-out ones. */
  function AdminIndex(s: Store, q: ProductQuery): (r: Step<seq<Product>>)
    ensures r.store == s
    ensures r.response.Failure? <==> OrderingOf(q, true).Some? && OrderingOf(q, true).value.1.None?
    ensures r.response.Failure? ==> r.response.status == 500
    ensures r.response.Success? ==> ArrangedPage(r.response.data, AdminRows(s, q), q, true)
    ensures r.response.Success? ==> forall p :: p in r.response.data ==> p in s.products && AdminListed(p, q)
  {
    match Arrange(AdminRows(s, q), q, true)
    case None => Refuse(s, 500, "Order direction must be \"asc\" or \"desc\".")
    case Some(page) => Step(Success(200, "", page), s)
  }

  /** The public listing never shows what the admin listing's `inactive` or
      `out_of_stock` views show. */
  lemma PublicListingIsInStock(p: Product, q: ProductQuery)
    requires Listed(p, q)
    ensures !AdminListed(p, q.(status := Some("inactive")))
    ensures !AdminListed(p, q.(status := Some("out_of_stock")))
  {
  }

  // ---------------------------------------------------------------- featured, show

  predicate FeaturedInStock(p: Product) {
    InStock(p) && p.isFeatured
  }

  predicate Newer(a: Product, b: Product) {
    a.createdAt >= b.createdAt
  }

  /** The featured products in stock, in table order. */
  function FeaturedRows(s: Store): (r: seq<Product>)
    ensures forall p :: p in r <==> p in s.products && FeaturedInStock(p)
  {
    Filter(s.products, FeaturedInStock)
  }

  /** The active products in stock, in table order. */
  function StockedRows(s: Store): (r: seq<Product>)
    ensures forall p :: p in r <==> p in s.products && InStock(p)
  {
    Filter(s.products, InStock)
  }

  /** Up to eight featured products in stock, in table order. */
  function FirstFeatured(s: Store): (r: seq<Product>)
    ensures |r| == if |FeaturedRows(s)| < 8 then |FeaturedRows(s)| else 8
    ensures r == FeaturedRows(s)[..|r|]
    ensures forall p :: p in r ==> p in s.products && FeaturedInStock(p)
  {
    var featured := FeaturedRows(s);
    if |featured| <= 8 then featured else featured[..8]
  }

  /** The eight newest products in stock. */
  function NewestStocked(s: Store): (r: seq<Product>)
    ensures |r| == if |StockedRows(s)| < 8 then |StockedRows(s)| else 8
    ensures multiset(r) <= multiset(StockedRows(s))
    ensures forall p :: p in r ==> p in s.products && InStock(p)
    ensures forall i, j :: 0 <= i < j < |r| ==> r[i].createdAt >= r[j].createdAt
    ensures forall p, x :: p in r && x in StockedRows(s) && x !in r ==> p.createdAt >= x.createdAt
    ensures r == [] <==> forall p :: p in s.products ==> !InStock(p)
  {
    var stocked := StockedRows(s);
    assert TotalPreorder(Newer);
    assert stocked != [] ==> stocked[0] in stocked;
    var r := TopRows(stocked, Newer, 8);
    NewestStockedFacts(stocked, r);
    r
  }

  /** `featured`: the first eight featured products in stock (no `orderBy`, so table
      order); when there are none, the eight newest products in stock instead. */
  function Featured(s: Store): (r: Step<seq<Product>>)
    ensures r.store == s && r.response.Success?
    ensures forall p :: p in r.response.data ==> p in s.products && InStock(p)
    ensures FeaturedRows(s) != [] ==>
      && |r.response.data| == (if |FeaturedRows(s)| < 8 then |FeaturedRows(s)| else 8)
      && r.response.data == FeaturedRows(s)[..|r.response.data|]
      && forall p :: p in r.response.data ==> p.isFeatured
    ensures FeaturedRows(s) == [] ==>
      && |r.response.data| == (if |StockedRows(s)| < 8 then |StockedRows(s)| else 8)
      && multiset(r.response.data) <= multiset(StockedRows(s))
      && (forall i, j :: 0 <= i < j < |r.response.data| ==> r.response.data[i].createdAt >= r.response.data[j].createdAt)
      && forall p, x :: p in r.response.data && x in StockedRows(s) && x !in r.response.data ==> p.createdAt >= x.createdAt
    ensures r.response.data == [] <==> forall p :: p in s.products ==> !InStock(p)
  {
    if FeaturedRows(s) != [] then
      var r := FirstFeatured(s);
      assert r[0] in r;
      Step(Success(200, "", r), s)
    else
      Step(Success(200, "", NewestStocked(s)), s)
  }

  lemma NewestStockedFacts(stocked: seq<Product>, r: seq<Product>)
    requires SortedBy(r, Newer)
    requires forall x, y :: x in r && y in stocked && y !in r ==> Newer(x, y)
    ensures forall i, j :: 0 <= i < j < |r| ==> r[i].createdAt >= r[j].createdAt
    ensures forall p, x :: p in r && x in stocked && x !in r ==> p.createdAt >= x.createdAt
  {
    forall i, j | 0 <= i < j < |r| ensures r[i].createdAt >= r[j].createdAt {
      var le := Newer;
      assert le(r[i], r[j]);
    }
  }

  /** The rating block of `show`: the mean of all of the product's reviews and their
      number. The mean is exact (the rounding to one place is not modelled). */
  datatype Rating = Rating(average: real, totalReviews: nat)

  datatype ProductPage = ProductPage(product: Product, rating: Rating, related: seq<Product>)

  function ReviewsOf(s: Store, pid: Id): (r: seq<Review>)
    ensures forall x :: x in r <==> x in s.reviews && x.productId == pid
  {
    Filter(s.reviews, (x: Review) => x.productId == pid)
  }

  function Stars(x: Review): int { x.rating }

  /** The other active products of the same category, in table order. */
  function RelatedRows(s: Store, p: Product): (r: seq<Product>)
    ensures forall x :: x in r <==> x in s.products && x.categoryId == p.categoryId && x.id != p.id && x.isActive
  {
    Filter(s.products, (x: Product) => x.categoryId == p.categoryId && x.id != p.id && x.isActive)
  }

  /** `limit(4)`: the first four of them. */
  function Related(s: Store, p: Product): (r: seq<Product>)
    ensures |r| == if |RelatedRows(s, p)| < 4 then |RelatedRows(s, p)| else 4
    ensures r == RelatedRows(s, p)[..|r|]
    ensures forall x :: x in r ==> x in s.products && x.categoryId == p.categoryId && x.id != p.id && x.isActive
  {
    var rows := RelatedRows(s, p);
    var r := if |rows| <= 4 then rows else rows[..4];
    assert forall x :: x in r ==> x in rows;
    r
  }

  /** `show`: an inactive product is hidden. */
  function Show(s: Store, id: Id): (r: Step<ProductPage>)
    ensures r.store == s
    ensures FindProduct(s, id).None? ==> r.response == Failure(404, "Not Found")
    ensures FindProduct(s, id).Some? && !FindProduct(s, id).value.isActive ==> r.response == Failure(404, "Product not found")
    ensures r.response.Success? <==> FindProduct(s, id).Some? && FindProduct(s, id).value.isActive
    ensures r.response.Success? ==>
      && r.response.data.product == FindProduct(s, id).value
      && r.response.data.rating.totalReviews == |ReviewsOf(s, id)|
      && r.response.data.rating.average == Mean(Sum(ReviewsOf(s, id), Stars), |ReviewsOf(s, id)|)
      && r.response.data.related == Related(s, FindProduct(s, id).value)
  {
    match FindProduct(s, id)
    case None => Refuse(s, 404, "Not Found")
    case Some(p) =>
      if !p.isActive then Refuse(s, 404, "Product not found")
      else
        assert p.id == id;
        var rs := ReviewsOf(s, id);
        Step(Success(200, "", ProductPage(p, Rating(Mean(Sum(rs, Stars), |rs|), |rs|), Related(s, p))), s)
  }

  /** A product never lists itself as related, and what it lists could be shown. */
  lemma RelatedAreShowable(s: Store, id: Id)
    requires Show(s, id).response.Success?
    ensures forall x :: x in Show(s, id).response.data.related ==> x.id != id && FindProduct(s, x.id).Some?
  {
    forall x | x in Show(s, id).response.data.related ensures x.id != id && FindProduct(s, x.id).Some? {
      FindProductExists(s, x.id);
      var k :| 0 <= k < |s.products| && s.products[k] == x;
    }
  }

  // ---------------------------------------------------------------- admin writes

  datatype NewProduct = NewProduct(name: Option<string>, description: Option<string>, price: Option<Cents>,
                                   salePrice: Option<Cents>, sku: Option<string>, stock: Option<int>,
                                   categoryId: Option<Id>, images: Option<seq<string>>,
                                   isFeatured: Option<bool>, isActive: Option<bool>)

  predicate CategoryExists(s: Store, id: Id) {
    exists c :: c in s.categories && c.id == id
  }

  /** `store`'s rules. */
  predicate ValidNewProduct(s: Store, req: NewProduct) {
    && Filled(req.name) && |req.name.value| <= 255
    && Filled(req.description)
    && req.price.Some? && req.price.value >= 0
    && (req.salePrice.Some? ==> req.salePrice.value >= 0)
    && Filled(req.sku) && (forall p :: p in s.products ==> p.sku != req.sku.value)
    && req.stock.Some? && req.stock.value >= 0
    && req.categoryId.Some? && CategoryExists(s, req.categoryId.value)
  }

  /** The `slug` column is unique: some row already carries `slug`. */
  predicate SlugInUse(s: Store, slug: string) {
    exists q :: q in s.products && q.slug == slug
  }

  /** `store` (administrators only): not featured, active and without images unless the
      request says otherwise; the slug comes from the name. Validation does not look at
      the slug, so a name whose slug is taken passes it and the insert then fails on the
      unique index, an uncaught error answered 500. */
  function Create(s: Store, caller: User, req: NewProduct, now: int): (r: Step<Product>)
    ensures r.response.Failure? ==> r.store == s
    ensures !caller.isAdmin ==> r.response == Failure(403, "Unauthorized access")
    ensures caller.isAdmin && !ValidNewProduct(s, req) ==> r.response == Failure(422, "Validation error")
    ensures caller.isAdmin && ValidNewProduct(s, req) ==>
      && (r.response.Success? <==> !SlugInUse(s, Slug(req.name.value)))
      && (SlugInUse(s, Slug(req.name.value)) ==> r.response == Failure(500, "Server Error"))
    ensures r.response.Success? ==>
      var p := r.response.data;
      && r.response.status == 201
      && p.id == s.nextId && p.slug == Slug(p.name) && p.name == req.name.value
      && p.isFeatured == req.isFeatured.GetOr(false) && p.isActive == req.isActive.GetOr(true)
      && p.description == req.description.value && p.sku == req.sku.value
      && p.price == req.price.value && p.salePrice == req.salePrice
      && p.stock == req.stock.value && p.categoryId == req.categoryId.value
      && p.images == req.images.GetOr([])
      && p.reviewCount == 0 && p.averageRating == 0.0 && p.createdAt == now && p.updatedAt == now
      && r.store == s.(products := s.products + [p], nextId := s.nextId + 1)
  {
    if !caller.isAdmin then Refuse(s, 403, "Unauthorized access")
    else if !ValidNewProduct(s, req) then Refuse(s, 422, "Validation error")
    else if SlugInUse(s, Slug(req.name.value)) then Refuse(s, 500, "Server Error")
    else
      var p := Product(s.nextId, req.name.value, Slug(req.name.value), req.description.value, req.sku.value,
                       req.price.value, req.salePrice, req.stock.value, req.categoryId.value,
                       req.images.GetOr([]), req.isActive.GetOr(true), req.isFeatured.GetOr(false),
                       0.0, 0, now, now);
      Step(Success(201, "Product created successfully", p),
           s.(products := s.products + [p], nextId := s.nextId + 1))
  }

  /** The body of `update`; `salePrice` is `Some(None)` to clear the sale. */
  datatype ProductPatch = ProductPatch(name: Option<string>, description: Option<string>, price: Option<Cents>,
                                       salePrice: Option<Option<Cents>>, sku: Option<string>, stock: Option<int>,
                                       categoryId: Option<Id>, images: Option<seq<string>>,
                                       isFeatured: Option<bool>, isActive: Option<bool>)

  /** `update`'s rules, each applying only to a field that is present. */
  predicate ValidPatch(s: Store, id: Id, req: ProductPatch) {
    && (req.name.Some? ==> Filled(req.name) && |req.name.value| <= 255)
    && (req.description.Some? ==> Filled(req.description))
    && (req.price.Some? ==> req.price.value >= 0)
    && (req.salePrice.Some? && req.salePrice.value.Some? ==> req.salePrice.value.value >= 0)
    && (req.sku.Some? ==> Filled(req.sku) && forall p :: p in s.products && p.id != id ==> p.sku != req.sku.value)
    && (req.stock.Some? ==> req.stock.value >= 0)
    && (req.categoryId.Some? ==> CategoryExists(s, req.categoryId.value))
  }

  /** The present fields overwrite the row; a new name brings a new slug. The timestamp
      moves to `now` only when some field actually changes. */
  function Patch(p: Product, req: ProductPatch, now: int): (r: Product)
    ensures r.id == p.id
    ensures r.name == req.name.GetOr(p.name)
    ensures r.slug == if req.name.Some? then Slug(req.name.value) else p.slug
    ensures r.description == req.description.GetOr(p.description) && r.sku == req.sku.GetOr(p.sku)
    ensures r.price == req.price.GetOr(p.price) && r.salePrice == req.salePrice.GetOr(p.salePrice)
    ensures r.stock == req.stock.GetOr(p.stock) && r.categoryId == req.categoryId.GetOr(p.categoryId)
    ensures r.images == req.images.GetOr(p.images)
    ensures r.isActive == req.isActive.GetOr(p.isActive) && r.isFeatured == req.isFeatured.GetOr(p.isFeatured)
    ensures r.reviewCount == p.reviewCount && r.averageRating == p.averageRating && r.createdAt == p.createdAt
    ensures r.updatedAt == if r.(updatedAt := p.updatedAt) == p then p.updatedAt else now
  {
    Touch(p,
          p.(name := req.name.GetOr(p.name),
             slug := if req.name.Some? then Slug(req.name.value) else p.slug,
             description := req.description.GetOr(p.description),
             price := req.price.GetOr(p.price), salePrice := req.salePrice.GetOr(p.salePrice),
             sku := req.sku.GetOr(p.sku), stock := req.stock.GetOr(p.stock),
             categoryId := req.categoryId.GetOr(p.categoryId), images := req.images.GetOr(p.images),
             isFeatured := req.isFeatured.GetOr(p.isFeatured), isActive := req.isActive.GetOr(p.isActive)),
          now)
  }

  /** A patch that changes nothing writes nothing, timestamp included. */
  lemma EmptyPatchWritesNothing(p: Product, now: int)
    ensures Patch(p, ProductPatch(None, None, None, None, None, None, None, None, None, None), now) == p
  {
  }

  /** A rename whose slug another row already carries. */
  predicate SlugClash(s: Store, id: Id, req: ProductPatch) {
    req.name.Some? && exists q :: q in s.products && q.id != id && q.slug == Slug(req.name.value)
  }

  /** `update` (administrators only). As in `store`, a slug clash is not validated and the
      write fails on the unique index with a 500. */
  function Update(s: Store, caller: User, id: Id, req: ProductPatch, now: int): (r: Step<Product>)
    ensures r.response.Failure? ==> r.store == s
    ensures FindProduct(s, id).None? ==> r.response == Failure(404, "Not Found")
    ensures FindProduct(s, id).Some? && !caller.isAdmin ==> r.response == Failure(403, "Unauthorized access")
    ensures FindProduct(s, id).Some? && caller.isAdmin && !ValidPatch(s, id, req) ==>
      r.response == Failure(422, "Validation error")
    ensures FindProduct(s, id).Some? && caller.isAdmin && ValidPatch(s, id, req) && SlugClash(s, id, req) ==>
      r.response == Failure(500, "Server Error")
    ensures r.response.Success? <==>
      FindProduct(s, id).Some? && caller.isAdmin && ValidPatch(s, id, req) && !SlugClash(s, id, req)
    ensures r.response.Success? ==>
      && r.response.data == Patch(FindProduct(s, id).value, req, now)
      && r.store == s.(products := r.store.products)
      && |r.store.products| == |s.products|
      && forall i :: 0 <= i < |s.products| ==>
           r.store.products[i] == if s.products[i].id == id then Patch(s.products[i], req, now) else s.products[i]
  {
    match FindProduct(s, id)
    case None => Refuse(s, 404, "Not Found")
    case Some(p) =>
      if !caller.isAdmin then Refuse(s, 403, "Unauthorized access")
      else if !ValidPatch(s, id, req) then Refuse(s, 422, "Validation error")
      else if SlugClash(s, id, req) then Refuse(s, 500, "Server Error")
      else
        var rows := seq(|s.products|, i requires 0 <= i < |s.products| =>
          if s.products[i].id == id then Patch(s.products[i], req, now) else s.products[i]);
        Step(Success(200, "Product updated successfully", Patch(p, req, now)), s.(products := rows))
  }

  /** An update that leaves out the name keeps the slug; one that renames re-slugs. */
  lemma SlugOnlyFollowsNewName(s: Store, caller: User, id: Id, req: ProductPatch, now: int)
    requires Update(s, caller, id, req, now).response.Success?
    ensures var p := Update(s, caller, id, req, now).response.data;
      (req.name.None? ==> p.slug == FindProduct(s, id).value.slug) && (req.name.Some? ==> WellFormedSlug(p.slug))
  {
  }

  /** No two rows share an id, a sku or a slug. */
  predicate DistinctKeys(ps: seq<Product>) {
    forall i, j :: 0 <= i < j < |ps| ==> ps[i].id != ps[j].id && ps[i].sku != ps[j].sku && ps[i].slug != ps[j].slug
  }

  /** The products table's keys: ids (the primary key), skus and slugs (both unique
      indexes) are pairwise distinct, and every id is below the auto-increment counter. */
  predicate KeysUnique(s: Store) {
    DistinctKeys(s.products) && forall p :: p in s.products ==> p.id < s.nextId
  }

  /** Rewriting the row `id` in place keeps the keys distinct, and below `bound`, when its
      id stays and its sku and slug are either kept or carried by no other row. */
  lemma RewriteKeepsKeys(ps: seq<Product>, rs: seq<Product>, id: Id, bound: int)
    requires DistinctKeys(ps) && |rs| == |ps| && forall p :: p in ps ==> p.id < bound
    requires forall i :: 0 <= i < |ps| && ps[i].id != id ==> rs[i] == ps[i]
    requires forall i :: 0 <= i < |ps| && ps[i].id == id ==>
      && rs[i].id == id
      && (rs[i].sku == ps[i].sku || forall q :: q in ps && q.id != id ==> q.sku != rs[i].sku)
      && (rs[i].slug == ps[i].slug || forall q :: q in ps && q.id != id ==> q.slug != rs[i].slug)
    ensures DistinctKeys(rs) && forall p :: p in rs ==> p.id < bound
  {
    forall i, j | 0 <= i < j < |rs| ensures rs[i].id != rs[j].id && rs[i].sku != rs[j].sku && rs[i].slug != rs[j].slug {
      assert ps[i] in ps && ps[j] in ps;
    }
    forall p | p in rs ensures p.id < bound {
      var k :| 0 <= k < |rs| && rs[k] == p;
      assert ps[k] in ps;
    }
  }

  /** `store` never breaks a key: the sku is validated, the slug guarded, the id fresh. */
  lemma CreateKeepsKeysUnique(s: Store, caller: User, req: NewProduct, now: int)
    requires KeysUnique(s)
    ensures KeysUnique(Create(s, caller, req, now).store)
  {
    var r := Create(s, caller, req, now);
    if r.response.Success? {
      var p := r.response.data;
      assert r.store.products == s.products + [p];
      forall i | 0 <= i < |s.products|
        ensures s.products[i].id != p.id && s.products[i].sku != p.sku && s.products[i].slug != p.slug
      {
        assert s.products[i] in s.products;
      }
    }
  }

  /** Neither does `update`: ids stay put, a new sku is validated against the other rows
      and a new slug is guarded against them. */
  lemma UpdateKeepsKeysUnique(s: Store, caller: User, id: Id, req: ProductPatch, now: int)
    requires KeysUnique(s)
    ensures KeysUnique(Update(s, caller, id, req, now).store)
  {
    var r := Update(s, caller, id, req, now);
    if r.response.Success? {
      assert !SlugClash(s, id, req) && ValidPatch(s, id, req);
      RewriteKeepsKeys(s.products, r.store.products, id, s.nextId);
    }
  }

  /** The order lines the `order_items` foreign key deletes along with a product. */
  function DropItemsOf(orders: seq<Order>, pid: Id): (r: seq<Order>)
    ensures |r| == |orders|
    ensures forall i :: 0 <= i < |r| ==>
      && r[i] == orders[i].(items := r[i].items)
      && (forall it :: it in r[i].items <==> it in orders[i].items && it.productId != pid)
  {
    seq(|orders|, i requires 0 <= i < |orders| =>
      orders[i].(items := Filter(orders[i].items, (it: OrderItem) => it.productId != pid)))
  }

  /** `destroy` (administrators only); the order lines of the product go with it. */
  function Destroy(s: Store, caller: User, id: Id): (r: Step<()>)
    ensures r.response.Failure? ==> r.store == s
    ensures FindProduct(s, id).None? ==> r.response == Failure(404, "Not Found")
    ensures FindProduct(s, id).Some? ==> (r.response.Success? <==> caller.isAdmin)
    ensures FindProduct(s, id).Some? && !caller.isAdmin ==> r.response == Failure(403, "Unauthorized access")
    ensures r.response.Success? ==>
      && (forall p :: p in r.store.products <==> p in s.products && p.id != id)
      && r.store == s.(products := r.store.products, orders := DropItemsOf(s.orders, id))
  {
    match FindProduct(s, id)
    case None => Refuse(s, 404, "Not Found")
    case Some(_) =>
      if !caller.isAdmin then Refuse(s, 403, "Unauthorized access")
      else Step(Success(200, "Product deleted successfully", ()),
                s.(products := Filter(s.products, (p: Product) => p.id != id), orders := DropItemsOf(s.orders, id)))
  }

  /** After `destroy` the product can be found neither by `show` nor in any order. */
  lemma DestroyedIsGone(s: Store, caller: User, id: Id)
    requires Destroy(s, caller, id).response.Success?
    ensures Show(Destroy(s, caller, id).store, id).response.Failure?
    ensures forall o, it :: o in Destroy(s, caller, id).store.orders && it in o.items ==> it.productId != id
  {
    var t := Destroy(s, caller, id).store;
    forall o, it | o in t.orders && it in o.items ensures it.productId != id {
      var k :| 0 <= k < |t.orders| && t.orders[k] == o;
    }
  }
}

=== FILE: categories.dfy ===
/** Categories: the `Category` model's accessors and scopes, the parent tree, and the
    public controller (`Api/CategoryController`). */
module Categories {
  import opened Base
  import opened Schema
  import opened Ordering
  import opened Sql
  import opened Text

  // ---------------------------------------------------------------- the model

  /** PHP truthiness of the nullable `image` column. */
  predicate HasImage(c: Category) {
    c.image.Some? && Truthy(c.image.value)
  }

  const PlaceholderUrl := "https://via.placeholder.com/200x200/4F46E5/FFFFFF?text="

  /** `strtoupper(substr($name, 0, 1))`. */
  function Initial(name: string): (r: string)
    ensures |r| <= 1
    ensures name == [] <==> r == []
    ensures name != [] ==> r == [Upper(name[0])]
  {
    if name == [] then "" else [Upper(name[0])]
  }

  /** The `display_image` accessor; `appUrl` is what `asset()` prefixes. */
  function DisplayImage(c: Category, appUrl: string): (r: string)
    ensures HasImage(c) ==> r == appUrl + "/storage/categories/" + c.image.value
    ensures !HasImage(c) ==> StartsWith(r, PlaceholderUrl) && r[|PlaceholderUrl|..] == Initial(c.name)
  {
    if HasImage(c) then appUrl + "/storage/categories/" + c.image.value
    else PlaceholderUrl + Initial(c.name)
  }

  /** The `name` mutator: setting the name always sets the slug derived from it. */
  function SetName(c: Category, name: string): (r: Category)
    ensures r.name == name && r.slug == Slug(name) && WellFormedSlug(r.slug)
    ensures r.(name := c.name, slug := c.slug) == c
  {
    c.(name := name, slug := Slug(name))
  }

  /** Renaming twice is renaming once, and a category named after its slug keeps it. */
  lemma SetNameProperties(c: Category, a: string, b: string)
    ensures SetName(SetName(c, a), b) == SetName(c, b)
    ensures WellFormedSlug(a) ==> SetName(c, a).slug == a
    ensures SetName(c, SetName(c, a).slug).slug == SetName(c, a).slug
  {
    if WellFormedSlug(a) {
      SlugOfSlug(a);
    }
    SlugIdempotent(a);
  }

  predicate IsActive(c: Category) { c.isActive }

  predicate IsRoot(c: Category) { c.parentId.None? }

  /** `scopeActive`. */
  function ActiveOnly(cs: seq<Category>): (r: seq<Category>)
    ensures forall c :: c in r <==> c in cs && c.isActive
  {
    Filter(cs, IsActive)
  }

  /** `scopeParent`. */
  function RootsOnly(cs: seq<Category>): (r: seq<Category>)
    ensures forall c :: c in r <==> c in cs && c.parentId.None?
  {
    Filter(cs, IsRoot)
  }

  /** `orderBy('sort_order')`. */
  predicate BySortOrder(a: Category, b: Category) {
    a.sortOrder <= b.sortOrder
  }

  /** `scopeOrdered`: by sort order, then by name. */
  predicate BySortOrderThenName(a: Category, b: Category) {
    a.sortOrder < b.sortOrder || (a.sortOrder == b.sortOrder && StrLe(a.name, b.name))
  }

  lemma SortOrders()
    ensures TotalPreorder(BySortOrder)
    ensures TotalPreorder(BySortOrderThenName)
  {
    StrLeTotalPreorder();
  }

  /** Rows sorted by `scopeOrdered`. */
  function Ordered(cs: seq<Category>): (r: seq<Category>)
    ensures multiset(r) == multiset(cs)
    ensures SortedBy(r, BySortOrderThenName)
    ensures forall i :: 0 <= i < |r| - 1 ==>
      r[i].sortOrder < r[i + 1].sortOrder || (r[i].sortOrder == r[i + 1].sortOrder && StrLe(r[i].name, r[i + 1].name))
  {
    SortOrders();
    var r := Sort(cs, BySortOrderThenName);
    assert forall i :: 0 <= i < |r| - 1 ==> BySortOrderThenName(r[i], r[i + 1]);
    r
  }

  /** The `children()` relation: active rows whose parent is `id`. */
  function Children(s: Store, id: Id): (r: seq<Category>)
    ensures forall c :: c in r <==> c in s.categories && c.parentId == Some(id) && c.isActive
  {
    Filter(s.categories, (c: Category) => c.parentId == Some(id) && c.isActive)
  }

  /** The `products()` relation. */
  function ProductsIn(s: Store, id: Id): (r: seq<Product>)
    ensures forall p :: p in r <==> p in s.products && p.categoryId == id
  {
    Filter(s.products, (p: Product) => p.categoryId == id)
  }

  // ---------------------------------------------------------------- the tree

  /** Category ids are the table's primary key. */
  predicate UniqueIds(cs: seq<Category>) {
    forall i, j :: 0 <= i < |cs| && 0 <= j < |cs| && cs[i].id == cs[j].id ==> i == j
  }

  /** Auto-increment ids start at 1. */
  predicate ValidIds(cs: seq<Category>) {
    UniqueIds(cs) && forall i :: 0 <= i < |cs| ==> cs[i].id >= 1
  }

  lemma FindUnique(s: Store, c: Category)
    requires UniqueIds(s.categories) && c in s.categories
    ensures FindCategory(s, c.id) == Some(c)
  {
    var r := FindCategory(s, c.id);
    var i :| 0 <= i < |s.categories| && s.categories[i] == c;
    var j :| 0 <= j < |s.categories| && s.categories[j] == r.value;
  }

  /** The parent id of the row with that id, if both exist. */
  function ParentOf(s: Store, id: Id): Option<Id> {
    match FindCategory(s, id)
    case None => None
    case Some(c) => c.parentId
  }

  /** The chain of ancestors of `id`, nearest first, followed for at most `fuel` steps. */
  function Ancestors(s: Store, id: Id, fuel: nat): (r: seq<Id>)
    ensures |r| <= fuel
    decreases fuel
  {
    if fuel == 0 then []
    else match ParentOf(s, id)
      case None => []
      case Some(p) => [p] + Ancestors(s, p, fuel - 1)
  }

  /** `d` lies below `c`: `c` is on `d`'s parent chain. In a table without cycles every
      chain is shorter than the table, so the table's size bounds the climb. */
  predicate IsDescendant(s: Store, d: Id, c: Id) {
    c in Ancestors(s, d, |s.categories|)
  }

  /** `getAllChildrenIds`: every category below `id`, at any depth. */
  function Descendants(s: Store, id: Id): (r: set<Id>)
    ensures forall d :: d in r <==> (exists c :: c in s.categories && c.id == d) && IsDescendant(s, d, id)
  {
    set c | c in s.categories && IsDescendant(s, c.id, id) :: c.id
  }

  /** `t` differs from `s` at most in the row `cid`, and no row changes its id. */
  predicate OnlyRowChanged(s: Store, t: Store, cid: Id) {
    && |t.categories| == |s.categories|
    && forall i :: 0 <= i < |s.categories| ==>
         t.categories[i].id == s.categories[i].id
         && (s.categories[i].id != cid ==> t.categories[i] == s.categories[i])
  }

  lemma ParentOfElsewhere(s: Store, t: Store, cid: Id, x: Id)
    requires UniqueIds(s.categories) && OnlyRowChanged(s, t, cid) && x != cid
    ensures ParentOf(t, x) == ParentOf(s, x)
  {
    assert UniqueIds(t.categories) by {
      forall i, j | 0 <= i < |t.categories| && 0 <= j < |t.categories| && t.categories[i].id == t.categories[j].id
        ensures i == j
      {
        assert s.categories[i].id == s.categories[j].id;
      }
    }
    if FindCategory(s, x).Some? {
      var c := FindCategory(s, x).value;
      var k :| 0 <= k < |s.categories| && s.categories[k] == c;
      assert t.categories[k] == c;
      FindUnique(t, c);
    }
  }

  /** A parent chain that never meets `cid` reads the same after `cid`'s row changes. */
  lemma {:induction false} ClimbAvoiding(s: Store, t: Store, cid: Id, x: Id, n: nat)
    requires UniqueIds(s.categories) && OnlyRowChanged(s, t, cid)
    requires x != cid && cid !in Ancestors(s, x, n)
    ensures Ancestors(t, x, n) == Ancestors(s, x, n)
    decreases n
  {
    if n > 0 {
      ParentOfElsewhere(s, t, cid, x);
      var up := ParentOf(s, x);
      if up.Some? {
        var p := up.value;
        assert Ancestors(s, x, n) == [p] + Ancestors(s, p, n - 1);
        ClimbAvoiding(s, t, cid, p, n - 1);
        assert Ancestors(t, x, n) == [p] + Ancestors(t, p, n - 1);
      }
    }
  }

  // ---------------------------------------------------------------- the controller

  /** The rows `index` selects, in table order: the active ones, only top-level ones when asked. */
  function Listable(s: Store, parentOnly: bool): (r: seq<Category>)
    ensures forall c :: c in r <==> c in s.categories && c.isActive && (parentOnly ==> c.parentId.None?)
  {
    if parentOnly then RootsOnly(ActiveOnly(s.categories)) else ActiveOnly(s.categories)
  }

  /** `index`: active categories, optionally only top-level ones, by sort order. */
  function Index(s: Store, parentOnly: bool): (r: Step<seq<Category>>)
    ensures r.store == s && r.response.Success?
    ensures forall c :: c in r.response.data <==> c in s.categories && c.isActive && (parentOnly ==> c.parentId.None?)
    ensures SortedBy(r.response.data, BySortOrder)
    ensures multiset(r.response.data) == multiset(Listable(s, parentOnly))
    ensures |r.response.data| <= |s.categories|
  {
    var rows := Listable(s, parentOnly);
    SortOrders();
    var sorted := Sort(rows, BySortOrder);
    forall c ensures c in sorted <==> c in rows {
      SortSameRows(rows, BySortOrder, c);
    }
    Step(Success(200, "", sorted), s)
  }

  /** What `show` returns: the category with its active children and up to twelve of
      its active products. */
  datatype CategoryDetail = CategoryDetail(category: Category, children: seq<Category>, products: seq<Product>)

  /** The category's active products, in table order. */
  function ActiveProductsIn(s: Store, id: Id): (r: seq<Product>)
    ensures forall p :: p in r <==> p in s.products && p.categoryId == id && p.isActive
  {
    Filter(ProductsIn(s, id), (p: Product) => p.isActive)
  }

  function Show(s: Store, id: Id): (r: Step<CategoryDetail>)
    ensures r.store == s
    ensures r.response.Success? <==> FindCategory(s, id).Some? && FindCategory(s, id).value.isActive
    ensures FindCategory(s, id).Some? && !FindCategory(s, id).value.isActive ==>
      r.response == Failure(404, "Category not found")
    ensures r.response.Success? ==>
      && r.response.data.category == FindCategory(s, id).value
      && |r.response.data.products| == (if |ActiveProductsIn(s, id)| < 12 then |ActiveProductsIn(s, id)| else 12)
      && r.response.data.products == ActiveProductsIn(s, id)[..|r.response.data.products|]
      && (forall p :: p in r.response.data.products ==> p in s.products && p.categoryId == id && p.isActive)
      && (forall c :: c in r.response.data.children <==> c in s.categories && c.parentId == Some(id) && c.isActive)
  {
    match FindCategory(s, id)
    case None => Refuse(s, 404, "Not Found")
    case Some(c) =>
      if !c.isActive then Refuse(s, 404, "Category not found")
      else
        var products := ActiveProductsIn(s, id);
        var shown := if |products| <= 12 then products else products[..12];
        assert forall p :: p in shown ==> p in products;
        Step(Success(200, "", CategoryDetail(c, Children(s, id), shown)), s)
  }

  /** The body of `store`. */
  datatype NewCategory = NewCategory(name: Option<string>, description: Option<string>, image: Option<string>,
                                     parentId: Option<Id>, sortOrder: Option<int>, isActive: Option<bool>)

  predicate CategoryExists(s: Store, id: Id) {
    exists c :: c in s.categories && c.id == id
  }

  predicate ValidNewCategory(s: Store, req: NewCategory) {
    && Filled(req.name) && |req.name.value| <= 255
    && (req.parentId.Some? ==> CategoryExists(s, req.parentId.value))
    && (req.sortOrder.Some? ==> req.sortOrder.value >= 0)
  }

  /** `store` (administrators only): sort order defaults to 0, active to true, and the
      slug is derived from the name. */
  function Create(s: Store, caller: User, req: NewCategory): (r: Step<Category>)
    ensures r.response.Failure? ==> r.store == s
    ensures !caller.isAdmin ==> r.response == Failure(403, "Unauthorized access")
    ensures caller.isAdmin ==> (r.response.Success? <==> ValidNewCategory(s, req))
    ensures r.response.Success? ==>
      var c := r.response.data;
      && r.response.status == 201
      && c.id == s.nextId && c.name == req.name.value && c.slug == Slug(c.name)
      && c.sortOrder == req.sortOrder.GetOr(0) && c.isActive == req.isActive.GetOr(true)
      && c.parentId == req.parentId
      && r.store == s.(categories := s.categories + [c], nextId := s.nextId + 1)
  {
    if !caller.isAdmin then Refuse(s, 403, "Unauthorized access")
    else if !ValidNewCategory(s, req) then Refuse(s, 422, "Validation error")
    else
      var c := SetName(Category(s.nextId, "", "", req.description, req.image, req.parentId,
                                req.sortOrder.GetOr(0), req.isActive.GetOr(true)), req.name.value);
      Step(Success(201, "Category created successfully", c),
           s.(categories := s.categories + [c], nextId := s.nextId + 1))
  }

  /** The body of `update`: an absent field is `None`; a nullable column can be set to
      `Some(None)`. */
  datatype CategoryPatch = CategoryPatch(name: Option<string>, description: Option<Option<string>>,
                                         image: Option<Option<string>>, parentId: Option<Option<Id>>,
                                         sortOrder: Option<int>, isActive: Option<bool>)

  predicate ValidPatch(s: Store, req: CategoryPatch) {
    && (req.name.Some? ==> Filled(req.name) && |req.name.value| <= 255)
    && (req.parentId.Some? && req.parentId.value.Some? ==> CategoryExists(s, req.parentId.value.value))
    && (req.sortOrder.Some? ==> req.sortOrder.value >= 0)
  }

  /** `$category->update($request->only(...))`; a new name goes through the mutator. */
  function Patch(c: Category, req: CategoryPatch): (r: Category)
    ensures r.id == c.id
    ensures r.name == req.name.GetOr(c.name)
    ensures req.name.Some? ==> r.slug == Slug(r.name)
    ensures req.name.None? ==> r.slug == c.slug
    ensures r.parentId == req.parentId.GetOr(c.parentId)
    ensures r.description == req.description.GetOr(c.description) && r.image == req.image.GetOr(c.image)
    ensures r.sortOrder == req.sortOrder.GetOr(c.sortOrder) && r.isActive == req.isActive.GetOr(c.isActive)
  {
    var named := if req.name.Some? then SetName(c, req.name.value) else c;
    named.(description := req.description.GetOr(c.description), image := req.image.GetOr(c.image),
           parentId := req.parentId.GetOr(c.parentId), sortOrder := req.sortOrder.GetOr(c.sortOrder),
           isActive := req.isActive.GetOr(c.isActive))
  }

  /** `$category->update(...)` on the table: the row with that id is patched. */
  function PatchRows(cs: seq<Category>, id: Id, req: CategoryPatch): (r: seq<Category>)
    ensures |r| == |cs|
    ensures forall i :: 0 <= i < |r| ==> r[i] == (if cs[i].id == id then Patch(cs[i], req) else cs[i])
  {
    seq(|cs|, i requires 0 <= i < |cs| => if cs[i].id == id then Patch(cs[i], req) else cs[i])
  }

  /** The parent the request asks for, when it is a truthy id. */
  function NewParent(req: CategoryPatch): Option<Id> {
    if req.parentId.Some? && req.parentId.value.Some? && req.parentId.value.value != 0 then req.parentId.value else None
  }

  /** `update` (administrators only). A category may not become its own parent, nor the
      child of one of its descendants. */
  function Update(s: Store, caller: User, id: Id, req: CategoryPatch): (r: Step<Category>)
    ensures r.response.Failure? ==> r.store == s
    ensures FindCategory(s, id).None? ==> r.response == Failure(404, "Not Found")
    ensures FindCategory(s, id).Some? && !caller.isAdmin ==> r.response == Failure(403, "Unauthorized access")
    ensures FindCategory(s, id).Some? && caller.isAdmin && ValidPatch(s, req) && NewParent(req).Some? ==>
      && (r.response == Failure(400, "Category cannot be its own parent") <==> NewParent(req).value == id)
      && (r.response == Failure(400, "Cannot set a child category as parent") <==>
            NewParent(req).value != id && NewParent(req).value in Descendants(s, id))
    ensures r.response.Success? <==>
      && FindCategory(s, id).Some? && caller.isAdmin && ValidPatch(s, req)
      && (NewParent(req).Some? ==> NewParent(req).value != id && NewParent(req).value !in Descendants(s, id))
    ensures r.response.Success? ==>
      && r.response.data == Patch(FindCategory(s, id).value, req)
      && r.store == s.(categories := PatchRows(s.categories, id, req))
  {
    match FindCategory(s, id)
    case None => Refuse(s, 404, "Not Found")
    case Some(c) =>
      if !caller.isAdmin then Refuse(s, 403, "Unauthorized access")
      else if !ValidPatch(s, req) then Refuse(s, 422, "Validation error")
      else if NewParent(req).Some? && NewParent(req).value == id then
        Refuse(s, 400, "Category cannot be its own parent")
      else if NewParent(req).Some? && NewParent(req).value in Descendants(s, id) then
        Refuse(s, 400, "Cannot set a child category as parent")
      else
        Step(Success(200, "Category updated successfully", Patch(c, req)),
             s.(categories := PatchRows(s.categories, id, req)))
  }

  /** Re-parenting row `id` to `p` changes only that row, keeps the ids unique, and
      `p` is then the row's parent. */
  lemma SetParentShape(s: Store, id: Id, req: CategoryPatch, p: Id)
    requires UniqueIds(s.categories) && CategoryExists(s, id)
    requires req.parentId == Some(Some(p))
    ensures OnlyRowChanged(s, s.(categories := PatchRows(s.categories, id, req)), id)
    ensures ParentOf(s.(categories := PatchRows(s.categories, id, req)), id) == Some(p)
  {
    var t := s.(categories := PatchRows(s.categories, id, req));
    assert UniqueIds(t.categories) by {
      forall i, j | 0 <= i < |t.categories| && 0 <= j < |t.categories| && t.categories[i].id == t.categories[j].id
        ensures i == j
      {
        assert s.categories[i].id == s.categories[j].id;
      }
    }
    var c :| c in s.categories && c.id == id;
    var k :| 0 <= k < |s.categories| && s.categories[k] == c;
    assert t.categories[k] in t.categories;
    FindUnique(t, t.categories[k]);
  }

  /** Re-parenting a row under a category that is neither the row itself nor below it
      does not put the row on its own parent chain. */
  lemma {:induction false} ReparentMakesNoCycle(s: Store, id: Id, req: CategoryPatch, p: Id)
    requires UniqueIds(s.categories) && CategoryExists(s, id)
    requires req.parentId == Some(Some(p)) && p != id && !IsDescendant(s, p, id)
    ensures id !in Ancestors(s.(categories := PatchRows(s.categories, id, req)), id, |s.categories| + 1)
  {
    SetParentShape(s, id, req, p);
    NewParentMakesNoCycle(s, s.(categories := PatchRows(s.categories, id, req)), id, p);
  }

  /** The core of the argument, for any table that differs only in row `id`, whose
      parent is now `p`. */
  lemma NewParentMakesNoCycle(s: Store, t: Store, id: Id, p: Id)
    requires UniqueIds(s.categories) && OnlyRowChanged(s, t, id) && ParentOf(t, id) == Some(p)
    requires p != id && id !in Ancestors(s, p, |s.categories|)
    ensures id !in Ancestors(t, id, |s.categories| + 1)
  {
    var n := |s.categories|;
    ClimbAvoiding(s, t, id, p, n);
    assert Ancestors(t, id, n + 1) == [p] + Ancestors(t, p, n);
  }

  /** Why the guard is there: an update that passes it never makes the category its own
      ancestor. The new parent's chain did not meet the category before, and the only
      row that changed is the category's own, so it does not meet it now. */
  lemma UpdateMakesNoCycle(s: Store, caller: User, id: Id, req: CategoryPatch)
    requires ValidIds(s.categories)
    requires Update(s, caller, id, req).response.Success?
    requires req.parentId.Some? && req.parentId.value.Some?
    ensures id !in Ancestors(Update(s, caller, id, req).store, id, |s.categories| + 1)
  {
    var p := req.parentId.value.value;
    assert CategoryExists(s, p);
    assert NewParent(req) == Some(p) by {
      var q :| q in s.categories && q.id == p;
      var k :| 0 <= k < |s.categories| && s.categories[k] == q;
    }
    assert !IsDescendant(s, p, id);
    assert CategoryExists(s, id) by {
      assert FindCategory(s, id).value in s.categories;
    }
    ReparentMakesNoCycle(s, id, req, p);
  }

  /** Ids and parent ids all lie below the auto-increment counter: the primary key is
      assigned from it and the parent must be an existing row. */
  predicate BelowNextId(s: Store) {
    forall c :: c in s.categories ==> c.id < s.nextId && (c.parentId.Some? ==> c.parentId.value < s.nextId)
  }

  /** Appending a row with a fresh id hides no existing row from the lookup. */
  lemma FindAfterAppend(s: Store, t: Store, c: Category, x: Id)
    requires UniqueIds(s.categories) && t.categories == s.categories + [c] && x != c.id
    ensures FindCategory(t, x) == FindCategory(s, x)
  {
    var u, v := FindCategory(t, x), FindCategory(s, x);
    if u.Some? && v.Some? {
      var i :| 0 <= i < |s.categories| && s.categories[i] == v.value;
      var j :| 0 <= j < |s.categories| && s.categories[j] == u.value;
    } else if u.Some? {
      assert u.value in s.categories;
    }
  }

  /** Two tables that agree on the parent of every id below `bound`, where parents of such
      ids are below `bound` too, agree on the chains that start below it, and those chains
      stay below it. */
  lemma {:induction false} ChainsBelow(s: Store, t: Store, bound: Id, x: Id, k: nat)
    requires forall y: Id :: y < bound ==> ParentOf(t, y) == ParentOf(s, y)
    requires forall y: Id :: y < bound && ParentOf(s, y).Some? ==> ParentOf(s, y).value < bound
    requires x < bound
    ensures Ancestors(t, x, k) == Ancestors(s, x, k)
    ensures forall a :: a in Ancestors(s, x, k) ==> a < bound
    decreases k
  {
    if k > 0 && ParentOf(s, x).Some? {
      var p := ParentOf(s, x).value;
      ChainsBelow(s, t, bound, p, k - 1);
      assert Ancestors(s, x, k) == [p] + Ancestors(s, p, k - 1);
    }
  }

  /** Appending a row with a fresh id keeps the ids unique and below the counter, and
      the lookup of the new id finds the new row. */
  lemma AppendKeepsIds(s: Store, t: Store, c: Category)
    requires ValidIds(s.categories) && BelowNextId(s) && s.nextId >= 1 && c.id == s.nextId
    requires c.parentId.Some? ==> CategoryExists(s, c.parentId.value)
    requires t.categories == s.categories + [c] && t.nextId == s.nextId + 1
    ensures ValidIds(t.categories) && BelowNextId(t)
    ensures FindCategory(t, c.id) == Some(c)
  {
    assert UniqueIds(t.categories) by {
      forall i, j | 0 <= i < |t.categories| && 0 <= j < |t.categories| && t.categories[i].id == t.categories[j].id
        ensures i == j
      {
        if i < |s.categories| { assert s.categories[i] in s.categories; }
        if j < |s.categories| { assert s.categories[j] in s.categories; }
      }
    }
    var found := FindCategory(t, c.id);
    assert c in t.categories;
    var j :| 0 <= j < |t.categories| && t.categories[j] == found.value;
    assert t.categories[|s.categories|] == c;
  }

  /** Appending a row with a fresh id and an existing parent keeps the ids unique and
      below the counter, leaves every existing chain alone and puts the new row on no
      chain of its own. */
  lemma AppendMakesNoCycle(s: Store, t: Store, c: Category)
    requires ValidIds(s.categories) && BelowNextId(s) && s.nextId >= 1 && c.id == s.nextId
    requires c.parentId.Some? ==> CategoryExists(s, c.parentId.value)
    requires t.categories == s.categories + [c] && t.nextId == s.nextId + 1
    ensures ValidIds(t.categories) && BelowNextId(t)
    ensures forall x: Id, k: nat :: x < s.nextId ==> Ancestors(t, x, k) == Ancestors(s, x, k)
    ensures c.id !in Ancestors(t, c.id, |t.categories|)
  {
    AppendKeepsIds(s, t, c);
    ParentsKept(s, t, c);
    forall x: Id, k: nat | x < s.nextId ensures Ancestors(t, x, k) == Ancestors(s, x, k) {
      ChainsBelow(s, t, c.id, x, k);
    }
    if c.parentId.Some? {
      var q :| q in s.categories && q.id == c.parentId.value;
    }
    NewRowOffChain(s, t, c.id, c.parentId, |t.categories|);
  }

  /** A row whose parent is older than it, in a table whose older rows have older
      parents, is not on its own chain. */
  lemma NewRowOffChain(s: Store, t: Store, id: Id, parent: Option<Id>, n: nat)
    requires forall y: Id :: y < id ==> ParentOf(t, y) == ParentOf(s, y)
    requires forall y: Id :: y < id && ParentOf(s, y).Some? ==> ParentOf(s, y).value < id
    requires ParentOf(t, id) == parent && (parent.Some? ==> parent.value < id)
    ensures id !in Ancestors(t, id, n)
  {
    if n > 0 && parent.Some? {
      ChainsBelow(s, t, id, parent.value, n - 1);
    }
  }

  /** The appended row's id is fresh, so the lookup and the parent of every older id are
      as before, and those parents are older too. */
  lemma ParentsKept(s: Store, t: Store, c: Category)
    requires UniqueIds(s.categories) && BelowNextId(s) && c.id == s.nextId
    requires t.categories == s.categories + [c]
    ensures forall y: Id :: y < c.id ==> ParentOf(t, y) == ParentOf(s, y)
    ensures forall y: Id :: y < c.id && ParentOf(s, y).Some? ==> ParentOf(s, y).value < c.id
  {
    forall y: Id | y < c.id ensures ParentOf(t, y) == ParentOf(s, y) {
      FindAfterAppend(s, t, c, y);
    }
    forall y: Id | y < c.id && ParentOf(s, y).Some? ensures ParentOf(s, y).value < c.id {
      assert FindCategory(s, y).value in s.categories;
    }
  }

  /** `store` adds no cycle: with ids fresh from the counter, the new category is not on
      its own parent chain, no existing chain changes, and the ids stay unique. */
  lemma CreateMakesNoCycle(s: Store, caller: User, req: NewCategory)
    requires ValidIds(s.categories) && BelowNextId(s) && s.nextId >= 1
    requires Create(s, caller, req).response.Success?
    ensures var t := Create(s, caller, req).store;
      && ValidIds(t.categories) && BelowNextId(t)
      && (forall x: Id, k: nat :: x < s.nextId ==> Ancestors(t, x, k) == Ancestors(s, x, k))
      && s.nextId !in Ancestors(t, s.nextId, |t.categories|)
  {
    var r := Create(s, caller, req);
    AppendMakesNoCycle(s, r.store, r.response.data);
  }

  /** `destroy`'s guards, shared by both controllers: no products, then no active
      children; inactive children are not counted and keep their parent id. */
  function DeleteIfUnused(s: Store, id: Id): (r: Step<()>)
    requires FindCategory(s, id).Some?
    ensures r.response.Failure? ==> r.store == s
    ensures |ProductsIn(s, id)| > 0 ==> r.response == Failure(400, "Cannot delete category with existing products")
    ensures |ProductsIn(s, id)| == 0 && |Children(s, id)| > 0 ==>
      r.response == Failure(400, "Cannot delete category with subcategories")
    ensures r.response.Success? <==> |ProductsIn(s, id)| == 0 && |Children(s, id)| == 0
    ensures r.response.Success? ==>
      && (forall c :: c in r.store.categories <==> c in s.categories && c.id != id)
      && r.store == s.(categories := r.store.categories)
      && (forall p :: p in r.store.products ==> p.categoryId != id)
  {
    if |ProductsIn(s, id)| > 0 then Refuse(s, 400, "Cannot delete category with existing products")
    else if |Children(s, id)| > 0 then Refuse(s, 400, "Cannot delete category with subcategories")
    else Step(Success(200, "Category deleted successfully", ()), s.(categories := Filter(s.categories, (c: Category) => c.id != id)))
  }

  /** `destroy` (administrators only). */
  function Destroy(s: Store, caller: User, id: Id): (r: Step<()>)
    ensures r.response.Failure? ==> r.store == s
    ensures FindCategory(s, id).None? ==> r.response == Failure(404, "Not Found")
    ensures FindCategory(s, id).Some? && !caller.isAdmin ==> r.response == Failure(403, "Unauthorized access")
    ensures FindCategory(s, id).Some? && caller.isAdmin ==> r == DeleteIfUnused(s, id)
  {
    match FindCategory(s, id)
    case None => Refuse(s, 404, "Not Found")
    case Some(_) =>
      if !caller.isAdmin then Refuse(s, 403, "Unauthorized access")
      else DeleteIfUnused(s, id)
  }
}

=== FILE: checkout.dfy ===
/** Checkout (`PaymentController`): quoting a payment intent against the cart, and
    turning a succeeded intent into exactly one order. The payment gateway is not
    called; what it answers is an input. */
module Checkout {
  import opened Base
  import opened Schema
  import opened Pricing

  /** What a call to the payment gateway produced: its answer, or the message of the
      `ApiErrorException` it raised. */
  datatype Gateway<+T> = Answered(value: T) | ApiError(message: string)

  // ---------------------------------------------------------------- createPaymentIntent

  /** The body of `POST /payments/create-intent`: `amount` (already in cents) and
      `currency`, each possibly absent. */
  datatype IntentRequest = IntentRequest(amount: Option<Cents>, currency: Option<string>)

  /** What the gateway hands back from `PaymentIntent::create`. */
  datatype CreatedIntent = CreatedIntent(id: string, clientSecret: string)

  /** What is sent to the gateway: the amount actually charged and its metadata. */
  datatype Charge = Charge(amount: Cents, currency: string, metadataUserId: Id, orderType: string)

  datatype IntentData = IntentData(clientSecret: string, paymentIntentId: string, amount: Cents, currency: string, charge: Charge)

  const Currencies: seq<string> := ["usd", "eur", "gbp"]

  /** `amount` is required and at least 0.50; `currency`, when sent, is one of three. */
  predicate ValidIntentRequest(req: IntentRequest) {
    && req.amount.Some? && req.amount.value >= 50
    && (req.currency.Some? ==> req.currency.value in Currencies)
  }

  /** `createPaymentIntent`. `gateway` is the gateway's answer to the create call.
      The database is only read. */
  function CreatePaymentIntent(s: Store, caller: Id, req: IntentRequest, gateway: Gateway<CreatedIntent>): (r: Step<IntentData>)
    ensures r.store == s
    ensures !ValidIntentRequest(req) ==> r.response.Failure? && r.response.status == 422
    ensures ValidIntentRequest(req) && UserCart(s, caller) == [] ==> r.response == Failure(400, "Cart is empty")
    ensures r.response.Success? ==>
      && r.response.status == 200
      && UserCart(s, caller) != []
      && AllPriced(s, UserCart(s, caller))
      && r.response.data.charge.amount == Subtotal(s, UserCart(s, caller))
      && r.response.data.amount == r.response.data.charge.amount
      && WithinOneCent(r.response.data.charge.amount, req.amount.value)
      && r.response.data.charge.metadataUserId == caller
      && r.response.data.charge.currency == req.currency.GetOr("usd")
    ensures ValidIntentRequest(req) && UserCart(s, caller) != [] && AllPriced(s, UserCart(s, caller)) ==>
      (r.response == Failure(400, "Amount mismatch") <==> !WithinOneCent(Subtotal(s, UserCart(s, caller)), req.amount.value))
    ensures ValidIntentRequest(req) && UserCart(s, caller) != [] && AllPriced(s, UserCart(s, caller))
            && WithinOneCent(Subtotal(s, UserCart(s, caller)), req.amount.value) ==>
      (r.response.Success? <==> gateway.Answered?)
  {
    if !ValidIntentRequest(req) then Refuse(s, 422, "Validation error")
    else
      var lines := UserCart(s, caller);
      if lines == [] then Refuse(s, 400, "Cart is empty")
      else if !AllPriced(s, lines) then Refuse(s, 500, "An error occurred while processing your request")
      else
        var calculated := Subtotal(s, lines);
        if !WithinOneCent(calculated, req.amount.value) then Refuse(s, 400, "Amount mismatch")
        else if gateway.ApiError? then Refuse(s, 500, "Payment processing error: " + gateway.message)
        else
          var currency := req.currency.GetOr("usd");
          var charge := Charge(calculated, currency, caller, "cart_checkout");
          var data := IntentData(gateway.value.clientSecret, gateway.value.id, calculated, currency, charge);
          Step(Success(200, "", data), s)
  }

  // ---------------------------------------------------------------- confirmPayment

  /** `POST /payments/confirm`: the intent id and the shipping address. */
  datatype ConfirmRequest = ConfirmRequest(paymentIntentId: Option<string>, shippingAddress: Option<Address>)

  /** The fields of the retrieved payment intent that the controller reads. */
  datatype Intent = Intent(id: string, status: string, metadataUserId: Option<Id>, currency: string)

  datatype ConfirmData = ConfirmData(order: Order, orderNumber: string)

  predicate ValidAddress(a: Address) {
    && Filled(a.name) && Filled(a.line1) && Filled(a.city) && Filled(a.postalCode)
    && Filled(a.country) && |a.country.value| == 2
  }

  predicate ValidConfirmRequest(req: ConfirmRequest) {
    Filled(req.paymentIntentId) && req.shippingAddress.Some? && ValidAddress(req.shippingAddress.value)
  }

  /** `Order::where('payment_reference', $id)->first()`. */
  function OrderByReference(s: Store, reference: string): Option<Order> {
    First(s.orders, (o: Order) => o.paymentReference == Some(reference))
  }

  /** Σ quantity of the lines for one product. */
  function QuantityOf(lines: seq<CartLine>, pid: Id): int {
    if lines == [] then 0
    else (if lines[0].productId == pid then lines[0].quantity else 0) + QuantityOf(lines[1..], pid)
  }

  /** Some line of the cart is for product `pid`. */
  predicate Ordered(lines: seq<CartLine>, pid: Id) {
    exists l :: l in lines && l.productId == pid
  }

  /** `$product->decrement('stock', $qty)`: `UPDATE products SET stock = stock - qty,
      updated_at = now WHERE id = ?` (Eloquent adds the timestamp to every increment). */
  function DecrementOne(products: seq<Product>, pid: Id, qty: int, now: int): (r: seq<Product>)
    ensures |r| == |products|
    ensures forall i :: 0 <= i < |r| ==>
      r[i] == (if products[i].id == pid then products[i].(stock := products[i].stock - qty, updatedAt := now) else products[i])
  {
    seq(|products|, i requires 0 <= i < |products| =>
      if products[i].id == pid then products[i].(stock := products[i].stock - qty, updatedAt := now) else products[i])
  }

  /** The decrement loop over the cart lines. Each product row loses exactly the total
      quantity ordered of it, and its timestamp moves to `now` exactly when it was ordered;
      nothing else about it changes, and stock is not floored. */
  function DecrementStock(products: seq<Product>, lines: seq<CartLine>, now: int): (r: seq<Product>)
    ensures |r| == |products|
    ensures forall i :: 0 <= i < |r| ==>
      r[i] == products[i].(stock := products[i].stock - QuantityOf(lines, products[i].id),
                           updatedAt := if Ordered(lines, products[i].id) then now else products[i].updatedAt)
    decreases |lines|
  {
    if lines == [] then products
    else
      var r := DecrementStock(DecrementOne(products, lines[0].productId, lines[0].quantity, now), lines[1..], now);
      assert forall pid :: Ordered(lines, pid) <==> lines[0].productId == pid || Ordered(lines[1..], pid) by {
        forall pid ensures Ordered(lines, pid) ==> lines[0].productId == pid || Ordered(lines[1..], pid) {
          if Ordered(lines, pid) && lines[0].productId != pid {
            var l :| l in lines && l.productId == pid;
            assert l in lines[1..];
          }
        }
      }
      r
  }

  /** The line snapshot: name, sku, first image, effective price and line total. */
  function Snapshot(s: Store, l: CartLine): (it: OrderItem)
    requires FindProduct(s, l.productId).Some?
    ensures it.productId == l.productId && it.quantity == l.quantity
    ensures it.price == LinePrice(s, l) && it.total == it.price * it.quantity
    ensures it.productName == FindProduct(s, l.productId).value.name
  {
    var p := FindProduct(s, l.productId).value;
    OrderItem(l.productId, p.name, p.sku, if |p.images| > 0 then p.images[0] else "",
              l.quantity, EffectivePrice(p), EffectivePrice(p) * l.quantity)
  }

  /** One order item per cart line, in cart order. */
  function Snapshots(s: Store, lines: seq<CartLine>): (items: seq<OrderItem>)
    requires AllPriced(s, lines)
    ensures |items| == |lines|
    ensures forall i :: 0 <= i < |items| ==> lines[i] in lines && items[i] == Snapshot(s, lines[i])
  {
    seq(|lines|, i requires 0 <= i < |lines| => Snapshot(s, lines[i]))
  }

  function ItemTotal(it: OrderItem): int { it.total }

  /** The item totals add up to the cart subtotal that the order records. */
  lemma {:induction false} SnapshotsSumToSubtotal(s: Store, lines: seq<CartLine>)
    requires AllPriced(s, lines)
    ensures Sum(Snapshots(s, lines), ItemTotal) == Subtotal(s, lines)
  {
    if lines != [] {
      var items := Snapshots(s, lines);
      var rest := Snapshots(s, lines[1..]);
      assert forall i :: 0 <= i < |rest| ==> lines[1..][i] == lines[i + 1];
      assert items[1..] == rest;
      SnapshotsSumToSubtotal(s, lines[1..]);
    }
  }

  /** The guard at line 301: a product whose name is falsy aborts the order. */
  predicate AllNamed(s: Store, lines: seq<CartLine>)
    requires AllPriced(s, lines)
  {
    forall l :: l in lines ==> Truthy(FindProduct(s, l.productId).value.name)
  }

  /** The order row written for a succeeded intent: the totals are the cart subtotal,
      8% tax and flat shipping, and the items add up to the subtotal. */
  function NewOrder(s: Store, caller: Id, intent: Intent, address: Address, orderNumber: string, now: int,
                    lines: seq<CartLine>): (o: Order)
    requires AllPriced(s, lines)
    ensures o.id == s.nextId && o.orderNumber == orderNumber && o.userId == caller && o.createdAt == now
    ensures o.status == "processing" && o.paymentStatus == "paid" && o.currency == intent.currency
    ensures o.subtotal == Subtotal(s, lines) as real
    ensures o.subtotal == Sum(o.items, ItemTotal) as real
    ensures 25.0 * o.taxAmount == 2.0 * o.subtotal
    ensures o.shippingAmount == o.shippingCost == Some(1000.0)
    ensures o.totalAmount == o.subtotal + o.taxAmount + o.shippingAmount.value
    ensures |o.items| == |lines|
    ensures forall i :: 0 <= i < |lines| ==>
      o.items[i].productId == lines[i].productId && o.items[i].quantity == lines[i].quantity
      && o.items[i].price == LinePrice(s, lines[i]) && o.items[i].total == o.items[i].price * lines[i].quantity
    ensures o.billingAddress == o.shippingAddress == address
    ensures o.paymentReference == Some(intent.id)
  {
    var subtotal := Subtotal(s, lines);
    SnapshotsSumToSubtotal(s, lines);
    Order(
      s.nextId, orderNumber, caller, "processing", "paid",
      subtotal as real, Tax(subtotal), Some(ShippingCents), Some(ShippingCents), OrderTotal(subtotal),
      intent.currency, Some(intent.id), address, address, Snapshots(s, lines), now)
  }

  /** The committed transaction: the order is appended, every product loses the quantity
      ordered of it and, when ordered, has its timestamp moved to `now`; the caller's cart
      (and only theirs) is emptied. */
  function Commit(s: Store, caller: Id, order: Order, now: int): (t: Store)
    ensures t.orders == s.orders + [order]
    ensures |t.products| == |s.products|
    ensures forall i :: 0 <= i < |s.products| ==>
      t.products[i] == s.products[i].(stock := s.products[i].stock - QuantityOf(UserCart(s, caller), s.products[i].id),
                                      updatedAt := if Ordered(UserCart(s, caller), s.products[i].id) then now
                                                   else s.products[i].updatedAt)
    ensures UserCart(t, caller) == []
    ensures forall v :: v != caller ==> UserCart(t, v) == UserCart(s, v)
    ensures t.users == s.users && t.categories == s.categories && t.wishlist == s.wishlist && t.reviews == s.reviews
    ensures t.nextId == s.nextId + 1
  {
    CartClearedOnlyForCaller(s, caller);
    s.(orders := s.orders + [order],
       products := DecrementStock(s.products, UserCart(s, caller), now),
       cart := DropUser(s.cart, caller),
       nextId := s.nextId + 1)
  }

  /** A well-formed request whose intent the gateway reports paid, by the caller. */
  predicate Cleared(req: ConfirmRequest, gateway: Gateway<Intent>, caller: Id) {
    ValidConfirmRequest(req) && gateway.Answered? && gateway.value.status == "succeeded"
    && gateway.value.metadataUserId == Some(caller)
  }

  /** `confirmPayment`. `gateway` is what retrieving the intent returned; `orderNumber` stands for `'ORD-' . strtoupper(uniqid())`
      and `now` for the clock. Every refusal rolls back, so the database is untouched
      unless an order is created. */
  function ConfirmPayment(s: Store, caller: Id, req: ConfirmRequest, gateway: Gateway<Intent>,
                          orderNumber: string, now: int): (r: Step<ConfirmData>)
    ensures r.response.Failure? ==> r.store == s
    ensures !ValidConfirmRequest(req) ==> r.response.Failure? && r.response.status == 422
    ensures ValidConfirmRequest(req) && gateway.ApiError? ==> r.response.Failure? && r.response.status == 500
    ensures ValidConfirmRequest(req) && gateway.Answered? && gateway.value.status != "succeeded" ==>
      r.response == Failure(400, "Payment not completed. Status: " + gateway.value.status)
    ensures ValidConfirmRequest(req) && gateway.Answered? && gateway.value.status == "succeeded"
            && gateway.value.metadataUserId != Some(caller) ==>
      r.response == Failure(403, "Unauthorized")
    ensures r.response.Success? ==>
      && Cleared(req, gateway, caller)
      && r.response.status == 200
      && r.response.data.order.paymentReference == Some(gateway.value.id)
      && r.response.data.orderNumber == r.response.data.order.orderNumber
    ensures Cleared(req, gateway, caller) && OrderByReference(s, gateway.value.id).Some? ==>
      && r.store == s
      && r.response == Success(200, "Order already exists", ConfirmData(OrderByReference(s, gateway.value.id).value,
                                                                        OrderByReference(s, gateway.value.id).value.orderNumber))
    ensures Cleared(req, gateway, caller) && OrderByReference(s, gateway.value.id).None? && UserCart(s, caller) == [] ==>
      r.response == Failure(400, "Cart is empty")
    ensures Cleared(req, gateway, caller) && OrderByReference(s, gateway.value.id).None? && UserCart(s, caller) != []
            && !(AllPriced(s, UserCart(s, caller)) && AllNamed(s, UserCart(s, caller))) ==>
      r.response.Failure? && r.response.status == 500
    ensures Cleared(req, gateway, caller) && OrderByReference(s, gateway.value.id).None? && UserCart(s, caller) != []
            && AllPriced(s, UserCart(s, caller)) && AllNamed(s, UserCart(s, caller)) ==>
      && r.response.Success? && r.response.message == "Order created successfully"
    ensures r.response.Success? && r.response.message == "Order created successfully" ==>
      && OrderByReference(s, gateway.value.id).None?
      && UserCart(s, caller) != [] && AllPriced(s, UserCart(s, caller)) && AllNamed(s, UserCart(s, caller))
      && r.response.data.order == NewOrder(s, caller, gateway.value, req.shippingAddress.value, orderNumber, now, UserCart(s, caller))
      && r.store == Commit(s, caller, r.response.data.order, now)
  {
    if !ValidConfirmRequest(req) then Refuse(s, 422, "Validation error")
    else if gateway.ApiError? then Refuse(s, 500, "Payment verification error: " + gateway.message)
    else
      var intent := gateway.value;
      if intent.status != "succeeded" then Refuse(s, 400, "Payment not completed. Status: " + intent.status)
      else if intent.metadataUserId != Some(caller) then Refuse(s, 403, "Unauthorized")
      else
        var existing := OrderByReference(s, intent.id);
        if existing.Some? then
          Step(Success(200, "Order already exists", ConfirmData(existing.value, existing.value.orderNumber)), s)
        else
          var lines := UserCart(s, caller);
          if lines == [] then Refuse(s, 400, "Cart is empty")
          else if !AllPriced(s, lines) || !AllNamed(s, lines) then
            Refuse(s, 500, "An error occurred while creating your order")
          else
            var order := NewOrder(s, caller, intent, req.shippingAddress.value, orderNumber, now, lines);
            Step(Success(200, "Order created successfully", ConfirmData(order, order.orderNumber)), Commit(s, caller, order, now))
  }

  /** Deleting the caller's lines empties their cart and leaves every other cart as it was. */
  lemma CartClearedOnlyForCaller(s: Store, caller: Id)
    ensures var t := s.(cart := DropUser(s.cart, caller));
      && UserCart(t, caller) == []
      && forall v :: v != caller ==> UserCart(t, v) == UserCart(s, v)
  {
    DropUserLines(s.cart, caller, caller);
    forall v | v != caller ensures LinesOf(DropUser(s.cart, caller), v) == LinesOf(s.cart, v) {
      DropUserLines(s.cart, caller, v);
    }
  }

  /** An appended row is found by `first()` when no earlier row matched. */
  lemma FirstAfterAppend<T>(xs: seq<T>, x: T, p: T -> bool)
    requires First(xs, p).None?
    requires p(x)
    ensures First(xs + [x], p) == Some(x)
  {
    var r := First(xs + [x], p);
    assert x in xs + [x];
  }

  /** Idempotence: confirming the same intent again, whatever order number and clock
      the second attempt would use, leaves the database exactly as the first call left it. */
  lemma ConfirmTwiceSameStore(s: Store, caller: Id, req: ConfirmRequest, gateway: Gateway<Intent>,
                              number1: string, now1: int, number2: string, now2: int)
    ensures var s1 := ConfirmPayment(s, caller, req, gateway, number1, now1).store;
      ConfirmPayment(s1, caller, req, gateway, number2, now2).store == s1
  {
    var first := ConfirmPayment(s, caller, req, gateway, number1, now1);
    if first.response.Success? && first.response.message == "Order created successfully" {
      var o := first.response.data.order;
      FirstAfterAppend(s.orders, o, (x: Order) => x.paymentReference == Some(gateway.value.id));
      assert OrderByReference(first.store, gateway.value.id) == Some(o);
    } else {
      assert first.store == s;
    }
  }

  /** A retry after success answers with the order the first call produced. */
  lemma ConfirmRetryReturnsSameOrder(s: Store, caller: Id, req: ConfirmRequest, gateway: Gateway<Intent>,
                                     number1: string, now1: int, number2: string, now2: int)
    requires ConfirmPayment(s, caller, req, gateway, number1, now1).response.Success?
    ensures var first := ConfirmPayment(s, caller, req, gateway, number1, now1);
      var second := ConfirmPayment(first.store, caller, req, gateway, number2, now2);
      second.response == Success(200, "Order already exists", first.response.data)
  {
    var first := ConfirmPayment(s, caller, req, gateway, number1, now1);
    if first.response.message == "Order created successfully" {
      var o := first.response.data.order;
      FirstAfterAppend(s.orders, o, (x: Order) => x.paymentReference == Some(gateway.value.id));
    }
  }

  /** A worked example: one line of a 25.00 product gives tax 2.00 and total 37.00. */
  lemma OneLineExample(s: Store, p: Product, caller: Id)
    requires s.products == [p] && p.salePrice.None? && p.price == 2500
    requires s.cart == [CartLine(caller, p.id, 1, None)]
    ensures AllPriced(s, UserCart(s, caller))
    ensures Subtotal(s, UserCart(s, caller)) == 2500
    ensures Tax(2500) == 200.0 && OrderTotal(2500) == 3700.0
  {
    assert UserCart(s, caller) == s.cart;
    assert FindProduct(s, p.id) == Some(p);
    assert UserCart(s, caller)[1..] == [];
  }
}

=== FILE: cors.dfy ===
/**
 * The production CORS middleware: it answers preflight requests itself and stamps
 * the cross-origin headers on every response, echoing the caller's origin only
 * when it is on the allowlist.
 */
module Cors {
  import opened Base

  /** The parts of a request the middleware reads; the method arrives upper-cased. */
  datatype HttpRequest = HttpRequest(httpMethod: string, origin: Option<string>)

  datatype HttpResponse = HttpResponse(status: nat, body: string, headers: map<string, string>)

  /** The front ends allowed to see their own origin echoed back. */
  const AllowedOrigins: seq<string> := [
    "https://tsattai.pandiyankanna.com",
    "https://www.tsattai.pandiyankanna.com",
    "https://api.pandiyankanna.com",
    "https://vembarkarupatti.in",
    "https://www.vembarkarupatti.in",
    "https://backend.vembarkarupatti.in",
    "http://localhost:3000",
    "http://127.0.0.1:3000",
    "http://localhost:3001",
    "http://localhost:5173"
  ]

  const AllowOriginHeader := "Access-Control-Allow-Origin"
  const AllowMethodsHeader := "Access-Control-Allow-Methods"
  const AllowHeadersHeader := "Access-Control-Allow-Headers"
  const ExposeHeadersHeader := "Access-Control-Expose-Headers"
  const AllowCredentialsHeader := "Access-Control-Allow-Credentials"
  const MaxAgeHeader := "Access-Control-Max-Age"

  const AllowedMethods := "GET, POST, PUT, DELETE, OPTIONS, PATCH"
  const AllowedHeaders := "Content-Type, Authorization, X-Requested-With, Accept, Origin, Cache-Control, X-File-Name, X-CSRF-TOKEN"

  /** The headers the middleware owns; every other header is the downstream handler's. */
  const CorsHeaders: set<string> := {AllowOriginHeader, AllowMethodsHeader, AllowHeadersHeader,
                                     ExposeHeadersHeader, AllowCredentialsHeader, MaxAgeHeader}

  predicate IsAllowed(origin: Option<string>) {
    origin.Some? && origin.value in AllowedOrigins
  }

  /** The value of `Access-Control-Allow-Origin` for a request's origin. */
  function AllowOrigin(origin: Option<string>): (r: string)
    ensures r == "*" || r in AllowedOrigins
    ensures r != "*" ==> origin == Some(r)
    ensures IsAllowed(origin) <==> r != "*"
  {
    if IsAllowed(origin) then origin.value else "*"
  }

  /** The response before the headers are stamped: an empty 200 for a preflight,
      otherwise whatever the rest of the pipeline produced. */
  function Downstream(req: HttpRequest, next: HttpRequest -> HttpResponse): (r: HttpResponse)
    ensures req.httpMethod == "OPTIONS" ==> r == HttpResponse(200, "", map[])
    ensures req.httpMethod != "OPTIONS" ==> r == next(req)
  {
    if req.httpMethod == "OPTIONS" then HttpResponse(200, "", map[]) else next(req)
  }

  /** `headers->set` for each CORS header, replacing any value already there. */
  function Stamp(headers: map<string, string>, origin: string): (r: map<string, string>)
    ensures r.Keys == headers.Keys + CorsHeaders
    ensures forall k :: k in headers && k !in CorsHeaders ==> r[k] == headers[k]
    ensures r[AllowOriginHeader] == origin
    ensures r[AllowMethodsHeader] == AllowedMethods && r[AllowHeadersHeader] == AllowedHeaders
    ensures r[ExposeHeadersHeader] == "Authorization"
    ensures r[AllowCredentialsHeader] == "true" && r[MaxAgeHeader] == "86400"
  {
    headers[AllowOriginHeader := origin]
           [AllowMethodsHeader := AllowedMethods]
           [AllowHeadersHeader := AllowedHeaders]
           [ExposeHeadersHeader := "Authorization"]
           [AllowCredentialsHeader := "true"]
           [MaxAgeHeader := "86400"]
  }

  /** `handle`. */
  function Handle(req: HttpRequest, next: HttpRequest -> HttpResponse): (r: HttpResponse)
    ensures req.httpMethod == "OPTIONS" ==> r.status == 200 && r.body == ""
    ensures req.httpMethod != "OPTIONS" ==> r.status == next(req).status && r.body == next(req).body
    ensures CorsHeaders <= r.headers.Keys
    ensures IsAllowed(req.origin) ==> r.headers[AllowOriginHeader] == req.origin.value
    ensures !IsAllowed(req.origin) ==> r.headers[AllowOriginHeader] == "*"
    ensures r.headers[AllowMethodsHeader] == AllowedMethods && r.headers[AllowHeadersHeader] == AllowedHeaders
    ensures r.headers[ExposeHeadersHeader] == "Authorization"
    ensures r.headers[AllowCredentialsHeader] == "true" && r.headers[MaxAgeHeader] == "86400"
  {
    var base := Downstream(req, next);
    base.(headers := Stamp(base.headers, AllowOrigin(req.origin)))
  }

  /** A preflight never reaches the rest of the pipeline: two different downstream
      handlers give the same answer. */
  lemma PreflightSkipsNext(req: HttpRequest, next1: HttpRequest -> HttpResponse, next2: HttpRequest -> HttpResponse)
    requires req.httpMethod == "OPTIONS"
    ensures Handle(req, next1) == Handle(req, next2)
  {
    assert Downstream(req, next1) == Downstream(req, next2);
  }

  /** A request without an Origin header, or with one off the allowlist, is answered
      with the wildcard; the only origins ever echoed are the listed ones. */
  lemma ForeignOriginGetsWildcard(req: HttpRequest, next: HttpRequest -> HttpResponse)
    requires req.origin.None? || req.origin.value !in AllowedOrigins
    ensures Handle(req, next).headers[AllowOriginHeader] == "*"
  {
  }

  /** Headers the downstream handler set, other than the CORS ones, pass through. */
  lemma OtherHeadersKept(req: HttpRequest, next: HttpRequest -> HttpResponse, k: string)
    requires req.httpMethod != "OPTIONS" && k in next(req).headers && k !in CorsHeaders
    ensures k in Handle(req, next).headers && Handle(req, next).headers[k] == next(req).headers[k]
  {
  }
}

=== FILE: dashboard.dfy ===
/** The administrator dashboard (`Api/Admin/DashboardController`): stock buckets,
    order and revenue figures, recent orders and the best sellers. */
module Dashboard {
  import opened Base
  import opened Schema
  import opened Ordering
  import Orders

  // ---------------------------------------------------------------- stock buckets

  predicate InStock(p: Product) { p.stock > 0 }
  predicate OutOfStock(p: Product) { p.stock <= 0 }
  predicate LowStock(p: Product) { 0 < p.stock <= 10 }

  datatype ProductStats = ProductStats(total: nat, inStock: nat, outOfStock: nat, lowStock: nat)

  /** The three stock buckets: in and out of stock split the catalogue, and low stock
      (1 to 10 left) is part of in stock. */
  function StockBuckets(ps: seq<Product>): (r: ProductStats)
    ensures r.total == |ps|
    ensures r.inStock + r.outOfStock == r.total
    ensures r.lowStock <= r.inStock
    ensures r.inStock == |Filter(ps, InStock)| && r.lowStock == |Filter(ps, LowStock)|
  {
    CountSplit(ps, InStock, OutOfStock);
    CountMonotone(ps, LowStock, InStock);
    ProductStats(|ps|, Count(ps, InStock), Count(ps, OutOfStock), Count(ps, LowStock))
  }

  // ---------------------------------------------------------------- revenue

  /** A period of the clock, `[from, to)`; `today()` and `now()->subDays(7)` are inputs. */
  datatype Window = Window(from: int, to: int)

  predicate Within(o: Order, w: Window) {
    w.from <= o.createdAt < w.to
  }

  predicate Outside(o: Order, w: Window) {
    !Within(o, w)
  }

  function OrdersIn(orders: seq<Order>, w: Window): (r: seq<Order>)
    ensures |r| <= |orders|
    ensures forall o :: o in r <==> o in orders && w.from <= o.createdAt < w.to
  {
    Filter(orders, o => Within(o, w))
  }

  function OrdersOutside(orders: seq<Order>, w: Window): (r: seq<Order>)
    ensures forall o :: o in r <==> o in orders && !(w.from <= o.createdAt < w.to)
  {
    Filter(orders, o => Outside(o, w))
  }

  /** Paid revenue splits over any period: what was paid inside it plus what was paid
      outside it is all that was paid. */
  lemma {:induction false} RevenueSplits(orders: seq<Order>, w: Window)
    ensures Orders.PaidRevenue(OrdersIn(orders, w)) + Orders.PaidRevenue(OrdersOutside(orders, w)) == Orders.PaidRevenue(orders)
  {
    if orders != [] {
      var o := orders[0];
      var rest := orders[1..];
      RevenueSplits(rest, w);
      assert orders == [o] + rest;
      Orders.PaidRevenueAppend([], o);
      assert Orders.PaidRevenue([o]) == (if Orders.IsPaid(o) then o.totalAmount else 0.0);
      PrependRevenue(o, rest);
      if Within(o, w) {
        assert OrdersIn(orders, w) == [o] + OrdersIn(rest, w);
        assert OrdersOutside(orders, w) == OrdersOutside(rest, w);
        PrependRevenue(o, OrdersIn(rest, w));
      } else {
        assert OrdersIn(orders, w) == OrdersIn(rest, w);
        assert OrdersOutside(orders, w) == [o] + OrdersOutside(rest, w);
        PrependRevenue(o, OrdersOutside(rest, w));
      }
    }
  }

  lemma PrependRevenue(o: Order, rest: seq<Order>)
    ensures Orders.PaidRevenue([o] + rest) == (if Orders.IsPaid(o) then o.totalAmount else 0.0) + Orders.PaidRevenue(rest)
  {
    FilterAppend([o], rest, Orders.IsPaid);
    SumRealAppend(Filter([o], Orders.IsPaid), Filter(rest, Orders.IsPaid), Orders.AmountOf);
  }

  predicate IsActiveUser(u: User) { u.isActive }

  datatype Stats = Stats(totalProducts: nat, totalOrders: nat, totalUsers: nat, totalRevenue: real,
                         todayOrders: nat, todayRevenue: real, recentOrdersCount: nat, activeUsersCount: nat,
                         productStats: ProductStats)

  /** `getStats`; `today` is the current day and `recent` the last seven days up to now. */
  function GetStats(s: Store, today: Window, recent: Window): (r: Step<Stats>)
    ensures r.store == s && r.response.Success?
    ensures r.response.data.totalRevenue == Orders.PaidRevenue(s.orders)
    ensures r.response.data.todayRevenue + Orders.PaidRevenue(OrdersOutside(s.orders, today)) == r.response.data.totalRevenue
    ensures r.response.data.totalProducts == |s.products| && r.response.data.totalOrders == |s.orders|
    ensures r.response.data.totalUsers == |s.users|
    ensures r.response.data.todayOrders == |OrdersIn(s.orders, today)| <= |s.orders|
    ensures r.response.data.todayRevenue == Orders.PaidRevenue(OrdersIn(s.orders, today))
    ensures r.response.data.recentOrdersCount == |OrdersIn(s.orders, recent)|
    ensures r.response.data.activeUsersCount == Count(s.users, IsActiveUser) <= |s.users|
    ensures r.response.data.productStats == StockBuckets(s.products)
  {
    RevenueSplits(s.orders, today);
    Step(Success(200, "Dashboard statistics retrieved successfully",
      Stats(|s.products|, |s.orders|, |s.users|, Orders.PaidRevenue(s.orders),
            |OrdersIn(s.orders, today)|, Orders.PaidRevenue(OrdersIn(s.orders, today)),
            |OrdersIn(s.orders, recent)|, Count(s.users, IsActiveUser), StockBuckets(s.products))), s)
  }

  // ---------------------------------------------------------------- recent orders

  datatype RecentOrder = RecentOrder(number: string, userName: string, userEmail: string, total: real,
                                     orderStatus: string, paymentStatus: string, createdAt: int)

  function Recent(s: Store, o: Order): RecentOrder
    requires Orders.HasUser(s, o)
  {
    var u := FindUser(s, o.userId).value;
    RecentOrder(o.orderNumber, u.name, u.email, o.totalAmount, o.status, o.paymentStatus, o.createdAt)
  }

  /** The rows of `getRecentOrders`, one per order, each joined to its user. */
  function RecentViews(s: Store, top: seq<Order>): (r: seq<RecentOrder>)
    requires forall o :: o in top ==> Orders.HasUser(s, o)
    ensures |r| == |top|
    ensures forall i :: 0 <= i < |r| ==>
      && r[i].number == top[i].orderNumber && r[i].total == top[i].totalAmount
      && r[i].createdAt == top[i].createdAt
      && Orders.HasUser(s, top[i]) && r[i].userEmail == FindUser(s, top[i].userId).value.email
  {
    seq(|top|, i requires 0 <= i < |top| => Recent(s, top[i]))
  }

  /** `orderBy('created_at', 'desc')->limit($limit)`: the newest `n` orders, newest
      first; an order left out is no newer than any order kept. */
  function Newest(orders: seq<Order>, n: nat): (r: seq<Order>)
    ensures |r| == if |orders| < n then |orders| else n
    ensures multiset(r) <= multiset(orders)
    ensures forall o :: o in r ==> o in orders
    ensures forall o, p :: o in r && p in orders && p !in r ==> o.createdAt >= p.createdAt
    ensures forall i, j :: 0 <= i < j < |r| ==> r[i].createdAt >= r[j].createdAt
  {
    Orders.NewestFirstIsPreorder();
    var r := TopRows(orders, Orders.NewestFirst, n);
    NewestFacts(orders, r);
    r
  }

  lemma NewestFacts(orders: seq<Order>, r: seq<Order>)
    requires SortedBy(r, Orders.NewestFirst)
    requires forall x, y :: x in r && y in orders && y !in r ==> Orders.NewestFirst(x, y)
    ensures forall o, p :: o in r && p in orders && p !in r ==> o.createdAt >= p.createdAt
    ensures forall i, j :: 0 <= i < j < |r| ==> r[i].createdAt >= r[j].createdAt
  {
    forall i, j | 0 <= i < j < |r| ensures r[i].createdAt >= r[j].createdAt {
      var le := Orders.NewestFirst;
      assert le(r[i], r[j]);
    }
  }

  /** `getRecentOrders`: the newest orders, ten unless `limit` says otherwise, each shown
      with its user; an order whose user is gone makes the mapping fail. */
  function GetRecentOrders(s: Store, limit: Option<nat>): (r: Step<seq<RecentOrder>>)
    ensures r.store == s
    ensures r.response.Success? <==> forall o :: o in Newest(s.orders, limit.GetOr(10)) ==> Orders.HasUser(s, o)
    ensures r.response.Failure? ==> r.response.status == 500
    ensures r.response.Success? ==>
      && r.response.data == RecentViews(s, Newest(s.orders, limit.GetOr(10)))
      && |r.response.data| == (if |s.orders| < limit.GetOr(10) then |s.orders| else limit.GetOr(10))
      && (forall i, j :: 0 <= i < j < |r.response.data| ==> r.response.data[i].createdAt >= r.response.data[j].createdAt)
  {
    var top := Newest(s.orders, limit.GetOr(10));
    if exists o :: o in top && !Orders.HasUser(s, o) then Refuse(s, 500, "Attempt to read property \"name\" on null")
    else Step(Success(200, "Recent orders retrieved successfully", RecentViews(s, top)), s)
  }

  // ---------------------------------------------------------------- best sellers

  /** The grouping key of `order_items`: product id and the name captured at sale. */
  datatype ItemKey = ItemKey(productId: Id, productName: string)

  function KeyOf(it: OrderItem): ItemKey {
    ItemKey(it.productId, it.productName)
  }

  /** Every `order_items` row, order by order. */
  function AllItems(orders: seq<Order>): (r: seq<OrderItem>)
    ensures forall it :: it in r <==> exists o :: o in orders && it in o.items
  {
    if orders == [] then []
    else
      var r := orders[0].items + AllItems(orders[1..]);
      assert forall o :: o in orders <==> o == orders[0] || o in orders[1..];
      r
  }

  /** The distinct keys of some rows (`groupBy`). */
  function Keys(items: seq<OrderItem>): (r: seq<ItemKey>)
    ensures forall k :: k in r <==> exists it :: it in items && KeyOf(it) == k
    ensures forall i, j :: 0 <= i < j < |r| ==> r[i] != r[j]
  {
    if items == [] then []
    else
      var rest := Keys(items[1..]);
      assert forall it :: it in items <==> it == items[0] || it in items[1..];
      if KeyOf(items[0]) in rest then rest else [KeyOf(items[0])] + rest
  }

  function Quantity(it: OrderItem): int { it.quantity }
  function LineTotal(it: OrderItem): int { it.total }

  function RowsOf(items: seq<OrderItem>, k: ItemKey): (r: seq<OrderItem>)
    ensures forall it :: it in r <==> it in items && KeyOf(it) == k
  {
    Filter(items, (it: OrderItem) => KeyOf(it) == k)
  }

  /** One group: `SUM(quantity) as total_sold`, `SUM(total) as total_revenue`. */
  datatype TopProduct = TopProduct(productId: Id, productName: string, totalSold: int, totalRevenue: int)

  function Group(items: seq<OrderItem>, k: ItemKey): (r: TopProduct)
    ensures r.productId == k.productId && r.productName == k.productName
    ensures r.totalSold == Sum(RowsOf(items, k), Quantity) && r.totalRevenue == Sum(RowsOf(items, k), LineTotal)
  {
    TopProduct(k.productId, k.productName, Sum(RowsOf(items, k), Quantity), Sum(RowsOf(items, k), LineTotal))
  }

  predicate MoreSold(a: TopProduct, b: TopProduct) {
    a.totalSold >= b.totalSold
  }

  /** One row per distinct key (`groupBy`), in key order. */
  function Groups(items: seq<OrderItem>): (r: seq<TopProduct>)
    ensures forall t :: t in r ==>
      var k := ItemKey(t.productId, t.productName);
      (exists it :: it in items && KeyOf(it) == k) && t == Group(items, k)
    ensures forall k :: (exists it :: it in items && KeyOf(it) == k) ==> Group(items, k) in r
  {
    var keys := Keys(items);
    var r := seq(|keys|, i requires 0 <= i < |keys| => Group(items, keys[i]));
    assert forall k :: (exists it :: it in items && KeyOf(it) == k) ==> Group(items, k) in r by {
      forall k | exists it :: it in items && KeyOf(it) == k ensures Group(items, k) in r {
        assert k in keys;
        var i :| 0 <= i < |keys| && keys[i] == k;
        assert r[i] == Group(items, k);
      }
    }
    assert forall t :: t in r ==>
      var k := ItemKey(t.productId, t.productName);
      (exists it :: it in items && KeyOf(it) == k) && t == Group(items, k) by {
      forall t | t in r
        ensures var k := ItemKey(t.productId, t.productName);
          (exists it :: it in items && KeyOf(it) == k) && t == Group(items, k)
      {
        var i :| 0 <= i < |r| && r[i] == t;
        assert keys[i] == ItemKey(t.productId, t.productName);
        assert keys[i] in keys;
      }
    }
    r
  }

  /** The five best-selling (product, name) groups, by units sold: no group left out
      sold more units than a group shown. */
  function TopProducts(orders: seq<Order>): (r: seq<TopProduct>)
    ensures |r| <= 5
    ensures multiset(r) <= multiset(Groups(AllItems(orders)))
    ensures forall i, j :: 0 <= i < j < |r| ==> r[i].totalSold >= r[j].totalSold
    ensures forall t, u :: t in r && u in Groups(AllItems(orders)) && u !in r ==> t.totalSold >= u.totalSold
    ensures forall t :: t in r ==>
      var k := ItemKey(t.productId, t.productName);
      && (exists it :: it in AllItems(orders) && KeyOf(it) == k)
      && t == Group(AllItems(orders), k)
    ensures forall k :: (exists it :: it in AllItems(orders) && KeyOf(it) == k) && Group(AllItems(orders), k) !in r ==> |r| == 5
  {
    assert TotalPreorder(MoreSold);
    var groups := Groups(AllItems(orders));
    var top := TopRows(groups, MoreSold, 5);
    BestSellersFacts(groups, top);
    top
  }

  lemma BestSellersFacts(groups: seq<TopProduct>, top: seq<TopProduct>)
    requires SortedBy(top, MoreSold)
    requires forall x, y :: x in top && y in groups && y !in top ==> MoreSold(x, y)
    ensures forall i, j :: 0 <= i < j < |top| ==> top[i].totalSold >= top[j].totalSold
    ensures forall t, u :: t in top && u in groups && u !in top ==> t.totalSold >= u.totalSold
  {
    forall i, j | 0 <= i < j < |top| ensures top[i].totalSold >= top[j].totalSold {
      var le := MoreSold;
      assert le(top[i], top[j]);
    }
  }

  datatype ProductReport = ProductReport(stock: ProductStats, topProducts: seq<TopProduct>)

  /** `getProductStats`. */
  function GetProductStats(s: Store): (r: Step<ProductReport>)
    ensures r.store == s && r.response.Success?
    ensures r.response.data.stock.inStock + r.response.data.stock.outOfStock == |s.products|
    ensures r.response.data.stock.lowStock <= r.response.data.stock.inStock
    ensures r.response.data.stock == StockBuckets(s.products)
    ensures r.response.data.topProducts == TopProducts(s.orders)
  {
    Step(Success(200, "Product statistics retrieved successfully", ProductReport(StockBuckets(s.products), TopProducts(s.orders))), s)
  }
}

=== FILE: ordering.dfy ===
/** `orderBy`: a stable sort of query results under a comparator, and the
    lexicographic string order used for `orderBy('name')`. */
module Ordering {

  ghost predicate Total<T(!new)>(le: (T, T) -> bool) {
    forall a, b :: le(a, b) || le(b, a)
  }

  ghost predicate Transitive<T(!new)>(le: (T, T) -> bool) {
    forall a, b, c :: le(a, b) && le(b, c) ==> le(a, c)
  }

  /** What an `ORDER BY` key induces on rows: every pair comparable, ties allowed. */
  ghost predicate TotalPreorder<T(!new)>(le: (T, T) -> bool) {
    Total(le) && Transitive(le)
  }

  ghost predicate SortedBy<T>(xs: seq<T>, le: (T, T) -> bool) {
    forall i, j :: 0 <= i < j < |xs| ==> le(xs[i], xs[j])
  }

  /** Places `x` before the first element it does not follow. */
  function Insert<T>(x: T, ys: seq<T>, le: (T, T) -> bool): (r: seq<T>)
    ensures |r| == |ys| + 1
    ensures multiset(r) == multiset(ys) + multiset{x}
  {
    if ys == [] then [x]
    else if le(x, ys[0]) then [x] + ys
    else
      assert ys == [ys[0]] + ys[1..];
      [ys[0]] + Insert(x, ys[1..], le)
  }

  lemma SortedTail<T>(ys: seq<T>, le: (T, T) -> bool)
    requires ys != [] && SortedBy(ys, le)
    ensures SortedBy(ys[1..], le)
  {
    forall i, j | 0 <= i < j < |ys[1..]| ensures le(ys[1..][i], ys[1..][j]) {
      assert ys[1..][i] == ys[i + 1] && ys[1..][j] == ys[j + 1];
    }
  }

  /** Putting `x` in front of a sorted sequence whose head follows it keeps it sorted. */
  lemma PrependSorted<T(!new)>(x: T, ys: seq<T>, le: (T, T) -> bool)
    requires TotalPreorder(le) && SortedBy(ys, le)
    requires ys != [] ==> le(x, ys[0])
    ensures SortedBy([x] + ys, le)
  {
    var r := [x] + ys;
    forall i, j | 0 <= i < j < |r| ensures le(r[i], r[j]) {
      if i == 0 {
        if j > 1 {
          assert le(ys[0], ys[j - 1]);
        }
      } else {
        assert r[i] == ys[i - 1] && r[j] == ys[j - 1];
      }
    }
  }

  /** Every element of `Insert(x, ys, le)` follows the head of `ys` when `x` does. */
  lemma InsertedFollowHead<T(!new)>(x: T, ys: seq<T>, le: (T, T) -> bool, h: T)
    requires TotalPreorder(le) && SortedBy([h] + ys, le) && le(h, x)
    ensures forall j :: 0 <= j < |Insert(x, ys, le)| ==> le(h, Insert(x, ys, le)[j])
  {
    var tail := Insert(x, ys, le);
    forall j | 0 <= j < |tail| ensures le(h, tail[j]) {
      assert tail[j] in multiset(tail);
      assert tail[j] in multiset(ys) + multiset{x};
      if tail[j] != x {
        assert tail[j] in ys;
        var k :| 0 <= k < |ys| && ys[k] == tail[j];
        assert ([h] + ys)[0] == h && ([h] + ys)[k + 1] == tail[j];
      }
    }
  }

  /** Inserting into a sorted sequence keeps it sorted. */
  lemma {:induction false} InsertSorted<T(!new)>(x: T, ys: seq<T>, le: (T, T) -> bool)
    requires TotalPreorder(le)
    requires SortedBy(ys, le)
    ensures SortedBy(Insert(x, ys, le), le)
  {
    if ys == [] {
    } else if le(x, ys[0]) {
      PrependSorted(x, ys, le);
    } else {
      SortedTail(ys, le);
      InsertSorted(x, ys[1..], le);
      assert ys == [ys[0]] + ys[1..];
      InsertedFollowHead(x, ys[1..], le, ys[0]);
      var tail := Insert(x, ys[1..], le);
      forall i, j | 0 <= i < j < |[ys[0]] + tail| ensures le(([ys[0]] + tail)[i], ([ys[0]] + tail)[j]) {
        if i == 0 {
          assert ([ys[0]] + tail)[j] == tail[j - 1];
        } else {
          assert ([ys[0]] + tail)[i] == tail[i - 1] && ([ys[0]] + tail)[j] == tail[j - 1];
        }
      }
    }
  }

  /** Insertion sort; an element is inserted ahead of those it ties with that came
      after it, so rows that compare equal keep their table order. */
  function Sort<T(!new)>(xs: seq<T>, le: (T, T) -> bool): (r: seq<T>)
    requires TotalPreorder(le)
    ensures |r| == |xs|
    ensures multiset(r) == multiset(xs)
    ensures SortedBy(r, le)
  {
    if xs == [] then []
    else
      assert xs == [xs[0]] + xs[1..];
      var rest := Sort(xs[1..], le);
      InsertSorted(xs[0], rest, le);
      Insert(xs[0], rest, le)
  }

  /** A sorted result holds the same rows as its input. */
  lemma SortSameRows<T(!new)>(xs: seq<T>, le: (T, T) -> bool, x: T)
    requires TotalPreorder(le)
    ensures x in Sort(xs, le) <==> x in xs
  {
    var r := Sort(xs, le);
    assert x in r <==> x in multiset(r);
    assert x in xs <==> x in multiset(xs);
  }

  /** In a sorted sequence nothing outside the first `n` ranks ahead of what is inside. */
  lemma PrefixRanksFirst<T>(sorted: seq<T>, le: (T, T) -> bool, n: nat)
    requires SortedBy(sorted, le) && n <= |sorted|
    ensures forall x, y :: x in sorted[..n] && y in sorted && y !in sorted[..n] ==> le(x, y)
  {
    forall x, y | x in sorted[..n] && y in sorted && y !in sorted[..n] ensures le(x, y) {
      var i :| 0 <= i < n && sorted[..n][i] == x;
      var j :| 0 <= j < |sorted| && sorted[j] == y;
    }
  }

  /** A contiguous piece of a sequence holds no row more often than the sequence does. */
  lemma SliceMultiset<T>(xs: seq<T>, lo: nat, hi: nat)
    requires lo <= hi <= |xs|
    ensures multiset(xs[lo..hi]) <= multiset(xs)
  {
    assert xs == xs[..lo] + xs[lo..hi] + xs[hi..];
  }

  /** `orderBy(...)->limit(n)`: the first `n` rows in sorted order. Every row kept ranks
      at or above every row left out, and a row is left out only when the result is full. */
  function TopRows<T(!new)>(xs: seq<T>, le: (T, T) -> bool, n: nat): (r: seq<T>)
    requires TotalPreorder(le)
    ensures |r| == if |xs| < n then |xs| else n
    ensures multiset(r) <= multiset(xs)
    ensures forall x :: x in r ==> x in xs
    ensures forall x :: x in xs && x !in r ==> |r| == n
    ensures forall x, y :: x in r && y in xs && y !in r ==> le(x, y)
    ensures SortedBy(r, le)
  {
    var sorted := Sort(xs, le);
    forall x ensures x in sorted <==> x in xs {
      SortSameRows(xs, le, x);
    }
    if |sorted| <= n then sorted
    else
      var r := sorted[..n];
      SliceMultiset(sorted, 0, n);
      assert sorted[0..n] == r;
      PrefixRanksFirst(sorted, le, n);
      assert forall x :: x in r ==> x in sorted;
      r
  }

  /** Lexicographic order on strings by code point (a binary collation). */
  predicate StrLe(a: string, b: string) {
    if a == [] then true
    else if b == [] then false
    else a[0] < b[0] || (a[0] == b[0] && StrLe(a[1..], b[1..]))
  }

  lemma {:induction false} StrLeTotalFor(a: string, b: string)
    ensures StrLe(a, b) || StrLe(b, a)
  {
    if a != [] && b != [] && a[0] == b[0] {
      StrLeTotalFor(a[1..], b[1..]);
    }
  }

  lemma {:induction false} StrLeTransitiveFor(a: string, b: string, c: string)
    requires StrLe(a, b) && StrLe(b, c)
    ensures StrLe(a, c)
  {
    if a != [] && b != [] && c != [] && a[0] == b[0] && b[0] == c[0] {
      StrLeTransitiveFor(a[1..], b[1..], c[1..]);
    }
  }

  /** String order is a total order, so `orderBy('name')` is well defined. */
  lemma StrLeTotalPreorder()
    ensures TotalPreorder(StrLe)
  {
    forall a, b ensures StrLe(a, b) || StrLe(b, a) {
      StrLeTotalFor(a, b);
    }
    forall a, b, c | StrLe(a, b) && StrLe(b, c) ensures StrLe(a, c) {
      StrLeTransitiveFor(a, b, c);
    }
  }

  /** Ascending by an integer key. */
  lemma IntKeyAscending<T(!new)>(key: T -> int)
    ensures TotalPreorder((a: T, b: T) => key(a) <= key(b))
  {
  }

  /** Descending by an integer key (`orderBy(col, 'desc')`). */
  lemma IntKeyDescending<T(!new)>(key: T -> int)
    ensures TotalPreorder((a: T, b: T) => key(a) >= key(b))
  {
  }
}

=== FILE: orders.dfy ===
/** Orders as customers and administrators see them: the caller-scoped listing and
    detail (`Api/OrderController`) and the admin listing, statistics, status update and
    detail (`Api/Admin/OrderController`). */
module Orders {
  import opened Base
  import opened Schema
  import opened Ordering
  import opened Sql

  const Statuses: seq<string> := ["pending", "confirmed", "processing", "shipped", "delivered", "cancelled"]

  /** Query string of both listings; each field may be absent. */
  datatype ListQuery = ListQuery(page: Option<int>, limit: Option<int>, status: Option<string>, search: Option<string>)

  predicate ValidListQuery(q: ListQuery) {
    && (q.page.Some? ==> q.page.value >= 1)
    && (q.limit.Some? ==> 1 <= q.limit.value <= 100)
    && (q.status.Some? ==> q.status.value in Statuses)
    && (q.search.Some? ==> |q.search.value| <= 255)
  }

  /** What both controllers put in `shipping`: `shipping_amount ?? shipping_cost`, and
      `(float) null` is 0. */
  function DisplayShipping(o: Order): real {
    match o.shippingAmount
    case Some(a) => a
    case None => o.shippingCost.GetOr(0.0)
  }

  /** The transformed order both controllers return (user and product relations aside). */
  datatype OrderView = OrderView(
    number: string, userId: Id, items: seq<OrderItem>, orderStatus: string, paymentStatus: string,
    total: real, subtotal: real, tax: real, shipping: real, shippingAddress: Address,
    paymentReference: Option<string>, createdAt: int)

  function View(o: Order): OrderView {
    OrderView(o.orderNumber, o.userId, o.items, o.status, o.paymentStatus, o.totalAmount, o.subtotal,
              o.taxAmount, DisplayShipping(o), o.shippingAddress, o.paymentReference, o.createdAt)
  }

  function Views(os: seq<Order>): (r: seq<OrderView>)
    ensures |r| == |os|
    ensures forall i :: 0 <= i < |os| ==> r[i] == View(os[i])
  {
    seq(|os|, i requires 0 <= i < |os| => View(os[i]))
  }

  predicate NewestFirst(a: Order, b: Order) {
    a.createdAt >= b.createdAt
  }

  lemma NewestFirstIsPreorder()
    ensures TotalPreorder(NewestFirst)
  {
  }

  /** `where('status', $status)` when a status was given. */
  predicate StatusMatches(o: Order, status: Option<string>) {
    status.None? || o.status == status.value
  }

  /** `%term%` on order_number or payment_reference (a null reference never matches). */
  predicate NumberOrReferenceMatches(o: Order, term: string) {
    Contains(o.orderNumber, term) || (o.paymentReference.Some? && Contains(o.paymentReference.value, term))
  }

  predicate CustomerMatches(o: Order, caller: Id, q: ListQuery) {
    && o.userId == caller
    && StatusMatches(o, q.status)
    && (q.search.None? || NumberOrReferenceMatches(o, q.search.value))
  }

  /** `$request->get('limit', $fallback)` as a page size; validation keeps it in 1..100. */
  function Limit(q: ListQuery, fallback: nat): nat {
    if q.limit.GetOr(fallback) <= 0 then 0 else q.limit.GetOr(fallback)
  }

  /** `orderBy('created_at', 'desc')->paginate($limit)` over the rows a listing selects. */
  function Page(rows: seq<Order>, q: ListQuery, fallback: nat): (r: seq<Order>)
    ensures IsSortedPage(r, rows, NewestFirst, q.page.GetOr(1), Limit(q, fallback))
    ensures forall o :: o in r ==> o in rows
  {
    NewestFirstIsPreorder();
    SortedPage(rows, NewestFirst, q.page.GetOr(1), Limit(q, fallback))
  }

  /** A page's views keep its length and its newest-first order. */
  lemma ViewsOfPage(rows: seq<Order>, q: ListQuery, fallback: nat)
    ensures |Views(Page(rows, q, fallback))| == PageLength(|rows|, q.page.GetOr(1), Limit(q, fallback))
    ensures forall i, j :: 0 <= i < j < |Views(Page(rows, q, fallback))| ==>
      Views(Page(rows, q, fallback))[i].createdAt >= Views(Page(rows, q, fallback))[j].createdAt
    ensures forall v :: v in Views(Page(rows, q, fallback)) ==> exists o :: o in rows && v == View(o)
  {
    var pg := Page(rows, q, fallback);
    forall v | v in Views(pg) ensures exists o :: o in rows && v == View(o) {
      var i :| 0 <= i < |pg| && v == Views(pg)[i];
      assert pg[i] in pg;
    }
    forall i, j | 0 <= i < j < |pg| ensures View(pg[i]).createdAt >= View(pg[j]).createdAt {
      assert NewestFirst(pg[i], pg[j]);
    }
  }

  // ---------------------------------------------------------------- customer

  /** The caller's orders the query's status and search select, in table order. */
  function CustomerRows(s: Store, caller: Id, q: ListQuery): (r: seq<Order>)
    ensures forall o :: o in r <==> o in s.orders && CustomerMatches(o, caller, q)
  {
    Filter(s.orders, (o: Order) => CustomerMatches(o, caller, q))
  }

  /** `index`: the caller's orders, newest first, ten to a page unless `limit` says otherwise. */
  function CustomerIndex(s: Store, caller: Id, q: ListQuery): (r: Step<seq<OrderView>>)
    ensures r.store == s
    ensures r.response.Success? <==> ValidListQuery(q)
    ensures r.response.Success? ==>
      && r.response.data == Views(Page(CustomerRows(s, caller, q), q, 10))
      && |r.response.data| == PageLength(|CustomerRows(s, caller, q)|, q.page.GetOr(1), Limit(q, 10))
      && (forall i, j :: 0 <= i < j < |r.response.data| ==> r.response.data[i].createdAt >= r.response.data[j].createdAt)
      && forall v :: v in r.response.data ==> exists o :: o in s.orders && CustomerMatches(o, caller, q) && v == View(o)
  {
    if !ValidListQuery(q) then Refuse(s, 422, "Validation error")
    else
      var page := Page(CustomerRows(s, caller, q), q, 10);
      ViewsOfPage(CustomerRows(s, caller, q), q, 10);
      Step(Success(200, "Orders retrieved successfully", Views(page)), s)
  }

  /** `show`: the caller's order with that number. */
  function CustomerShow(s: Store, caller: Id, number: string): (r: Step<OrderView>)
    ensures r.store == s
    ensures r.response.Failure? <==> forall o :: o in s.orders ==> !(o.userId == caller && o.orderNumber == number)
    ensures r.response.Failure? ==> r.response == Failure(404, "Order not found")
    ensures r.response.Success? ==>
      exists o :: o in s.orders && o.userId == caller && o.orderNumber == number && r.response.data == View(o)
  {
    match First(s.orders, (o: Order) => o.userId == caller && o.orderNumber == number)
    case None => Refuse(s, 404, "Order not found")
    case Some(o) => Step(Success(200, "Order retrieved successfully", View(o)), s)
  }

  // ---------------------------------------------------------------- admin

  /** `$order->user` is not null: the order's user row still exists. The admin
      endpoints read the user's id, name and email and fail when it does not. */
  predicate HasUser(s: Store, o: Order) {
    FindUser(s, o.userId).Some?
  }

  /** The admin search: number, reference, or the owner's name or email. */
  predicate AdminMatches(s: Store, o: Order, q: ListQuery) {
    && StatusMatches(o, q.status)
    && (q.search.None?
        || NumberOrReferenceMatches(o, q.search.value)
        || exists u :: u in s.users && u.id == o.userId && (Contains(u.name, q.search.value) || Contains(u.email, q.search.value)))
  }

  /** Every order the admin query selects, in table order. */
  function AdminRows(s: Store, q: ListQuery): (r: seq<Order>)
    ensures forall o :: o in r <==> o in s.orders && AdminMatches(s, o, q)
  {
    Filter(s.orders, (o: Order) => AdminMatches(s, o, q))
  }

  /** Admin `index`: every order, newest first, fifteen to a page by default; an order
      on the page whose user is gone makes the transformation fail. */
  function AdminIndex(s: Store, q: ListQuery): (r: Step<seq<OrderView>>)
    ensures r.store == s
    ensures !ValidListQuery(q) ==> r.response.Failure? && r.response.status == 422
    ensures ValidListQuery(q) ==>
      (r.response.Success? <==> forall o :: o in Page(AdminRows(s, q), q, 15) ==> HasUser(s, o))
    ensures ValidListQuery(q) && r.response.Failure? ==> r.response.status == 500
    ensures r.response.Success? ==>
      && r.response.data == Views(Page(AdminRows(s, q), q, 15))
      && |r.response.data| == PageLength(|AdminRows(s, q)|, q.page.GetOr(1), Limit(q, 15))
      && (forall i, j :: 0 <= i < j < |r.response.data| ==> r.response.data[i].createdAt >= r.response.data[j].createdAt)
      && forall v :: v in r.response.data ==> exists o :: o in s.orders && AdminMatches(s, o, q) && v == View(o)
  {
    if !ValidListQuery(q) then Refuse(s, 422, "Validation error")
    else
      var page := Page(AdminRows(s, q), q, 15);
      if exists o :: o in page && !HasUser(s, o) then Refuse(s, 500, "Attempt to read property \"id\" on null")
      else
        ViewsOfPage(AdminRows(s, q), q, 15);
        Step(Success(200, "Orders retrieved successfully", Views(page)), s)
  }

  /** `where('order_number', $number)->first()`. */
  function FindOrder(s: Store, number: string): (r: Option<Order>)
    ensures r.None? <==> forall o :: o in s.orders ==> o.orderNumber != number
    ensures r.Some? ==> r.value in s.orders && r.value.orderNumber == number
  {
    First(s.orders, (o: Order) => o.orderNumber == number)
  }

  /** Admin `show`: any order by number; a missing user makes the transformation fail. */
  function AdminShow(s: Store, number: string): (r: Step<OrderView>)
    ensures r.store == s
    ensures FindOrder(s, number).None? <==> r.response == Failure(404, "Order not found")
    ensures r.response.Success? <==> FindOrder(s, number).Some? && HasUser(s, FindOrder(s, number).value)
    ensures FindOrder(s, number).Some? && r.response.Failure? ==> r.response.status == 500
    ensures r.response.Success? ==> exists o :: o in s.orders && o.orderNumber == number && r.response.data == View(o)
  {
    match FindOrder(s, number)
    case None => Refuse(s, 404, "Order not found")
    case Some(o) =>
      if !HasUser(s, o) then Refuse(s, 500, "Attempt to read property \"id\" on null")
      else Step(Success(200, "Order retrieved successfully", View(o)), s)
  }

  /** `UPDATE orders SET status = ? WHERE id = ?`. */
  function WithStatus(orders: seq<Order>, id: Id, status: string): (r: seq<Order>)
    ensures |r| == |orders|
    ensures forall i :: 0 <= i < |r| ==>
      r[i] == if orders[i].id == id then orders[i].(status := status) else orders[i]
  {
    seq(|orders|, i requires 0 <= i < |orders| => if orders[i].id == id then orders[i].(status := status) else orders[i])
  }

  /** `updateStatus`: set the status of the order with that number. The row is saved
      before the reply reads the order's user, so a missing user gives a 500 after the
      change has been written. */
  function UpdateStatus(s: Store, number: string, status: Option<string>): (r: Step<OrderView>)
    ensures status.None? || status.value !in Statuses ==> r.response.Failure? && r.response.status == 422 && r.store == s
    ensures status.Some? && status.value in Statuses && FindOrder(s, number).None? ==>
      r.response == Failure(404, "Order not found") && r.store == s
    ensures status.Some? && status.value in Statuses && FindOrder(s, number).Some? ==>
      && r.store == s.(orders := WithStatus(s.orders, FindOrder(s, number).value.id, status.value))
      && (r.response.Success? <==> HasUser(s, FindOrder(s, number).value))
      && (r.response.Failure? ==> r.response.status == 500)
    ensures r.response.Success? ==>
      && r.response.data == View(FindOrder(s, number).value.(status := status.value))
      && r.response.data.orderStatus == status.value
      && r.response.data.number == number
  {
    if status.None? || status.value !in Statuses then Refuse(s, 422, "Validation error")
    else
      match FindOrder(s, number)
      case None => Refuse(s, 404, "Order not found")
      case Some(o) =>
        var t := s.(orders := WithStatus(s.orders, o.id, status.value));
        if !HasUser(s, o) then Step(Failure(500, "Attempt to read property \"id\" on null"), t)
        else Step(Success(200, "Order status updated successfully", View(o.(status := status.value))), t)
  }

  /** A status update rewrites only the status column, and only on the rows of the
      order it found: every other order, and every other field, is as it was. */
  lemma UpdateStatusTouchesOnlyStatus(s: Store, number: string, status: string, i: nat)
    requires status in Statuses && FindOrder(s, number).Some? && i < |s.orders|
    ensures var t := UpdateStatus(s, number, Some(status)).store;
      && t == s.(orders := t.orders) && |t.orders| == |s.orders|
      && t.orders[i].(status := s.orders[i].status) == s.orders[i]
      && (t.orders[i] != s.orders[i] ==> s.orders[i].id == FindOrder(s, number).value.id && t.orders[i].status == status)
  {
  }

  /** There is no transition guard: any allowed status replaces any other, so an order
      can go from delivered back to pending. */
  lemma AnyTransitionAllowed(s: Store, number: string, status: string)
    requires status in Statuses && FindOrder(s, number).Some? && HasUser(s, FindOrder(s, number).value)
    ensures UpdateStatus(s, number, Some(status)).response.Success?
    ensures UpdateStatus(s, number, Some(status)).response.data.orderStatus == status
  {
  }

  // ---------------------------------------------------------------- stats

  predicate IsPaid(o: Order) { o.paymentStatus == "paid" }
  function AmountOf(o: Order): real { o.totalAmount }

  /** `where('payment_status', 'paid')->sum('total_amount')`. */
  function PaidRevenue(orders: seq<Order>): real {
    SumReal(Filter(orders, IsPaid), AmountOf)
  }

  function CountStatus(orders: seq<Order>, status: string): nat {
    Count(orders, (o: Order) => o.status == status)
  }

  datatype OrderStats = OrderStats(
    total: nat, pending: nat, confirmed: nat, processing: nat, shipped: nat, delivered: nat, cancelled: nat,
    totalValue: real)

  /** `stats`: per-status counts and the value of paid orders. */
  function Stats(s: Store): (r: Step<OrderStats>)
    ensures r.store == s && r.response.Success?
    ensures r.response.data.total == |s.orders|
    ensures r.response.data.pending == CountStatus(s.orders, "pending")
    ensures r.response.data.confirmed == CountStatus(s.orders, "confirmed")
    ensures r.response.data.processing == CountStatus(s.orders, "processing")
    ensures r.response.data.shipped == CountStatus(s.orders, "shipped")
    ensures r.response.data.delivered == CountStatus(s.orders, "delivered")
    ensures r.response.data.cancelled == CountStatus(s.orders, "cancelled")
    ensures r.response.data.totalValue == PaidRevenue(s.orders)
    ensures r.response.data.pending + r.response.data.confirmed + r.response.data.processing
          + r.response.data.shipped + r.response.data.delivered + r.response.data.cancelled <= |s.orders|
  {
    StatusCountsAtMostTotal(s.orders);
    var o := s.orders;
    Step(Success(200, "Order statistics retrieved successfully",
      OrderStats(|o|, CountStatus(o, "pending"), CountStatus(o, "confirmed"), CountStatus(o, "processing"),
                 CountStatus(o, "shipped"), CountStatus(o, "delivered"), CountStatus(o, "cancelled"),
                 PaidRevenue(o))), s)
  }

  function StatusTally(orders: seq<Order>): nat {
    CountStatus(orders, "pending") + CountStatus(orders, "confirmed") + CountStatus(orders, "processing")
    + CountStatus(orders, "shipped") + CountStatus(orders, "delivered") + CountStatus(orders, "cancelled")
  }

  /** The six counts never exceed the total, and add up to it exactly when every
      order carries one of the six statuses. */
  lemma CountStatusStep(orders: seq<Order>, status: string)
    requires orders != []
    ensures CountStatus(orders, status) == (if orders[0].status == status then 1 else 0) + CountStatus(orders[1..], status)
  {
  }

  lemma TallyStep(orders: seq<Order>)
    requires orders != []
    ensures StatusTally(orders) == (if orders[0].status in Statuses then 1 else 0) + StatusTally(orders[1..])
  {
    CountStatusStep(orders, "pending");
    CountStatusStep(orders, "confirmed");
    CountStatusStep(orders, "processing");
    CountStatusStep(orders, "shipped");
    CountStatusStep(orders, "delivered");
    CountStatusStep(orders, "cancelled");
  }

  predicate KnownStatus(o: Order) {
    o.status in Statuses
  }

  /** The six counts never exceed the total. */
  lemma {:induction false} StatusCountsAtMostTotal(orders: seq<Order>)
    ensures StatusTally(orders) <= |orders|
  {
    if orders != [] {
      StatusCountsAtMostTotal(orders[1..]);
      TallyStep(orders);
    }
  }

  /** The six counts add up to the total exactly when every order carries one of the
      six statuses. */
  lemma {:induction false} StatusCountsPartition(orders: seq<Order>)
    ensures StatusTally(orders) == |orders| <==> forall o :: o in orders ==> KnownStatus(o)
  {
    if orders != [] {
      var rest := orders[1..];
      StatusCountsAtMostTotal(rest);
      StatusCountsPartition(rest);
      TallyStep(orders);
      assert forall o :: o in orders <==> o == orders[0] || o in rest;
      if !KnownStatus(orders[0]) {
        assert StatusTally(orders) < |orders|;
      }
    }
  }

  /** The six counts of `stats` account for every order exactly when every order carries
      one of the six statuses. */
  lemma StatsCoverAllOrders(s: Store)
    ensures var d := Stats(s).response.data;
      d.pending + d.confirmed + d.processing + d.shipped + d.delivered + d.cancelled == d.total
      <==> forall o :: o in s.orders ==> KnownStatus(o)
  {
    StatusCountsPartition(s.orders);
  }

  /** Revenue only counts paid orders: adding an unpaid order leaves it alone, adding a
      paid one adds its total. */
  lemma PaidRevenueAppend(orders: seq<Order>, o: Order)
    ensures PaidRevenue(orders + [o]) == PaidRevenue(orders) + (if IsPaid(o) then o.totalAmount else 0.0)
  {
    FilterAppend(orders, [o], IsPaid);
    SumRealAppend(Filter(orders, IsPaid), Filter([o], IsPaid), AmountOf);
  }

  /** An order listed to a customer is always one of their own. */
  lemma CustomerSeesOnlyOwnOrders(s: Store, caller: Id, q: ListQuery, v: OrderView)
    requires CustomerIndex(s, caller, q).response.Success?
    requires v in CustomerIndex(s, caller, q).response.data
    ensures v.userId == caller
  {
  }
}

=== FILE: pricing.dfy ===
/** Server-side pricing shared by the cart summary, the payment intent and the
    order: effective unit price, cart subtotal, 8% tax and flat shipping. */
module Pricing {
  import opened Base
  import opened Schema

  /** `sale_price ?: price`. The column is cast to a two-decimal string, and PHP
      treats a non-empty string such as "0.00" as true, so any stored sale price
      wins over the list price; only a null one falls back. */
  function EffectivePrice(p: Product): (c: Cents)
    ensures c == p.price || c == p.salePrice.GetOr(p.price)
    ensures p.salePrice.Some? ==> c == p.salePrice.value
  {
    match p.salePrice
    case Some(sale) => sale
    case None => p.price
  }

  /** The rows of one user, in table order. */
  function LinesOf(cart: seq<CartLine>, u: Id): (lines: seq<CartLine>)
    ensures forall l :: l in lines ==> l in cart && l.userId == u
    ensures forall l :: l in cart && l.userId == u ==> l in lines
  {
    Filter(cart, (l: CartLine) => l.userId == u)
  }

  /** `Cart::with('product')->where('user_id', $u)->get()`. */
  function UserCart(s: Store, u: Id): (lines: seq<CartLine>)
    ensures forall l :: l in lines ==> l in s.cart && l.userId == u
    ensures forall l :: l in s.cart && l.userId == u ==> l in lines
  {
    LinesOf(s.cart, u)
  }

  /** `Cart::where('user_id', $u)->delete()`. */
  function DropUser(cart: seq<CartLine>, u: Id): (r: seq<CartLine>)
    ensures forall l :: l in r ==> l in cart && l.userId != u
    ensures forall l :: l in cart && l.userId != u ==> l in r
  {
    Filter(cart, (l: CartLine) => l.userId != u)
  }

  /** After deleting one user's rows that user has none, and every other user keeps
      exactly the rows they had, in the same order. */
  lemma {:induction false} DropUserLines(cart: seq<CartLine>, u: Id, v: Id)
    ensures LinesOf(DropUser(cart, u), v) == if v == u then [] else LinesOf(cart, v)
  {
    if cart != [] {
      DropUserLines(cart[1..], u, v);
    }
  }

  /** Every line's product row is still there (otherwise reading `$item->product->price`
      reads a property of null, which Laravel turns into an exception). */
  predicate AllPriced(s: Store, lines: seq<CartLine>) {
    forall l :: l in lines ==> FindProduct(s, l.productId).Some?
  }

  function LinePrice(s: Store, l: CartLine): Cents
    requires FindProduct(s, l.productId).Some?
  {
    EffectivePrice(FindProduct(s, l.productId).value)
  }

  /** Σ effective price × quantity over the lines, in cents. */
  function Subtotal(s: Store, lines: seq<CartLine>): Cents
    requires AllPriced(s, lines)
  {
    if lines == [] then 0
    else LinePrice(s, lines[0]) * lines[0].quantity + Subtotal(s, lines[1..])
  }

  /** Σ quantity over the lines. */
  function ItemCount(lines: seq<CartLine>): int {
    if lines == [] then 0 else lines[0].quantity + ItemCount(lines[1..])
  }

  /** The subtotal of two carts laid end to end is the sum of their subtotals. */
  lemma {:induction false} SubtotalAppend(s: Store, a: seq<CartLine>, b: seq<CartLine>)
    requires AllPriced(s, a) && AllPriced(s, b)
    ensures AllPriced(s, a + b)
    ensures Subtotal(s, a + b) == Subtotal(s, a) + Subtotal(s, b)
  {
    if a != [] {
      assert (a + b)[1..] == a[1..] + b;
      assert (a + b)[0] == a[0];
      SubtotalAppend(s, a[1..], b);
    } else {
      assert a + b == b;
    }
  }

  /** With non-negative prices and positive quantities the subtotal is not negative,
      and it is zero only for an empty cart when every price is positive. */
  lemma {:induction false} SubtotalNonNegative(s: Store, lines: seq<CartLine>)
    requires AllPriced(s, lines)
    requires forall l :: l in lines ==> l.quantity >= 1 && LinePrice(s, l) >= 0
    ensures Subtotal(s, lines) >= 0
  {
    if lines != [] {
      assert lines[0] in lines;
      SubtotalNonNegative(s, lines[1..]);
    }
  }

  /** Subtotals only read prices: two stores whose product rows price every line
      alike agree on the subtotal (used when stock changes but prices do not). */
  lemma {:induction false} SubtotalSamePrices(s: Store, t: Store, lines: seq<CartLine>)
    requires AllPriced(s, lines)
    requires forall l :: l in lines ==> FindProduct(t, l.productId).Some? && LinePrice(t, l) == LinePrice(s, l)
    ensures AllPriced(t, lines)
    ensures Subtotal(t, lines) == Subtotal(s, lines)
  {
    if lines != [] {
      assert lines[0] in lines;
      SubtotalSamePrices(s, t, lines[1..]);
    }
  }

  /** Tax is a flat 8% of the subtotal. */
  function Tax(subtotal: Cents): (t: real)
    ensures subtotal >= 0 ==> 0.0 <= t <= subtotal as real
    ensures 25.0 * t == 2.0 * subtotal as real
  {
    subtotal as real * 0.08
  }

  /** Fixed shipping of 10.00. */
  const ShippingCents: real := 1000.0

  /** Subtotal + tax + shipping. */
  function OrderTotal(subtotal: Cents): (total: real)
    ensures total == subtotal as real + Tax(subtotal) + ShippingCents
    ensures subtotal >= 0 ==> total >= ShippingCents
  {
    subtotal as real * 1.08 + ShippingCents
  }

  /** The client's amount is accepted when it is within one cent of the server's. */
  predicate WithinOneCent(calculated: Cents, requested: Cents) {
    -1 <= calculated - requested <= 1
  }
}

=== FILE: reviews.dfy ===
/** Product reviews (`ReviewController`) and the rating summary kept on each product. */
module Reviews {
  import opened Base
  import opened Schema
  import opened Ordering
  import opened Sql

  const ReviewsPerPage: nat := 10

  /** The body of a create or update: rating, title and comment, each possibly absent. */
  datatype ReviewRequest = ReviewRequest(rating: Option<int>, title: Option<string>, comment: Option<string>)

  /** rating an integer 1..5, title up to 255 characters, comment up to 1000, all required. */
  predicate ValidReview(req: ReviewRequest) {
    && req.rating.Some? && 1 <= req.rating.value <= 5
    && Filled(req.title) && |req.title.value| <= 255
    && Filled(req.comment) && |req.comment.value| <= 1000
  }

  /** The approved reviews of one product, in table order. */
  function Approved(reviews: seq<Review>, pid: Id): (r: seq<Review>)
    ensures forall x :: x in r <==> x in reviews && x.productId == pid && x.isApproved
  {
    Filter(reviews, (x: Review) => x.productId == pid && x.isApproved)
  }

  function RatingOf(r: Review): int { r.rating }

  /** `avg('rating')` over the approved reviews, or 0 when there are none (`avg` is null,
      hence falsy). Rounding to two places is not modelled: the mean is exact. */
  function Average(reviews: seq<Review>, pid: Id): (a: real)
    ensures |Approved(reviews, pid)| == 0 ==> a == 0.0
    ensures |Approved(reviews, pid)| > 0 ==> a == Sum(Approved(reviews, pid), RatingOf) as real / |Approved(reviews, pid)| as real
  {
    Mean(Sum(Approved(reviews, pid), RatingOf), |Approved(reviews, pid)|)
  }

  /** Every product row carries the count and mean of its approved reviews. */
  predicate RatingsConsistent(s: Store) {
    forall i :: 0 <= i < |s.products| ==>
      && s.products[i].reviewCount == |Approved(s.reviews, s.products[i].id)|
      && s.products[i].averageRating == Average(s.reviews, s.products[i].id)
  }

  /** Every stored rating is in 1..5. */
  predicate RatingsInRange(s: Store) {
    forall r :: r in s.reviews ==> 1 <= r.rating <= 5
  }

  /** `updateProductRating`: recompute the product's count and mean. Eloquent writes the
      row, and moves its `updated_at` to `now`, only when one of the two actually changes. */
  function RefreshRating(s: Store, pid: Id, now: int): (t: Store)
    ensures t == s.(products := t.products)
    ensures |t.products| == |s.products|
    ensures forall i :: 0 <= i < |t.products| && s.products[i].id != pid ==> t.products[i] == s.products[i]
    ensures forall i :: 0 <= i < |t.products| && s.products[i].id == pid ==>
      && t.products[i].(updatedAt := s.products[i].updatedAt)
           == s.products[i].(averageRating := Average(s.reviews, pid), reviewCount := |Approved(s.reviews, pid)|)
      && t.products[i].updatedAt ==
           if s.products[i].averageRating == Average(s.reviews, pid) && s.products[i].reviewCount == |Approved(s.reviews, pid)|
           then s.products[i].updatedAt else now
  {
    var avg := Average(s.reviews, pid);
    var count := |Approved(s.reviews, pid)|;
    s.(products := seq(|s.products|, i requires 0 <= i < |s.products| =>
      if s.products[i].id == pid then Touch(s.products[i], s.products[i].(averageRating := avg, reviewCount := count), now)
      else s.products[i]))
  }

  // ---------------------------------------------------------------- endpoints

  /** `latest()`: newest first. */
  predicate NewerReview(a: Review, b: Review) {
    a.createdAt >= b.createdAt
  }

  /** `index`: the approved reviews of an existing product, newest first, a page of ten. */
  function Index(s: Store, pid: Id, page: int): (r: Step<seq<Review>>)
    ensures r.store == s
    ensures FindProduct(s, pid).None? <==> r.response.Failure?
    ensures r.response.Failure? ==> r.response.status == 404
    ensures r.response.Success? ==> IsSortedPage(r.response.data, Approved(s.reviews, pid), NewerReview, page, ReviewsPerPage)
    ensures r.response.Success? ==> |r.response.data| == PageLength(|Approved(s.reviews, pid)|, page, ReviewsPerPage)
    ensures r.response.Success? ==> forall x :: x in r.response.data ==> x in s.reviews && x.productId == pid && x.isApproved
  {
    if FindProduct(s, pid).None? then Refuse(s, 404, "Not Found")
    else
      assert TotalPreorder(NewerReview);
      Step(Success(200, "", SortedPage(Approved(s.reviews, pid), NewerReview, page, ReviewsPerPage)), s)
  }

  /** The first review the user wrote for the product, approved or not. */
  function ReviewBy(s: Store, uid: Id, pid: Id): (r: Option<Review>)
    ensures r.None? <==> forall x :: x in s.reviews ==> !(x.userId == uid && x.productId == pid)
  {
    First(s.reviews, (x: Review) => x.userId == uid && x.productId == pid)
  }

  /** `store`: the caller's one review of an existing product, auto-approved. */
  function Create(s: Store, caller: Id, pid: Id, req: ReviewRequest, now: int): (r: Step<Review>)
    ensures r.response.Failure? ==> r.store == s
    ensures FindProduct(s, pid).None? ==> r.response == Failure(404, "Not Found")
    ensures FindProduct(s, pid).Some? && !ValidReview(req) ==> r.response.Failure? && r.response.status == 422
    ensures FindProduct(s, pid).Some? && ValidReview(req) ==>
      (r.response.Success? <==> ReviewBy(s, caller, pid).None?)
    ensures r.response.Success? ==>
      && r.response.status == 201
      && r.response.data.userId == caller && r.response.data.productId == pid && r.response.data.isApproved
      && r.response.data.helpfulCount == 0 && r.response.data.rating == req.rating.value
      && r.store == RefreshRating(s.(reviews := s.reviews + [r.response.data], nextId := s.nextId + 1), pid, now)
  {
    if FindProduct(s, pid).None? then Refuse(s, 404, "Not Found")
    else if !ValidReview(req) then Refuse(s, 422, "Validation error")
    else if ReviewBy(s, caller, pid).Some? then Refuse(s, 400, "You have already reviewed this product")
    else
      var review := Review(s.nextId, caller, pid, req.rating.value, req.title.value, req.comment.value, true, 0, now);
      var t := s.(reviews := s.reviews + [review], nextId := s.nextId + 1);
      Step(Success(201, "Review added successfully", review), RefreshRating(t, pid, now))
  }

  /** `UPDATE reviews SET rating, title, comment WHERE id = rid`. */
  function Revise(reviews: seq<Review>, rid: Id, rating: int, title: string, comment: string): (r: seq<Review>)
    ensures |r| == |reviews|
    ensures forall i :: 0 <= i < |r| ==>
      r[i] == (if reviews[i].id == rid then reviews[i].(rating := rating, title := title, comment := comment) else reviews[i])
  {
    seq(|reviews|, i requires 0 <= i < |reviews| =>
      if reviews[i].id == rid then reviews[i].(rating := rating, title := title, comment := comment) else reviews[i])
  }

  /** `update`: the author rewrites their review; the product's rating is recomputed.
      When the product row is gone the recomputation fails after the write. */
  function Edit(s: Store, caller: Id, rid: Id, req: ReviewRequest, now: int): (r: Step<Review>)
    ensures FindReview(s, rid).None? ==> r.response == Failure(404, "Not Found") && r.store == s
    ensures FindReview(s, rid).Some? && FindReview(s, rid).value.userId != caller ==>
      r.response == Failure(403, "Unauthorized") && r.store == s
    ensures FindReview(s, rid).Some? && FindReview(s, rid).value.userId == caller && !ValidReview(req) ==>
      r.response.Failure? && r.response.status == 422 && r.store == s
    ensures FindReview(s, rid).Some? && FindReview(s, rid).value.userId == caller && ValidReview(req) ==>
      && (FindProduct(s, FindReview(s, rid).value.productId).Some? <==> r.response.Success?)
      && (r.response.Failure? ==>
            r.response == Failure(500, "Server Error")
            && r.store == s.(reviews := Revise(s.reviews, rid, req.rating.value, req.title.value, req.comment.value)))
    ensures r.response.Success? ==>
      && FindReview(s, rid).Some? && FindReview(s, rid).value.userId == caller && ValidReview(req)
      && r.response.data == FindReview(s, rid).value.(rating := req.rating.value, title := req.title.value, comment := req.comment.value)
      && r.store == RefreshRating(s.(reviews := Revise(s.reviews, rid, req.rating.value, req.title.value, req.comment.value)),
                                  FindReview(s, rid).value.productId, now)
  {
    match FindReview(s, rid)
    case None => Refuse(s, 404, "Not Found")
    case Some(review) =>
      if review.userId != caller then Refuse(s, 403, "Unauthorized")
      else if !ValidReview(req) then Refuse(s, 422, "Validation error")
      else
        var t := s.(reviews := Revise(s.reviews, rid, req.rating.value, req.title.value, req.comment.value));
        if FindProduct(s, review.productId).None? then Step(Failure(500, "Server Error"), t)
        else
          var updated := review.(rating := req.rating.value, title := req.title.value, comment := req.comment.value);
          Step(Success(200, "Review updated successfully", updated), RefreshRating(t, review.productId, now))
  }

  /** `DELETE FROM reviews WHERE id = rid`. */
  function DropReview(reviews: seq<Review>, rid: Id): (r: seq<Review>)
    ensures forall x :: x in r <==> x in reviews && x.id != rid
  {
    Filter(reviews, (x: Review) => x.id != rid)
  }

  /** `destroy`: the author or an admin deletes a review; the rating is recomputed. */
  function Delete(s: Store, caller: User, rid: Id, now: int): (r: Step<()>)
    ensures FindReview(s, rid).None? ==> r.response == Failure(404, "Not Found") && r.store == s
    ensures FindReview(s, rid).Some? ==>
      (r.response == Failure(403, "Unauthorized") <==> FindReview(s, rid).value.userId != caller.id && !caller.isAdmin)
    ensures r.response == Failure(403, "Unauthorized") ==> r.store == s
    ensures FindReview(s, rid).Some? && (FindReview(s, rid).value.userId == caller.id || caller.isAdmin) ==>
      && (FindProduct(s, FindReview(s, rid).value.productId).Some? <==> r.response.Success?)
      && (r.response.Failure? ==>
            r.response == Failure(500, "Server Error") && r.store == s.(reviews := DropReview(s.reviews, rid)))
    ensures r.response.Success? ==>
      && FindReview(s, rid).Some?
      && (FindReview(s, rid).value.userId == caller.id || caller.isAdmin)
      && r.store == RefreshRating(s.(reviews := DropReview(s.reviews, rid)), FindReview(s, rid).value.productId, now)
  {
    match FindReview(s, rid)
    case None => Refuse(s, 404, "Not Found")
    case Some(review) =>
      if review.userId != caller.id && !caller.isAdmin then Refuse(s, 403, "Unauthorized")
      else
        var t := s.(reviews := DropReview(s.reviews, rid));
        if FindProduct(s, review.productId).None? then Step(Failure(500, "Server Error"), t)
        else Step(Success(200, "Review deleted successfully", ()), RefreshRating(t, review.productId, now))
  }

  /** `markHelpful`: `helpful_count = helpful_count + 1` for the review; the reply
      carries the new count. */
  function MarkHelpful(s: Store, rid: Id): (r: Step<nat>)
    ensures FindReview(s, rid).None? <==> r.response.Failure?
    ensures r.response.Failure? ==> r.store == s
    ensures r.response.Success? ==>
      && r.response.data == FindReview(s, rid).value.helpfulCount + 1
      && r.store == s.(reviews := r.store.reviews)
      && |r.store.reviews| == |s.reviews|
      && forall i :: 0 <= i < |s.reviews| ==>
           r.store.reviews[i] == if s.reviews[i].id == rid then s.reviews[i].(helpfulCount := s.reviews[i].helpfulCount + 1) else s.reviews[i]
  {
    match FindReview(s, rid)
    case None => Refuse(s, 404, "Not Found")
    case Some(review) =>
      var bumped := seq(|s.reviews|, i requires 0 <= i < |s.reviews| =>
        if s.reviews[i].id == rid then s.reviews[i].(helpfulCount := s.reviews[i].helpfulCount + 1) else s.reviews[i]);
      Step(Success(200, "Marked as helpful", review.helpfulCount + 1), s.(reviews := bumped))
  }

  // ---------------------------------------------------------------- properties

  /** With every rating in 1..5, a product's mean rating is in 1..5 once it has any
      approved review, and 0 otherwise. */
  lemma AverageInRange(reviews: seq<Review>, pid: Id)
    requires forall r :: r in reviews ==> 1 <= r.rating <= 5
    ensures |Approved(reviews, pid)| == 0 ==> Average(reviews, pid) == 0.0
    ensures |Approved(reviews, pid)| > 0 ==> 1.0 <= Average(reviews, pid) <= 5.0
  {
    var xs := Approved(reviews, pid);
    if |xs| > 0 {
      assert forall r :: r in xs ==> 1 <= RatingOf(r) <= 5;
      SumBounds(xs, RatingOf, 1, 5);
      MeanBetween(Sum(xs, RatingOf), |xs|, 1, 5);
    }
  }

  /** Recomputing one product's summary after a change that touched only that product's
      reviews restores consistency for every product. */
  lemma RefreshRestoresConsistency(s: Store, t: Store, pid: Id, now: int)
    requires RatingsConsistent(s)
    requires t.products == s.products
    requires forall q :: q != pid ==> Approved(t.reviews, q) == Approved(s.reviews, q)
    ensures RatingsConsistent(RefreshRating(t, pid, now))
  {
  }

  /** A new review only changes its own product's approved list. */
  lemma ApprovedAfterAppend(reviews: seq<Review>, x: Review, q: Id)
    requires x.productId != q
    ensures Approved(reviews + [x], q) == Approved(reviews, q)
  {
    FilterAppend(reviews, [x], (y: Review) => y.productId == q && y.isApproved);
  }

  /** Rewriting or deleting reviews of one product leaves other products' lists alone. */
  lemma {:induction false} ApprovedAfterRevise(reviews: seq<Review>, rid: Id, pid: Id, rating: int, title: string, comment: string, q: Id)
    requires forall x :: x in reviews && x.id == rid ==> x.productId == pid
    requires q != pid
    ensures Approved(Revise(reviews, rid, rating, title, comment), q) == Approved(reviews, q)
  {
    if reviews != [] {
      var r := Revise(reviews, rid, rating, title, comment);
      assert r[1..] == Revise(reviews[1..], rid, rating, title, comment);
      assert reviews[0] in reviews;
      ApprovedAfterRevise(reviews[1..], rid, pid, rating, title, comment, q);
    }
  }

  lemma {:induction false} ApprovedAfterDrop(reviews: seq<Review>, rid: Id, pid: Id, q: Id)
    requires forall x :: x in reviews && x.id == rid ==> x.productId == pid
    requires q != pid
    ensures Approved(DropReview(reviews, rid), q) == Approved(reviews, q)
  {
    if reviews != [] {
      assert reviews[0] in reviews;
      ApprovedAfterDrop(reviews[1..], rid, pid, q);
    }
  }

  /** `store` keeps every product's count and mean in step with its approved reviews. */
  lemma CreateKeepsConsistency(s: Store, caller: Id, pid: Id, req: ReviewRequest, now: int)
    requires RatingsConsistent(s)
    ensures RatingsConsistent(Create(s, caller, pid, req, now).store)
  {
    var r := Create(s, caller, pid, req, now);
    if r.response.Success? {
      var t := s.(reviews := s.reviews + [r.response.data], nextId := s.nextId + 1);
      forall q | q != pid ensures Approved(t.reviews, q) == Approved(s.reviews, q) {
        ApprovedAfterAppend(s.reviews, r.response.data, q);
      }
      RefreshRestoresConsistency(s, t, pid, now);
    }
  }

  /** So does `update`, provided review ids are not shared across products. */
  lemma EditKeepsConsistency(s: Store, caller: Id, rid: Id, req: ReviewRequest, now: int)
    requires RatingsConsistent(s)
    requires forall x, y :: x in s.reviews && y in s.reviews && x.id == y.id ==> x.productId == y.productId
    ensures Edit(s, caller, rid, req, now).response.Success? ==> RatingsConsistent(Edit(s, caller, rid, req, now).store)
  {
    var r := Edit(s, caller, rid, req, now);
    if r.response.Success? {
      var review := FindReview(s, rid).value;
      var t := s.(reviews := Revise(s.reviews, rid, req.rating.value, req.title.value, req.comment.value));
      forall q | q != review.productId ensures Approved(t.reviews, q) == Approved(s.reviews, q) {
        ApprovedAfterRevise(s.reviews, rid, review.productId, req.rating.value, req.title.value, req.comment.value, q);
      }
      RefreshRestoresConsistency(s, t, review.productId, now);
    }
  }

  /** And `destroy`, under the same condition on ids. */
  lemma DeleteKeepsConsistency(s: Store, caller: User, rid: Id, now: int)
    requires RatingsConsistent(s)
    requires forall x, y :: x in s.reviews && y in s.reviews && x.id == y.id ==> x.productId == y.productId
    ensures Delete(s, caller, rid, now).response.Success? ==> RatingsConsistent(Delete(s, caller, rid, now).store)
  {
    var r := Delete(s, caller, rid, now);
    if r.response.Success? {
      var review := FindReview(s, rid).value;
      var t := s.(reviews := DropReview(s.reviews, rid));
      forall q | q != review.productId ensures Approved(t.reviews, q) == Approved(s.reviews, q) {
        ApprovedAfterDrop(s.reviews, rid, review.productId, q);
      }
      RefreshRestoresConsistency(s, t, review.productId, now);
    }
  }

  /** A user can hold at most one review per product, whatever the approval state. */
  predicate OnePerUserAndProduct(s: Store) {
    forall i, j :: 0 <= i < j < |s.reviews| ==>
      !(s.reviews[i].userId == s.reviews[j].userId && s.reviews[i].productId == s.reviews[j].productId)
  }

  lemma CreateKeepsOnePerUser(s: Store, caller: Id, pid: Id, req: ReviewRequest, now: int)
    requires OnePerUserAndProduct(s)
    ensures OnePerUserAndProduct(Create(s, caller, pid, req, now).store)
  {
    var r := Create(s, caller, pid, req, now);
    if r.response.Success? {
      var rs := r.store.reviews;
      assert rs == s.reviews + [r.response.data];
      forall i, j | 0 <= i < j < |rs| ensures !(rs[i].userId == rs[j].userId && rs[i].productId == rs[j].productId) {
        if j == |s.reviews| {
          assert rs[i] in s.reviews;
        }
      }
    }
  }

  /** Marking a review helpful touches no rating, so the summaries stay consistent. */
  lemma MarkHelpfulKeepsConsistency(s: Store, rid: Id)
    requires RatingsConsistent(s)
    ensures RatingsConsistent(MarkHelpful(s, rid).store)
  {
    var r := MarkHelpful(s, rid);
    if r.response.Success? {
      forall q ensures |Approved(r.store.reviews, q)| == |Approved(s.reviews, q)|
                    && Average(r.store.reviews, q) == Average(s.reviews, q) {
        ApprovedAfterBump(s.reviews, r.store.reviews, q);
      }
    }
  }

  lemma {:induction false} ApprovedAfterBump(a: seq<Review>, b: seq<Review>, q: Id)
    requires |a| == |b|
    requires forall i :: 0 <= i < |a| ==> b[i] == a[i] || b[i] == a[i].(helpfulCount := b[i].helpfulCount)
    ensures |Approved(b, q)| == |Approved(a, q)|
    ensures Sum(Approved(b, q), RatingOf) == Sum(Approved(a, q), RatingOf)
  {
    if a != [] {
      ApprovedAfterBump(a[1..], b[1..], q);
    }
  }
}

=== FILE: schema.dfy ===
/** The database as one immutable value. Each table is a sequence of rows in
    primary-key order; money is integer cents, except the order amounts, which are
    exact `real` cents so that an 8% tax needs no rounding. */
module Schema {
  import opened Base

  type Id = nat

  /** A price in cents. */
  type Cents = int

  datatype User = User(
    id: Id,
    name: string,
    email: string,
    isAdmin: bool,
    isActive: bool,
    /** Number of live API tokens; revoking sets it to zero. */
    tokens: nat,
    createdAt: int)

  datatype Category = Category(
    id: Id,
    name: string,
    slug: string,
    description: Option<string>,
    image: Option<string>,
    parentId: Option<Id>,
    sortOrder: int,
    isActive: bool)

  datatype Product = Product(
    id: Id,
    name: string,
    slug: string,
    description: string,
    sku: string,
    price: Cents,
    salePrice: Option<Cents>,
    stock: int,
    categoryId: Id,
    images: seq<string>,
    isActive: bool,
    isFeatured: bool,
    averageRating: real,
    reviewCount: nat,
    createdAt: int,
    updatedAt: int)

  /** Eloquent's `save` on a product: when no attribute differs from the stored row nothing
      is written; otherwise the row is written with `updated_at` set to `now`. */
  function Touch(before: Product, after: Product, now: int): (r: Product)
    requires after.updatedAt == before.updatedAt
    ensures r.(updatedAt := before.updatedAt) == after
    ensures r.updatedAt == if after == before then before.updatedAt else now
  {
    if after == before then before else after.(updatedAt := now)
  }

  /** A row of the `carts` table: one per (user, product). */
  datatype CartLine = CartLine(userId: Id, productId: Id, quantity: int, options: Option<string>)

  datatype WishlistEntry = WishlistEntry(userId: Id, productId: Id)

  datatype Review = Review(
    id: Id,
    userId: Id,
    productId: Id,
    rating: int,
    title: string,
    comment: string,
    isApproved: bool,
    helpfulCount: nat,
    createdAt: int)

  datatype Address = Address(
    name: Option<string>,
    line1: Option<string>,
    line2: Option<string>,
    city: Option<string>,
    state: Option<string>,
    postalCode: Option<string>,
    country: Option<string>)

  /** A line snapshot: copied from the product when the order is placed. */
  datatype OrderItem = OrderItem(
    productId: Id,
    productName: string,
    productSku: string,
    productImage: string,
    quantity: int,
    price: Cents,
    total: Cents)

  datatype Order = Order(
    id: Id,
    orderNumber: string,
    userId: Id,
    status: string,
    paymentStatus: string,
    subtotal: real,
    taxAmount: real,
    shippingAmount: Option<real>,
    shippingCost: Option<real>,
    totalAmount: real,
    currency: string,
    paymentReference: Option<string>,
    shippingAddress: Address,
    billingAddress: Address,
    items: seq<OrderItem>,
    createdAt: int)

  datatype Store = Store(
    users: seq<User>,
    categories: seq<Category>,
    products: seq<Product>,
    cart: seq<CartLine>,
    wishlist: seq<WishlistEntry>,
    reviews: seq<Review>,
    orders: seq<Order>,
    /** The next auto-increment id. */
    nextId: Id)

  /** What an endpoint returns: the JSON reply and the database afterwards. */
  datatype Step<+T> = Step(response: Response<T>, store: Store)

  /** An endpoint that refuses leaves the database as it was. */
  function Refuse<T>(s: Store, status: int, message: string): (r: Step<T>)
    ensures r.response.Failure? && r.response.status == status && r.store == s
  {
    Step(Failure(status, message), s)
  }

  /** PHP truthiness of a string column: `""` and `"0"` are falsy. */
  predicate Truthy(s: string) {
    s != "" && s != "0"
  }

  /** Laravel's `required` rejects null and strings that trim to nothing. */
  predicate Filled(v: Option<string>) {
    v.Some? && exists i :: 0 <= i < |v.value| && v.value[i] !in " \t\n\r\0\U{B}"
  }

  function FindUser(s: Store, id: Id): Option<User> {
    First(s.users, (u: User) => u.id == id)
  }

  function FindProduct(s: Store, id: Id): Option<Product> {
    First(s.products, (p: Product) => p.id == id)
  }

  function FindCategory(s: Store, id: Id): Option<Category> {
    First(s.categories, (c: Category) => c.id == id)
  }

  function FindReview(s: Store, id: Id): Option<Review> {
    First(s.reviews, (r: Review) => r.id == id)
  }

  predicate ProductExists(s: Store, id: Id) {
    exists i :: 0 <= i < |s.products| && s.products[i].id == id
  }

  lemma FindProductExists(s: Store, id: Id)
    ensures FindProduct(s, id).Some? <==> ProductExists(s, id)
  {
    if ProductExists(s, id) {
      var i :| 0 <= i < |s.products| && s.products[i].id == id;
      assert s.products[i] in s.products;
    }
  }
}

=== FILE: sql.dfy ===
/** The two pieces of SQL semantics the controllers lean on: `LIKE` pattern
    matching (every search filter is `column LIKE '%term%'`) and `paginate`. */
module Sql {
  import opened Ordering

  /** `text LIKE pattern`: `%` matches any run of characters, `_` exactly one,
      every other character itself. */
  predicate Like(pattern: string, text: string)
    decreases |pattern| + |text|
  {
    if pattern == [] then text == []
    else if pattern[0] == '%' then
      Like(pattern[1..], text) || (text != [] && Like(pattern, text[1..]))
    else
      text != [] && (pattern[0] == '_' || pattern[0] == text[0]) && Like(pattern[1..], text[1..])
  }

  /** The search filter `column LIKE "%{$search}%"`; the term is not escaped. */
  predicate Contains(text: string, term: string) {
    Like("%" + term + "%", text)
  }

  /** A search term with no LIKE wildcard in it. */
  predicate Plain(term: string) {
    forall i :: 0 <= i < |term| ==> term[i] != '%' && term[i] != '_'
  }

  /** `text` begins with `term`. */
  predicate StartsWith(text: string, term: string) {
    |term| <= |text| && text[..|term|] == term
  }

  /** `term` occurs as a contiguous block of `text`. */
  predicate Substring(term: string, text: string) {
    exists k :: 0 <= k <= |text| && StartsWith(text[k..], term)
  }

  /** A trailing `%` matches whatever is left. */
  lemma {:induction false} PercentMatchesAll(text: string)
    ensures Like("%", text)
  {
    if text != [] {
      PercentMatchesAll(text[1..]);
    }
  }

  /** A plain term followed by `%` matches exactly the texts it is a prefix of. */
  lemma {:induction false} PrefixMatch(term: string, text: string)
    requires Plain(term)
    ensures Like(term + "%", text) <==> StartsWith(text, term)
  {
    if term == [] {
      assert term + "%" == "%";
      PercentMatchesAll(text);
    } else {
      var p := term + "%";
      assert p[0] == term[0] && p[1..] == term[1..] + "%";
      assert Plain(term[1..]);
      if text != [] {
        PrefixMatch(term[1..], text[1..]);
        if |term| <= |text| && text[..|term|] == term {
          assert text[0] == term[0];
          assert text[1..][..|term[1..]|] == term[1..];
        }
        if Like(p, text) {
          assert text[1..][..|term| - 1] == term[1..];
          assert text[..|term|] == [text[0]] + text[1..][..|term| - 1];
        }
      }
    }
  }

  /** A leading `%` lets the rest of the pattern start at any position. */
  lemma {:induction false} LeadingPercent(rest: string, text: string)
    ensures Like("%" + rest, text) <==> exists k :: 0 <= k <= |text| && Like(rest, text[k..])
  {
    var p := "%" + rest;
    assert p[0] == '%' && p[1..] == rest;
    if text == [] {
      assert text[0..] == text;
    } else {
      LeadingPercent(rest, text[1..]);
      if Like(p, text) {
        if !Like(rest, text) {
          var k :| 0 <= k <= |text[1..]| && Like(rest, text[1..][k..]);
          assert text[1..][k..] == text[k + 1..];
        } else {
          assert text[0..] == text;
        }
      }
      if exists k :: 0 <= k <= |text| && Like(rest, text[k..]) {
        var k :| 0 <= k <= |text| && Like(rest, text[k..]);
        if k == 0 {
          assert text[0..] == text;
        } else {
          assert text[1..][k - 1..] == text[k..];
        }
      }
    }
  }

  /** For a wildcard-free term the search filter is exactly substring search. */
  lemma ContainsIsSubstring(text: string, term: string)
    requires Plain(term)
    ensures Contains(text, term) <==> Substring(term, text)
  {
    var rest := term + "%";
    assert "%" + term + "%" == "%" + rest;
    LeadingPercent(rest, text);
    if Contains(text, term) {
      var k :| 0 <= k <= |text| && Like(rest, text[k..]);
      PrefixMatch(term, text[k..]);
    }
    if Substring(term, text) {
      var k :| 0 <= k <= |text| && StartsWith(text[k..], term);
      PrefixMatch(term, text[k..]);
    }
  }

  /** Laravel's page size when none is configured. */
  const DefaultPerPage: nat := 15

  /** The page size `paginate` uses: the requested one, or the default for 0. */
  function PageSize(perPage: nat): nat {
    if perPage == 0 then DefaultPerPage else perPage
  }

  /** How many rows the pages before `page` hold; a page below 1 reads as page 1. */
  function Offset(page: int, perPage: nat): nat {
    (if page < 1 then 0 else page - 1) * PageSize(perPage)
  }

  /** How many of `n` rows land on page `page`: none past the end, otherwise a full
      page or whatever is left. */
  function PageLength(n: nat, page: int, perPage: nat): nat {
    if Offset(page, perPage) >= n then 0
    else if n - Offset(page, perPage) < PageSize(perPage) then n - Offset(page, perPage)
    else PageSize(perPage)
  }

  /** `pg` is page `page` of `rows`: the rows from the page's offset on, as many as land
      on that page. */
  ghost predicate IsPage<T>(pg: seq<T>, rows: seq<T>, page: int, perPage: nat) {
    && |pg| == PageLength(|rows|, page, perPage)
    && forall i :: 0 <= i < |pg| ==> Offset(page, perPage) + i < |rows| && pg[i] == rows[Offset(page, perPage) + i]
  }

  /** `paginate($perPage)` with the `page` query parameter (`LIMIT size OFFSET (page-1)*size`). */
  function Paginate<T>(rows: seq<T>, page: int, perPage: nat): (r: seq<T>)
    ensures IsPage(r, rows, page, perPage)
    ensures |r| <= PageSize(perPage)
    ensures forall x :: x in r ==> x in rows
  {
    var lo := Offset(page, perPage);
    if lo >= |rows| then []
    else rows[lo..if lo + PageSize(perPage) < |rows| then lo + PageSize(perPage) else |rows|]
  }

  /** Pages tile the rows: row `k` is entry `k mod size` of page `k div size + 1`, so
      walking the pages shows every row once. */
  lemma EveryRowOnItsPage<T>(rows: seq<T>, perPage: nat, k: nat)
    requires k < |rows|
    ensures var page := k / PageSize(perPage) + 1;
      k % PageSize(perPage) < |Paginate(rows, page, perPage)|
      && Paginate(rows, page, perPage)[k % PageSize(perPage)] == rows[k]
  {
    var size := PageSize(perPage);
    var page := k / size + 1;
    assert Offset(page, perPage) == (k / size) * size;
    assert k == (k / size) * size + k % size;
  }

  /** A page is a contiguous piece of its rows. */
  lemma PageIsSlice<T>(pg: seq<T>, rows: seq<T>, page: int, perPage: nat)
    requires IsPage(pg, rows, page, perPage) && pg != []
    ensures Offset(page, perPage) + |pg| <= |rows|
    ensures pg == rows[Offset(page, perPage)..Offset(page, perPage) + |pg|]
  {
  }

  /** A page shows no row more often than its rows hold it. */
  lemma PageMultiset<T>(pg: seq<T>, rows: seq<T>, page: int, perPage: nat)
    requires IsPage(pg, rows, page, perPage)
    ensures multiset(pg) <= multiset(rows)
  {
    if pg != [] {
      PageIsSlice(pg, rows, page, perPage);
      SliceMultiset(rows, Offset(page, perPage), Offset(page, perPage) + |pg|);
    }
  }

  /** What `orderBy(...)->paginate(perPage)` returns for the rows a filter selects: page
      `page` of the matches in sorted order. The page is itself sorted, shows each match
      at most as often as it occurs, and the first page leaves out no match that ranks
      ahead of one it shows. */
  ghost predicate IsSortedPage<T(!new)>(pg: seq<T>, matches: seq<T>, le: (T, T) -> bool, page: int, perPage: nat) {
    && TotalPreorder(le)
    && IsPage(pg, Sort(matches, le), page, perPage)
    && SortedBy(pg, le)
    && multiset(pg) <= multiset(matches)
    && (page <= 1 ==> forall x, y :: x in pg && y in matches && y !in pg ==> le(x, y))
  }

  /** Sort the matches, then cut the page. */
  function SortedPage<T(!new)>(matches: seq<T>, le: (T, T) -> bool, page: int, perPage: nat): (r: seq<T>)
    requires TotalPreorder(le)
    ensures IsSortedPage(r, matches, le, page, perPage)
    ensures forall x :: x in r ==> x in matches
  {
    SortedPageFacts(matches, le, page, perPage);
    Paginate(Sort(matches, le), page, perPage)
  }

  lemma SortedPageFacts<T(!new)>(matches: seq<T>, le: (T, T) -> bool, page: int, perPage: nat)
    requires TotalPreorder(le)
    ensures IsSortedPage(Paginate(Sort(matches, le), page, perPage), matches, le, page, perPage)
    ensures forall x :: x in Paginate(Sort(matches, le), page, perPage) ==> x in matches
  {
    var sorted := Sort(matches, le);
    var r := Paginate(sorted, page, perPage);
    PageOfSorted(sorted, page, perPage, le);
    PageMultiset(r, sorted, page, perPage);
    assert multiset(sorted) == multiset(matches);
    forall x | x in r ensures x in matches {
      assert x in multiset(r);
    }
    if page <= 1 {
      FirstPageRanksFirst(matches, le, r, sorted);
    }
  }

  lemma FirstPageRanksFirst<T(!new)>(matches: seq<T>, le: (T, T) -> bool, r: seq<T>, sorted: seq<T>)
    requires TotalPreorder(le) && sorted == Sort(matches, le)
    requires |r| <= |sorted| && forall i :: 0 <= i < |r| ==> r[i] == sorted[i]
    ensures forall x, y :: x in r && y in matches && y !in r ==> le(x, y)
  {
    assert r == sorted[..|r|];
    PrefixRanksFirst(sorted, le, |r|);
    forall y | y in matches ensures y in sorted {
      assert y in multiset(matches);
    }
  }

  /** A page of an ordered result is ordered the same way. */
  lemma PageOfSorted<T>(rows: seq<T>, page: int, perPage: nat, le: (T, T) -> bool)
    requires SortedBy(rows, le)
    ensures SortedBy(Paginate(rows, page, perPage), le)
  {
    var r := Paginate(rows, page, perPage);
    var lo := Offset(page, perPage);
    forall i, j | 0 <= i < j < |r| ensures le(r[i], r[j]) {
      assert r[i] == rows[lo + i] && r[j] == rows[lo + j];
    }
  }
}

=== FILE: text.dfy ===
/** String helpers the models call: `Str::slug` and `strtoupper`, over ASCII. */
module Text {

  predicate IsLowerAlnum(c: char) {
    ('a' <= c <= 'z') || ('0' <= c <= '9')
  }

  predicate IsAsciiAlnum(c: char) {
    IsLowerAlnum(c) || ('A' <= c <= 'Z')
  }

  /** `strtolower` on one ASCII character. */
  function Lower(c: char): (r: char)
    ensures IsAsciiAlnum(c) ==> IsLowerAlnum(r)
    ensures !('A' <= c <= 'Z') ==> r == c
  {
    if 'A' <= c <= 'Z' then (c as int + 32) as char else c
  }

  /** `strtoupper` on one ASCII character. */
  function Upper(c: char): (r: char)
    ensures 'a' <= c <= 'z' ==> 'A' <= r <= 'Z'
    ensures !('a' <= c <= 'z') ==> r == c
  {
    if 'a' <= c <= 'z' then (c as int - 32) as char else c
  }

  /** `strtolower` on an ASCII string. */
  function LowerAll(s: string): (r: string)
    ensures |r| == |s|
    ensures forall i :: 0 <= i < |s| ==> r[i] == Lower(s[i])
  {
    seq(|s|, i requires 0 <= i < |s| => Lower(s[i]))
  }

  /** Characters `Str::slug` turns into the `-` separator. */
  predicate IsSeparator(c: char) {
    c == '-' || c == '_' || c == ' ' || c == '\t' || c == '\n' || c == '\r'
    || c as int == 0x0B || c as int == 0x0C  // vertical tab and form feed, also `\s`
  }

  /** The shape `Str::slug` produces: lower-case letters and digits in words joined by
      single dashes, with no dash at either end. */
  predicate WellFormedSlug(s: string) {
    && (forall i :: 0 <= i < |s| ==> IsLowerAlnum(s[i]) || s[i] == '-')
    && (s != [] ==> s[0] != '-' && s[|s| - 1] != '-')
    && (forall i :: 0 <= i < |s| - 1 ==> !(s[i] == '-' && s[i + 1] == '-'))
  }

  /** One left-to-right pass: `acc` is the slug so far and `pending` records a
      separator seen since the last word character. Letters and digits are kept
      (lower-cased), separators collapse into one dash, `@` becomes the word `at`,
      anything else is dropped. */
  function SlugScan(s: string, acc: string, pending: bool): string {
    if s == [] then acc
    else if IsAsciiAlnum(s[0]) then
      var next := acc + (if pending && acc != [] then "-" else "") + [Lower(s[0])];
      SlugScan(s[1..], next, false)
    else if s[0] == '@' then
      var next := acc + (if acc != [] then "-" else "") + "at";
      SlugScan(s[1..], next, true)
    else if IsSeparator(s[0]) then
      SlugScan(s[1..], acc, true)
    else
      SlugScan(s[1..], acc, pending)
  }

  /** `Str::slug($name)`. */
  function Slug(name: string): (r: string)
    ensures WellFormedSlug(r)
  {
    ScanWellFormed(name, "", false);
    SlugScan(name, "", false)
  }

  /** Appending a word character, after a dash only when there is text before it, keeps
      the slug shape. */
  lemma AppendWordChar(acc: string, dash: string, c: char)
    requires WellFormedSlug(acc) && IsLowerAlnum(c)
    requires dash == "" || (dash == "-" && acc != [])
    ensures WellFormedSlug(acc + dash + [c])
  {
    var r := acc + dash + [c];
    assert forall i :: 0 <= i < |acc| ==> r[i] == acc[i];
    assert r[|r| - 1] == c;
    if dash == "-" {
      assert r[|acc|] == '-' && r[|acc| - 1] == acc[|acc| - 1];
    }
  }

  /** The scan only ever extends a well-formed slug into a well-formed slug. */
  lemma {:induction false} ScanWellFormed(s: string, acc: string, pending: bool)
    requires WellFormedSlug(acc)
    ensures WellFormedSlug(SlugScan(s, acc, pending))
  {
    if s == [] {
    } else if IsAsciiAlnum(s[0]) {
      AppendWordChar(acc, if pending && acc != [] then "-" else "", Lower(s[0]));
      ScanWellFormed(s[1..], acc + (if pending && acc != [] then "-" else "") + [Lower(s[0])], false);
    } else if s[0] == '@' {
      var dash := if acc != [] then "-" else "";
      AppendWordChar(acc, dash, 'a');
      AppendWordChar(acc + dash + ['a'], "", 't');
      assert acc + dash + ['a'] + "" + ['t'] == acc + dash + "at";
      ScanWellFormed(s[1..], acc + dash + "at", true);
    } else if IsSeparator(s[0]) {
      ScanWellFormed(s[1..], acc, true);
    } else {
      ScanWellFormed(s[1..], acc, pending);
    }
  }

  /** Text made of slug characters, no doubled dash and no trailing dash. */
  predicate SlugText(s: string) {
    && (forall i :: 0 <= i < |s| ==> IsLowerAlnum(s[i]) || s[i] == '-')
    && (forall i :: 0 <= i < |s| - 1 ==> !(s[i] == '-' && s[i + 1] == '-'))
    && (s != [] ==> s[|s| - 1] != '-')
  }

  lemma SlugTextTail(s: string)
    requires SlugText(s) && s != []
    ensures SlugText(s[1..])
    ensures s[0] == '-' ==> |s| > 1 && s[1] != '-'
  {
    var t := s[1..];
    assert forall i :: 0 <= i < |t| ==> t[i] == s[i + 1];
  }

  /** One step of the scan over a word character. */
  lemma ScanWordStep(s: string, acc: string, pending: bool)
    requires s != [] && IsLowerAlnum(s[0])
    ensures SlugScan(s, acc, pending) == SlugScan(s[1..], acc + (if pending && acc != [] then "-" else "") + [s[0]], false)
  {
    assert IsAsciiAlnum(s[0]) && Lower(s[0]) == s[0];
  }

  /** One step of the scan over a dash. */
  lemma ScanDashStep(s: string, acc: string, pending: bool)
    requires s != [] && s[0] == '-'
    ensures SlugScan(s, acc, pending) == SlugScan(s[1..], acc, true)
  {
    assert IsSeparator(s[0]) && !IsAsciiAlnum(s[0]) && s[0] != '@';
  }

  lemma ConcatHead(pre: string, s: string)
    requires s != []
    ensures pre + [s[0]] + s[1..] == pre + s
  {
    assert [s[0]] + s[1..] == s;
    assert pre + [s[0]] + s[1..] == pre + ([s[0]] + s[1..]);
  }

  /** Scanning text that is already in slug form appends it unchanged. */
  lemma {:induction false} ScanKeepsSlugText(s: string, acc: string, pending: bool)
    requires SlugText(s)
    requires s != [] && s[0] == '-' ==> acc != [] && !pending
    ensures SlugScan(s, acc, pending) == acc + (if pending && acc != [] && s != [] then "-" else "") + s
  {
    if s != [] {
      var c := s[0];
      SlugTextTail(s);
      if IsLowerAlnum(c) {
        var dash := if pending && acc != [] then "-" else "";
        var next := acc + dash + [c];
        ScanWordStep(s, acc, pending);
        ScanKeepsSlugText(s[1..], next, false);
        assert SlugScan(s[1..], next, false) == next + s[1..];
        ConcatHead(acc + dash, s);
      } else {
        ScanDashStep(s, acc, pending);
        ScanKeepsSlugText(s[1..], acc, true);
        ConcatHead(acc, s);
      }
    }
  }

  /** `Str::slug` leaves a slug alone, so slugging is idempotent. */
  lemma SlugOfSlug(s: string)
    requires WellFormedSlug(s)
    ensures Slug(s) == s
  {
    ScanKeepsSlugText(s, "", false);
  }

  lemma SlugIdempotent(name: string)
    ensures Slug(Slug(name)) == Slug(name)
  {
    SlugOfSlug(Slug(name));
  }

  /** Decimal digits of a natural number, as PHP prints an integer. */
  function NatToString(n: nat): (r: string)
    ensures |r| >= 1
    ensures forall i :: 0 <= i < |r| ==> '0' <= r[i] <= '9'
    decreases n
  {
    var d := ['0' + (n % 10) as char];
    if n < 10 then d else NatToString(n / 10) + d
  }
}

=== FILE: users.dfy ===
/** User administration (`Api/Admin/AdminController`) and the admin user listing
    (`Api/UserController`). */
module Users {
  import opened Base
  import opened Schema
  import opened Ordering
  import opened Sql
  import opened Text
  import Orders

  /** Query string of both user listings. */
  datatype UserQuery = UserQuery(page: Option<int>, limit: Option<int>, search: Option<string>,
                                 status: Option<string>, role: Option<string>)

  predicate ValidUserQuery(q: UserQuery) {
    && (q.page.Some? ==> q.page.value >= 1)
    && (q.limit.Some? ==> 1 <= q.limit.value <= 100)
    && (q.search.Some? ==> |q.search.value| <= 255)
    && (q.status.Some? ==> q.status.value in ["active", "inactive"])
    && (q.role.Some? ==> q.role.value in ["admin", "customer"])
  }

  /** Search on name or email, `status` on is_active, `role` on is_admin. */
  predicate UserMatches(u: User, q: UserQuery) {
    && (q.search.None? || Contains(u.name, q.search.value) || Contains(u.email, q.search.value))
    && (q.status.None? || u.isActive == (q.status.value == "active"))
    && (q.role.None? || u.isAdmin == (q.role.value == "admin"))
  }

  predicate NewestFirst(a: User, b: User) {
    a.createdAt >= b.createdAt
  }

  /** The users the query selects, in table order. */
  function MatchingUsers(s: Store, q: UserQuery): (r: seq<User>)
    ensures forall u :: u in r <==> u in s.users && UserMatches(u, q)
  {
    Filter(s.users, (u: User) => UserMatches(u, q))
  }

  /** `$request->get('limit', 15)` as a page size; validation keeps it in 1..100. */
  function Limit(q: UserQuery): nat {
    if q.limit.GetOr(15) <= 0 then 0 else q.limit.GetOr(15)
  }

  /** `orderBy('created_at', 'desc')->paginate($limit)`: the filtered users, newest
      first, one page. */
  function UserPage(s: Store, q: UserQuery): (r: seq<User>)
    ensures IsSortedPage(r, MatchingUsers(s, q), NewestFirst, q.page.GetOr(1), Limit(q))
    ensures forall u :: u in r ==> u in s.users && UserMatches(u, q)
  {
    assert TotalPreorder(NewestFirst);
    SortedPage(MatchingUsers(s, q), NewestFirst, q.page.GetOr(1), Limit(q))
  }

  /** One row of `getUsers`. */
  datatype UserSummary = UserSummary(id: Id, name: string, email: string, role: string, status: string,
                                     ordersCount: nat, totalSpent: real)

  function OrdersOf(s: Store, uid: Id): (r: seq<Order>)
    ensures forall o :: o in r <==> o in s.orders && o.userId == uid
  {
    Filter(s.orders, (o: Order) => o.userId == uid)
  }

  function Summary(s: Store, u: User): UserSummary {
    UserSummary(u.id, u.name, u.email, if u.isAdmin then "admin" else "customer",
                if u.isActive then "active" else "inactive",
                |OrdersOf(s, u.id)|, Orders.PaidRevenue(OrdersOf(s, u.id)))
  }

  /** `v` is the summary of a user the query selects: its id, order count and what
      that user's paid orders total. */
  ghost predicate SummaryOfMatching(s: Store, q: UserQuery, v: UserSummary) {
    exists u :: u in s.users && UserMatches(u, q) && v.id == u.id
      && v.ordersCount == |OrdersOf(s, u.id)| && v.totalSpent == Orders.PaidRevenue(OrdersOf(s, u.id))
  }

  function Summaries(s: Store, page: seq<User>): (r: seq<UserSummary>)
    ensures |r| == |page|
    ensures forall i :: 0 <= i < |r| ==> r[i] == Summary(s, page[i])
  {
    seq(|page|, i requires 0 <= i < |page| => Summary(s, page[i]))
  }

  lemma SummariesOfMatching(s: Store, q: UserQuery, page: seq<User>)
    requires forall u :: u in page ==> u in s.users && UserMatches(u, q)
    ensures forall v :: v in Summaries(s, page) ==> SummaryOfMatching(s, q, v)
  {
    var data := Summaries(s, page);
    forall v | v in data ensures SummaryOfMatching(s, q, v) {
      var i :| 0 <= i < |data| && data[i] == v;
      assert page[i] in page;
    }
  }

  /** `getUsers`: the filtered page, newest first, each user with their order count and
      what their paid orders total. */
  function GetUsers(s: Store, q: UserQuery): (r: Step<seq<UserSummary>>)
    ensures r.store == s
    ensures r.response.Success? <==> ValidUserQuery(q)
    ensures r.response.Success? ==> r.response.data == Summaries(s, UserPage(s, q))
    ensures r.response.Success? ==> |r.response.data| == PageLength(|MatchingUsers(s, q)|, q.page.GetOr(1), Limit(q))
    ensures r.response.Success? ==> forall v :: v in r.response.data ==> SummaryOfMatching(s, q, v)
  {
    if !ValidUserQuery(q) then Refuse(s, 422, "Validation error")
    else
      var page := UserPage(s, q);
      SummariesOfMatching(s, q, page);
      Step(Success(200, "Users retrieved successfully", Summaries(s, page)), s)
  }

  /** `UserController::index`: the same listing for administrators only; the role check
      comes before validation. */
  function ListUsers(s: Store, caller: Option<User>, q: UserQuery): (r: Step<seq<User>>)
    ensures r.store == s
    ensures caller.None? || !caller.value.isAdmin ==> r.response == Failure(403, "Unauthorized access. Admin privileges required.")
    ensures caller.Some? && caller.value.isAdmin ==> (r.response.Success? <==> ValidUserQuery(q))
    ensures r.response.Success? ==>
      IsSortedPage(r.response.data, MatchingUsers(s, q), NewestFirst, q.page.GetOr(1), Limit(q))
    ensures r.response.Success? ==> forall u :: u in r.response.data ==> u in s.users && UserMatches(u, q)
  {
    if caller.None? || !caller.value.isAdmin then Refuse(s, 403, "Unauthorized access. Admin privileges required.")
    else if !ValidUserQuery(q) then Refuse(s, 422, "Validation error")
    else Step(Success(200, "Users retrieved successfully", UserPage(s, q)), s)
  }

  // ---------------------------------------------------------------- statistics

  datatype UserStats = UserStats(total: nat, active: nat, inactive: nat, admins: nat, customers: nat,
                                 newSince: nat, withOrders: nat, avgOrdersPerUser: real)

  /** Some order belongs to user `id`. */
  predicate HasOrders(s: Store, id: Id) {
    exists o :: o in s.orders && o.userId == id
  }

  predicate IsActive(u: User) { u.isActive }
  predicate IsInactive(u: User) { !u.isActive }
  predicate IsAdmin(u: User) { u.isAdmin }
  predicate IsCustomer(u: User) { !u.isAdmin }

  /** Every user is counted exactly once as active or inactive, and once as admin or customer. */
  lemma StatusAndRoleSplit(us: seq<User>)
    ensures Count(us, IsActive) + Count(us, IsInactive) == |us|
    ensures Count(us, IsAdmin) + Count(us, IsCustomer) == |us|
  {
    CountSplit(us, IsActive, IsInactive);
    CountSplit(us, IsAdmin, IsCustomer);
  }

  /** Joined at or after `since`. */
  function JoinedSince(since: int): User -> bool {
    (u: User) => u.createdAt >= since
  }

  /** Has placed at least one order. */
  function Buyer(s: Store): User -> bool {
    (u: User) => HasOrders(s, u.id)
  }

  /** `getUserStats`; `since` is the instant thirty days before now. */
  function GetUserStats(s: Store, since: int): (r: Step<UserStats>)
    ensures r.store == s && r.response.Success?
    ensures r.response.data.total == |s.users|
    ensures r.response.data.active + r.response.data.inactive == |s.users|
    ensures r.response.data.admins + r.response.data.customers == |s.users|
    ensures r.response.data.active == Count(s.users, IsActive) && r.response.data.inactive == Count(s.users, IsInactive)
    ensures r.response.data.admins == Count(s.users, IsAdmin) && r.response.data.customers == Count(s.users, IsCustomer)
    ensures r.response.data.newSince == Count(s.users, JoinedSince(since)) <= |s.users|
    ensures r.response.data.withOrders == Count(s.users, Buyer(s)) <= |s.users|
    ensures r.response.data.avgOrdersPerUser == Mean(|s.orders|, |s.users|)
  {
    var us := s.users;
    StatusAndRoleSplit(us);
    var avg := Mean(|s.orders|, |us|);
    var recent := Count(us, JoinedSince(since));
    var buyers := Count(us, Buyer(s));
    var stats := UserStats(|us|, Count(us, IsActive), Count(us, IsInactive), Count(us, IsAdmin), Count(us, IsCustomer),
                           recent, buyers, avg);
    Step(Success(200, "User statistics retrieved successfully", stats), s)
  }

  // ---------------------------------------------------------------- account changes

  /** The row changes the administrator endpoints make. */
  datatype UserChange =
    | SetActive(active: bool)   // deactivation also revokes every token
    | SetAdmin(admin: bool)
    | Retire(now: nat)          // the soft delete of a user with orders

  function Changed(u: User, c: UserChange): User {
    match c
    case SetActive(active) => if active then u.(isActive := true) else u.(isActive := false, tokens := 0)
    case SetAdmin(admin) => u.(isAdmin := admin)
    case Retire(now) => u.(isActive := false, email := u.email + "_deleted_" + NatToString(now), tokens := 0)
  }

  /** `UPDATE users SET ... WHERE id = ?`. */
  function SetUser(users: seq<User>, id: Id, c: UserChange): (r: seq<User>)
    ensures |r| == |users|
    ensures forall i :: 0 <= i < |r| ==> r[i] == (if users[i].id == id then Changed(users[i], c) else users[i])
  {
    seq(|users|, i requires 0 <= i < |users| => if users[i].id == id then Changed(users[i], c) else users[i])
  }

  datatype AccountView = AccountView(id: Id, name: string, email: string, status: string, role: string)

  function Account(u: User): AccountView {
    AccountView(u.id, u.name, u.email, if u.isActive then "active" else "inactive", if u.isAdmin then "admin" else "customer")
  }

  /** `updateUserStatus`. Deactivating revokes the user's tokens; an administrator cannot
      deactivate themself but may set themself active. */
  function UpdateUserStatus(s: Store, caller: Id, id: Id, status: Option<string>): (r: Step<AccountView>)
    ensures r.response.Failure? ==> r.store == s
    ensures status.None? || status.value !in ["active", "inactive"] ==> r.response.Failure? && r.response.status == 422
    ensures status.Some? && status.value in ["active", "inactive"] && FindUser(s, id).None? ==>
      r.response == Failure(404, "User not found")
    ensures status.Some? && status.value in ["active", "inactive"] && FindUser(s, id).Some? ==>
      (r.response.Failure? && r.response.status == 403 <==> id == caller && status.value == "inactive")
    ensures r.response.Failure? && r.response.status == 403 ==> r.response.message == "You cannot deactivate your own account"
    ensures status.Some? && status.value in ["active", "inactive"] && FindUser(s, id).Some?
            && !(id == caller && status.value == "inactive") ==>
      r.response.Success? && r.response.data == Account(Changed(FindUser(s, id).value, SetActive(status.value == "active")))
    ensures r.response.Success? ==>
      && r.response.data.status == status.value
      && r.store == s.(users := r.store.users)
      && |r.store.users| == |s.users|
      && forall i :: 0 <= i < |s.users| ==>
           r.store.users[i] == if s.users[i].id == id then Changed(s.users[i], SetActive(status.value == "active")) else s.users[i]
  {
    if status.None? || status.value !in ["active", "inactive"] then Refuse(s, 422, "Validation error")
    else match FindUser(s, id)
      case None => Refuse(s, 404, "User not found")
      case Some(u) =>
        if u.id == caller && status.value == "inactive" then Refuse(s, 403, "You cannot deactivate your own account")
        else
          var active := status.value == "active";
          Step(Success(200, "User status updated successfully", Account(Changed(u, SetActive(active)))),
               s.(users := SetUser(s.users, id, SetActive(active))))
  }

  /** `updateUserRole`: is_admin becomes (role = admin); an administrator cannot demote
      themself. */
  function UpdateUserRole(s: Store, caller: Id, id: Id, role: Option<string>): (r: Step<AccountView>)
    ensures r.response.Failure? ==> r.store == s
    ensures role.None? || role.value !in ["admin", "customer"] ==> r.response.Failure? && r.response.status == 422
    ensures role.Some? && role.value in ["admin", "customer"] && FindUser(s, id).None? ==>
      r.response == Failure(404, "User not found")
    ensures role.Some? && role.value in ["admin", "customer"] && FindUser(s, id).Some? ==>
      (r.response.Failure? && r.response.status == 403 <==> id == caller && role.value == "customer")
    ensures r.response.Failure? && r.response.status == 403 ==>
      r.response.message == "You cannot remove admin privileges from your own account"
    ensures role.Some? && role.value in ["admin", "customer"] && FindUser(s, id).Some?
            && !(id == caller && role.value == "customer") ==>
      r.response.Success? && r.response.data == Account(Changed(FindUser(s, id).value, SetAdmin(role.value == "admin")))
    ensures r.response.Success? ==>
      && r.response.data.role == role.value
      && r.store == s.(users := r.store.users)
      && |r.store.users| == |s.users|
      && forall i :: 0 <= i < |s.users| ==>
           r.store.users[i] == if s.users[i].id == id then Changed(s.users[i], SetAdmin(role.value == "admin")) else s.users[i]
  {
    if role.None? || role.value !in ["admin", "customer"] then Refuse(s, 422, "Validation error")
    else match FindUser(s, id)
      case None => Refuse(s, 404, "User not found")
      case Some(u) =>
        if u.id == caller && role.value == "customer" then Refuse(s, 403, "You cannot remove admin privileges from your own account")
        else
          var admin := role.value == "admin";
          Step(Success(200, "User role updated successfully", Account(Changed(u, SetAdmin(admin)))),
               s.(users := SetUser(s.users, id, SetAdmin(admin))))
  }

  /** `DELETE FROM users WHERE id = ?`. */
  function WithoutUser(users: seq<User>, id: Id): (r: seq<User>)
    ensures forall u :: u in r <==> u in users && u.id != id
  {
    Filter(users, (x: User) => x.id != id)
  }

  /** `deleteUser`. A user with orders is kept, deactivated, has `_deleted_<now>`
      appended to the email and loses their tokens; one without orders is removed. */
  function DeleteUser(s: Store, caller: Id, id: Id, now: nat): (r: Step<()>)
    ensures r.response.Failure? ==> r.store == s
    ensures FindUser(s, id).None? ==> r.response == Failure(404, "User not found")
    ensures FindUser(s, id).Some? ==> (r.response.Failure? <==> id == caller)
    ensures r.response.Success? ==> r.store == s.(users := r.store.users)
    ensures r.response.Success? && HasOrders(s, id) ==>
      && r.response.message == "User deactivated successfully (preserved due to existing orders)"
      && |r.store.users| == |s.users|
      && forall i :: 0 <= i < |s.users| ==>
           r.store.users[i] == if s.users[i].id == id then Changed(s.users[i], Retire(now)) else s.users[i]
    ensures r.response.Success? && !HasOrders(s, id) ==>
      && r.response.message == "User deleted successfully"
      && forall u :: u in r.store.users <==> u in s.users && u.id != id
  {
    match FindUser(s, id)
    case None => Refuse(s, 404, "User not found")
    case Some(u) =>
      if u.id == caller then Refuse(s, 403, "You cannot delete your own account")
      else if HasOrders(s, id) then
        Step(Success(200, "User deactivated successfully (preserved due to existing orders)", ()),
             s.(users := SetUser(s.users, id, Retire(now))))
      else
        Step(Success(200, "User deleted successfully", ()), s.(users := WithoutUser(s.users, id)))
  }

  // ---------------------------------------------------------------- properties

  /** An active administrator cannot lock themself out: whatever status change they
      ask for, their own row is still there, active and admin. */
  lemma StatusChangeKeepsCaller(s: Store, caller: Id, id: Id, status: Option<string>, me: User)
    requires me in s.users && me.id == caller && me.isActive && me.isAdmin
    ensures exists v :: v in UpdateUserStatus(s, caller, id, status).store.users && v.id == caller && v.isActive && v.isAdmin
  {
    var k :| 0 <= k < |s.users| && s.users[k] == me;
    var t := UpdateUserStatus(s, caller, id, status).store;
    assert t.users[k] in t.users;
  }

  /** Nor by a role change. */
  lemma RoleChangeKeepsCaller(s: Store, caller: Id, id: Id, role: Option<string>, me: User)
    requires me in s.users && me.id == caller && me.isActive && me.isAdmin
    ensures exists v :: v in UpdateUserRole(s, caller, id, role).store.users && v.id == caller && v.isActive && v.isAdmin
  {
    var k :| 0 <= k < |s.users| && s.users[k] == me;
    var t := UpdateUserRole(s, caller, id, role).store;
    assert t.users[k] in t.users;
  }

  /** Nor by a deletion. */
  lemma DeletionKeepsCaller(s: Store, caller: Id, id: Id, now: nat, me: User)
    requires me in s.users && me.id == caller && me.isActive && me.isAdmin
    ensures me in DeleteUser(s, caller, id, now).store.users
  {
    var r := DeleteUser(s, caller, id, now);
    if r.response.Success? && HasOrders(s, id) {
      var k :| 0 <= k < |s.users| && s.users[k] == me;
      assert r.store.users[k] in r.store.users;
    }
  }

  /** Deactivation and deletion both leave the user with no tokens; reactivation does
      not hand any back. */
  lemma DeactivationRevokesTokens(s: Store, caller: Id, id: Id, status: string)
    requires UpdateUserStatus(s, caller, id, Some(status)).response.Success?
    ensures forall v :: v in UpdateUserStatus(s, caller, id, Some(status)).store.users && v.id == id ==>
      (status == "inactive" ==> v.tokens == 0 && !v.isActive) && (status == "active" ==> v.isActive)
  {
    var t := UpdateUserStatus(s, caller, id, Some(status)).store;
    forall v | v in t.users && v.id == id
      ensures (status == "inactive" ==> v.tokens == 0 && !v.isActive) && (status == "active" ==> v.isActive)
    {
      var i :| 0 <= i < |t.users| && t.users[i] == v;
    }
  }
}

=== FILE: wishlists.dfy ===
/** The wishlist (`WishlistController`): per user, a set of products. */
module Wishlists {
  import opened Base
  import opened Schema

  /** The wishlist read as a set of (user, product) pairs. */
  function Entries(w: seq<WishlistEntry>): set<WishlistEntry> {
    set e | e in w
  }

  /** Set semantics in the table: no pair is stored twice. */
  predicate NoDuplicates(w: seq<WishlistEntry>) {
    forall i, j :: 0 <= i < j < |w| ==> w[i] != w[j]
  }

  /** `DELETE FROM wishlists WHERE id = ?` for the row `first()` found: the first copy of `e`. */
  function RemoveFirst(w: seq<WishlistEntry>, e: WishlistEntry): (r: seq<WishlistEntry>)
    ensures e in w ==> |r| == |w| - 1
    ensures e !in w ==> r == w
    ensures forall x :: x in r ==> x in w
  {
    if w == [] then []
    else if w[0] == e then w[1..]
    else [w[0]] + RemoveFirst(w[1..], e)
  }

  /** `index`: the caller's entries in table order. */
  function Index(s: Store, caller: Id): (r: Step<seq<WishlistEntry>>)
    ensures r.store == s && r.response.Success?
    ensures forall e :: e in r.response.data <==> e in s.wishlist && e.userId == caller
  {
    Step(Success(200, "", Filter(s.wishlist, (e: WishlistEntry) => e.userId == caller)), s)
  }

  /** `store`: add a product that exists and is not already there. */
  function Add(s: Store, caller: Id, productId: Option<Id>): (r: Step<WishlistEntry>)
    ensures r.response.Failure? ==> r.store == s
    ensures productId.None? || FindProduct(s, productId.value).None? ==> r.response == Failure(422, "Validation error")
    ensures productId.Some? && FindProduct(s, productId.value).Some? ==>
      var e := WishlistEntry(caller, productId.value);
      && (e in s.wishlist ==> r.response == Failure(400, "Product already in wishlist"))
      && (e !in s.wishlist ==>
            && r.response == Success(201, "Product added to wishlist", e)
            && Entries(r.store.wishlist) == Entries(s.wishlist) + {e}
            && r.store == s.(wishlist := r.store.wishlist))
  {
    if productId.None? || FindProduct(s, productId.value).None? then Refuse(s, 422, "Validation error")
    else
      var e := WishlistEntry(caller, productId.value);
      if e in s.wishlist then Refuse(s, 400, "Product already in wishlist")
      else Step(Success(201, "Product added to wishlist", e), s.(wishlist := s.wishlist + [e]))
  }

  /** `destroy`: remove the caller's entry for a product. */
  function Remove(s: Store, caller: Id, productId: Id): (r: Step<()>)
    ensures r.response.Failure? ==> r.store == s
    ensures r.response.Success? <==> WishlistEntry(caller, productId) in s.wishlist
    ensures r.response.Failure? ==> r.response == Failure(404, "Product not found in wishlist")
    ensures r.store == s.(wishlist := r.store.wishlist)
  {
    var e := WishlistEntry(caller, productId);
    if e !in s.wishlist then Refuse(s, 404, "Product not found in wishlist")
    else Step(Success(200, "Product removed from wishlist", ()), s.(wishlist := RemoveFirst(s.wishlist, e)))
  }

  /** `clear`: drop every entry of the caller. */
  function Clear(s: Store, caller: Id): (r: Step<()>)
    ensures r.response.Success?
    ensures forall e :: e in r.store.wishlist <==> e in s.wishlist && e.userId != caller
    ensures r.store == s.(wishlist := r.store.wishlist)
  {
    Step(Success(200, "Wishlist cleared successfully", ()), s.(wishlist := Filter(s.wishlist, (e: WishlistEntry) => e.userId != caller)))
  }

  /** `check`: whether the caller has the product listed. */
  function Check(s: Store, caller: Id, productId: Id): (r: Step<bool>)
    ensures r.store == s
    ensures r.response == Success(200, "", WishlistEntry(caller, productId) in Entries(s.wishlist))
  {
    Step(Success(200, "", exists i :: 0 <= i < |s.wishlist| && s.wishlist[i] == WishlistEntry(caller, productId)), s)
  }

  // ---------------------------------------------------------------- properties

  /** A duplicate-free table splits into a head that does not recur and a duplicate-free tail. */
  lemma NoDuplicatesSplit(w: seq<WishlistEntry>)
    requires NoDuplicates(w) && w != []
    ensures NoDuplicates(w[1..]) && w[0] !in w[1..]
    ensures w == [w[0]] + w[1..] && Entries(w) == {w[0]} + Entries(w[1..])
  {
    forall i, j | 0 <= i < j < |w[1..]| ensures w[1..][i] != w[1..][j] {
      assert w[1..][i] == w[i + 1] && w[1..][j] == w[j + 1];
    }
    forall k | 0 <= k < |w[1..]| ensures w[1..][k] != w[0] {
      assert w[1..][k] == w[k + 1];
    }
    assert w == [w[0]] + w[1..];
  }

  /** Putting an entry that is not there in front of a duplicate-free table keeps it so. */
  lemma PrependNoDuplicates(x: WishlistEntry, w: seq<WishlistEntry>)
    requires NoDuplicates(w) && x !in w
    ensures NoDuplicates([x] + w) && Entries([x] + w) == {x} + Entries(w)
  {
    var r := [x] + w;
    forall i, j | 0 <= i < j < |r| ensures r[i] != r[j] {
      assert r[j] == w[j - 1];
      if i > 0 {
        assert r[i] == w[i - 1];
      }
    }
  }

  /** Removing the first copy of an entry from a duplicate-free table removes it from the set. */
  lemma {:induction false} RemoveFirstEntries(w: seq<WishlistEntry>, e: WishlistEntry)
    requires NoDuplicates(w)
    ensures NoDuplicates(RemoveFirst(w, e))
    ensures Entries(RemoveFirst(w, e)) == Entries(w) - {e}
  {
    if w != [] {
      NoDuplicatesSplit(w);
      if w[0] != e {
        RemoveFirstEntries(w[1..], e);
        PrependNoDuplicates(w[0], RemoveFirst(w[1..], e));
      }
    }
  }

  /** `store` keeps the table duplicate-free. */
  lemma AddKeepsNoDuplicates(s: Store, caller: Id, productId: Option<Id>)
    requires NoDuplicates(s.wishlist)
    ensures NoDuplicates(Add(s, caller, productId).store.wishlist)
  {
    var w := Add(s, caller, productId).store.wishlist;
    if w != s.wishlist {
      forall i, j | 0 <= i < j < |w| ensures w[i] != w[j] {
        if j == |s.wishlist| {
          assert w[i] in s.wishlist;
        }
      }
    }
  }

  /** `destroy` takes exactly the named entry out of the set. */
  lemma RemoveIsSetDifference(s: Store, caller: Id, productId: Id)
    requires NoDuplicates(s.wishlist)
    ensures NoDuplicates(Remove(s, caller, productId).store.wishlist)
    ensures Entries(Remove(s, caller, productId).store.wishlist) == Entries(s.wishlist) - {WishlistEntry(caller, productId)}
  {
    RemoveFirstEntries(s.wishlist, WishlistEntry(caller, productId));
  }

  lemma {:induction false} RemoveFirstAfterAppend(w: seq<WishlistEntry>, e: WishlistEntry)
    requires e !in w
    ensures RemoveFirst(w + [e], e) == w
  {
    if w != [] {
      assert (w + [e])[1..] == w[1..] + [e];
      RemoveFirstAfterAppend(w[1..], e);
    }
  }

  /** Adding a product and then removing it restores the database. */
  lemma AddThenRemove(s: Store, caller: Id, productId: Id)
    requires Add(s, caller, Some(productId)).response.Success?
    ensures Remove(Add(s, caller, Some(productId)).store, caller, productId).store == s
  {
    var e := WishlistEntry(caller, productId);
    assert e in s.wishlist + [e];
    RemoveFirstAfterAppend(s.wishlist, e);
  }

  /** `check` after `store` answers true; after `destroy` it answers false. */
  lemma CheckAfterAddAndRemove(s: Store, caller: Id, productId: Id)
    requires NoDuplicates(s.wishlist)
    ensures Add(s, caller, Some(productId)).response.Success? ==>
      Check(Add(s, caller, Some(productId)).store, caller, productId).response.data
    ensures !Check(Remove(s, caller, productId).store, caller, productId).response.data
  {
    RemoveIsSetDifference(s, caller, productId);
  }
}
